=== FILE: README.md ===
# Phearman in Dafny

A model of Phearman's core. Phearman is a PHP client and worker library for the
Gearman job-server protocol. The model covers:

- **The packet model.** The `Phearman` constant table holds the magic codes `REQ`/`RES`
  and the `TYPE_*` codes. `Task` has request and response variants, each with its own
  fields. The magic `getX`/`setX` accessors and `Task::factory` are modelled too. The
  factory turns a type code and a direction into a class name by rewriting the
  constant's name.
- **Framing.** `Task::__toString` builds a frame: `"\0"`, then the magic code, a
  big-endian 32-bit type, a big-endian 32-bit length, and the payload. As written the
  payload is the data part joined on NUL when the data part is an array, and empty
  otherwise, so CAN_DO and WORK_COMPLETE go out empty. The model renders a string data
  part as itself (Findings, row 1). On the way back in, each response class's
  `setFromResponse` splits the payload on NUL.
- **Reading a frame from a byte stream.** There are three readers:
  - `Client::read` does not look at the magic code.
  - `Adapter::read` repeats its 4+8-byte reads while the magic read comes back empty.
  - `Socket::read` drops 4-byte windows until one reads `RES` once trimmed of NULs.
  
  Each reader then decodes the header, builds the task through the factory and reads
  exactly the payload length.
- **The adapters' host list.** The constructor normalises the hosts and `addServer`
  adds to them.
- **The worker.** This covers the registry `addFunction` fills and `updateStatus`. It
  also covers `work`: one CAN_DO per registered job, then GRAB_JOB, then the
  `checkForJob` loop. As written, the loop's first read throws at the log line, so
  nothing is ever answered (`Workers.SessionAsWrittenStops`). The model's loop is the
  corrected one (Findings, rows 1, 5 and 6). In it, NO_JOB is answered with PRE_SLEEP,
  NOOP with a new GRAB_JOB, and JOB_ASSIGN with WORK_COMPLETE and then GRAB_JOB.
- **The client.** `submitJob` does one read for a background type and two for a
  foreground type. `echoRequest` does one read. Both keep `lastTask` and
  `lastTaskResponses` up to date.

Bytes are `seq<byte>`. A connection is two byte sequences: the bytes the server has
sent and nobody has read yet, and the frames written so far. `fread($n)` takes at most
`n` bytes from the front of the inbound sequence. A PHP exception becomes the `Err`
case of a `Result`. A loop that would spin for ever on an exhausted stream ends with
`Err(Stalled)` instead.

The files, in dependency order:

- `base.dfy`: bytes, `Option`/`Result`, PHP values, and decimal rendering.
- `php_string.dfy`: the PHP string functions the factory and `__call` use
  (`strtolower`, `strtoupper`, `ucwords`, `lcfirst`, `ucfirst`, `str_replace`).
- `phearman.dfy`: the constant table.
- `codec.dfy`: `pack('N')`/`unpack('N2')`, `explode`/`implode` on NUL, and the frame
  layout.
- `tasks.dfy`: task classes, properties and `__call`.
- `requests.dfy`, `responses.dfy`: the request and response classes.
- `frames.dfy`: `__toString` and the payload parsers.
- `factory.dfy`: `Task::factory`.
- `stream.dfy`: the three read functions.
- `adapter.dfy`: the `Adapter` and `Socket` classes.
- `worker.dfy`: the `Worker` class and its loop.
- `client.dfy`: the `Client` class.

Six defects in the code are listed under "## Findings". Each is modelled twice: once
as written and once corrected. The readers, the factory, the worker's loop and the
client's guard are built from the corrected members. A member defined through
`Streams.Decode`, `TaskFactory.Instantiate` or `Frames.ToString` inherits that
member's "## Left out" line. It describes the corrected program: an ERROR or
STATUS_RES task has type 19 or 20 (Findings, row 2), the last payload field keeps its
NULs (row 3), and CAN_DO and WORK_COMPLETE carry their payloads (row 1). Three
families of members are built this way:

- the readers: `Streams.ReadFrame`, `ClientRead`, `AdapterRead` and `SocketRead`, and
  the lemmas and methods about them, including `Adapters.Adapter.Read`,
  `Adapters.Socket.Read`, `Clients.ReadOn` and `Clients.Client.Read`;
- the client's operations on them: `Clients.Submit`, `Clients.Echo` and the
  `Client` methods that implement them;
- the worker's steps on them: `Workers.Check`, `Workers.Loop`, `Workers.Session` and
  the lemmas and methods about them.

The as-written counterparts are the `...AsWritten` members named in "## Findings".
Apart from those six defects, where the code and the protocol's intent disagree, the
model follows the code:

- **The factory** is not a fixed table over every packet type. It finds a class by
  rewriting the constant's name. Only 17 classes exist, so a valid type code with no
  class fails as `ClassNotFound` (`TaskFactory.FactoryMissingClass`).
- **Socket resynchronisation** has no bound. It ends only at a `RES` window.
- **`Client::read`** does not resynchronise at all.
- **Missing payload fields** are left null. A packet with too few fields is not
  refused.
- **The job function** gets no WORK_FAIL path. Whatever it returns becomes the
  workload of WORK_COMPLETE.

## Model

| member | source | states |
|---|---|---|
| Base.Take | classes/Phearman/Adapter/Socket.php:91 | `fread($n)` on a finite stream returns a prefix of it, of length `n` or whatever is left |
| Base.DigitsRoundTrip | classes/Phearman/Adapter.php:50 | the decimal rendering of a port number reads back as that number |
| Base.DecimalNulFree | classes/Phearman/Task/Request/WorkStatus.php:43-46 | a number rendered in decimal never contains a NUL, so it cannot split a field |
| PhpString.LcFirstUcFirst | classes/Phearman/Task.php:93 | `lcfirst` undoes `ucfirst` on a name that starts with a lower-case letter, which is how `__call` recovers a property name from its accessor |
| PhpString.ToUpperIdempotent | classes/Phearman/Task.php:30 | upper-casing the direction twice is upper-casing it once |
| PhpString.ClassNameOfConstant | classes/Phearman/Task.php:46-47 | the factory's rewriting of `TYPE_` + the words joined by `_` yields the words in CamelCase, and so does the same rewriting without the prefix |
| PhpString.DropType | classes/Phearman/Task.php:46 | removing `TYPE_` from a constant's words joined by `_` changes nothing, since no word ends in `TYPE` |
| PhpString.Underscores | classes/Phearman/Task.php:46 | replacing `_` with a space joins the same words with spaces |
| PhpString.LowerJoined | classes/Phearman/Task.php:46 | lower-casing joined words is joining the lower-cased words |
| PhpString.CapitalizeJoined | classes/Phearman/Task.php:46 | `ucwords` on lower-case words joined by spaces capitalises each word and nothing else |
| PhpString.RemoveSpaces | classes/Phearman/Task.php:47 | removing the spaces concatenates the words |
| PhpString.CamelOfConstWords | classes/Phearman/Task.php:46-47 | lower-casing and then capitalising every word and concatenating them is the CamelCase of the constant's words |
| PhpString.CamelCaseInjective | classes/Phearman/Task.php:46-48 | two constants give the same class name exactly when they have the same words |
| Phearman.CodesDistinct | classes/Phearman.php:26-63 | the TYPE_* codes are pairwise distinct |
| Phearman.LookupInverse | classes/Phearman.php:26-63 | looking a code up gives back its constant and no other, so the factory's reverse lookup is deterministic |
| Phearman.CodeRange | classes/Phearman.php:26-63 | a code names a constant exactly when it lies in 1..36 and is not 5 |
| Phearman.SubmitFamily | classes/Phearman.php:31-63 | the SUBMIT_JOB family is exactly the codes 7, 18, 21, 32, 33, 34, 35, 36 |
| Phearman.WordsInjective | classes/Phearman.php:26-63 | no two constants have the same name |
| Phearman.CodeRequestIsNoType | classes/Phearman.php:21 | `CODE_REQUEST` is not the name of any TYPE_* constant |
| Phearman.WorkerLoopCodes | classes/Phearman.php:29-36 | PRE_SLEEP=4, NOOP=6, GRAB_JOB=9, NO_JOB=10, JOB_ASSIGN=11 |
| Codec.UnpackPack | classes/Phearman/Task.php:69 | `unpack('N')` of `pack('N', n)` is `n` modulo 2^32 |
| Codec.PackUnpack | classes/Phearman/Adapter/Socket.php:75 | every 4 bytes are the packing of what they unpack to |
| Codec.UnpackHeader | classes/Phearman/Adapter/Socket.php:74-77 | a header decodes to (type, length) exactly when 8 bytes are present |
| Codec.ImplodeSeparators | classes/Phearman/Task.php:60-62 | joining NUL-free fields puts exactly one NUL between consecutive fields and none at the ends |
| Codec.ExplodeImplode | classes/Phearman/Task/Response/JobAssign.php:39 | splitting NUL-free fields joined on NUL gives the fields back |
| Codec.ImplodeExplode | classes/Phearman/Task/Response/JobAssign.php:39 | joining what a split produced gives the original bytes back |
| Codec.ExplodeLimitImplode | classes/Phearman/Task/Response/JobAssign.php:39-42 | a split limited to the field count gives fields back even when the last one holds NULs |
| Codec.ExplodeCount | classes/Phearman/Task/Response/StatusRes.php:42 | a split yields one more field than the packet has NULs |
| Codec.ExplodeLimitCount | classes/Phearman/Task/Response/StatusRes.php:42 | a limited split yields one more field than there are NULs, capped at the limit |
| Codec.Magic | classes/Phearman.php:19-22 | the magic code is 4 bytes |
| Codec.FrameParts | classes/Phearman/Task.php:68-70 | a frame is the magic code, then a header that decodes to (type mod 2^32, payload length mod 2^32), then the payload |
| Codec.FrameRoundTrip | classes/Phearman/Task.php:57-73 | decoding a frame gives back its direction, its type modulo 2^32 and its payload |
| Tasks.PropertiesHas | classes/Phearman/Task.php:97-105 | the declared properties of a class are exactly the ones its task carries |
| Tasks.Set | classes/Phearman/Task.php:107-117 | after `setX(v)`, `getX()` returns `v`; every other property, the code, the type and the class are unchanged |
| Tasks.Find | classes/Phearman/Task.php:97-105 | `getProperty` finds a declared property by its exact name, or reports that none has it |
| Tasks.Resolve | classes/Phearman/Task.php:83-119 | a magic call resolves only to a declared property of the task's class; otherwise it throws "method does not exist" for that method name |
| Tasks.ResolveAccessors | classes/Phearman/Task.php:86-117 | `getX` and `setX` resolve to the getter and the setter of every declared property `x` |
| Tasks.PropNamesDistinct | classes/Phearman/Task.php:97-100 | property names identify properties |
| Tasks.TypeNameUnresolved | classes/Phearman/Task.php:97-105 | `getTypeName()` resolves on no task class and always throws |
| Tasks.TypeName | classes/Phearman/Worker.php:154 | the name the log line evidently wants: present exactly when the type is a known code, and then the name of the constant whose code it is |
| Requests.NewCanDo | classes/Phearman/Task/Request/CanDo.php:28-34 | direction REQ, type CAN_DO, and the function name as given |
| Requests.NewEchoReq | classes/Phearman/Task/Request/EchoReq.php:25-30 | direction REQ, type ECHO_REQ, and the data stored unchanged |
| Requests.NewGetStatus | classes/Phearman/Task/Request/GetStatus.php:22-28 | direction REQ, type GET_STATUS, and no handle until the setter gives one |
| Requests.NewGrabJob | classes/Phearman/Task/Request/GrabJob.php:25-30 | direction REQ, type GRAB_JOB |
| Requests.NewPreSleep | classes/Phearman/Task/Request/PreSleep.php:25-30 | direction REQ, type PRE_SLEEP |
| Requests.SubmittableFamily | classes/Phearman/Task/Request/SubmitJob.php:42-52 | the constructor accepts exactly {7, 21, 33, 18, 32, 34}; these are all submit types, and the only submit types it refuses are SCHED (35) and EPOCH (36) |
| Requests.NewSubmitJob | classes/Phearman/Task/Request/SubmitJob.php:39-58 | succeeds exactly for an accepted type, with direction REQ, the given type and unique id, and no name or workload yet; any other type throws |
| Requests.NewWorkComplete | classes/Phearman/Task/Request/WorkComplete.php:28-34 | direction REQ, type WORK_COMPLETE, the handle as given and no workload |
| Requests.SetWorkload | classes/Phearman/Task/Request/WorkComplete.php:36-39 | replaces only the workload; the handle, code, type and length are unchanged |
| Requests.NewWorkStatus | classes/Phearman/Task/Request/WorkStatus.php:32-39 | direction REQ, type WORK_STATUS, and all three arguments stored unchanged |
| Responses.NewEchoRes | classes/Phearman/Task/Response/EchoRes.php:25-29 | direction RES, type ECHO_RES |
| Responses.NewJobAssign | classes/Phearman/Task/Response/JobAssign.php:31-35 | direction RES, type JOB_ASSIGN |
| Responses.NewJobCreated | classes/Phearman/Task/Response/JobCreated.php:27-31 | direction RES, type JOB_CREATED |
| Responses.NewNoJob | classes/Phearman/Task/Response/NoJob.php:23-27 | direction RES, type NO_JOB |
| Responses.NewNoop | classes/Phearman/Task/Response/Noop.php:22-26 | direction RES, type NOOP |
| Responses.NewWorkCompleteRes | classes/Phearman/Task/Response/WorkComplete.php:27-31 | direction RES, type WORK_COMPLETE |
| Responses.NewWorkStatusRes | classes/Phearman/Task/Response/WorkStatus.php:33-37 | direction RES, type WORK_STATUS |
| Responses.NewError | classes/Phearman/Task/Response/Error.php:28-32 | corrected: direction RES, type ERROR (19) |
| Responses.NewErrorAsWritten | classes/Phearman/Task/Response/Error.php:30-31 | as written: the Error class gets type JOB_CREATED (8), so its type does not match its class |
| Responses.NewStatusRes | classes/Phearman/Task/Response/StatusRes.php:34-38 | corrected: direction RES, type STATUS_RES (20) |
| Responses.NewStatusResAsWritten | classes/Phearman/Task/Response/StatusRes.php:36-37 | as written: the StatusRes class gets type JOB_CREATED (8), so its type does not match its class |
| Responses.Field | classes/Phearman/Task/Response/StatusRes.php:43-47 | `$packet[i]` is the i-th split field when present and null when missing |
| Responses.SetFromResponse | classes/Phearman/Task/Response/JobAssign.php:37-43 | corrected parse, with the last field split off by a limited `explode`. It succeeds exactly for the classes that define a parser, and throws for the others. Code, type, length and class are kept |
| Responses.SetFromResponseAsWritten | classes/Phearman/Task/Response/Error.php:34-39 | as written, with `explode` unlimited: succeeds for the same classes and keeps code, type and class |
| Frames.ToString | classes/Phearman/Task.php:57-73 | the frame is 12 + payload bytes long: the magic code for the task's direction, then a header that decodes to (type mod 2^32, payload length mod 2^32), then the payload. The task comes back with `length` set to the payload length and nothing else changed |
| Frames.ToStringAsWritten | classes/Phearman/Task.php:60-65 | as written, the frame length and the recorded length follow what the join yields |
| Frames.RenderArrays | classes/Phearman/Task.php:60-62 | for an array data part the code as written and the intended rendering agree; for a string data part the code as written emits nothing where the intended rendering emits the string |
| Frames.NoDataFrame | classes/Phearman/Task.php:53-70 | a task with no data part has an empty payload, a 12-byte frame and length 0 |
| Frames.NoDataClasses | classes/Phearman/Task.php:53 | GRAB_JOB, PRE_SLEEP and every response class have no data part |
| Frames.GrabJobFrame | classes/Phearman/Task/Request/GrabJob.php:25-30 | the GRAB_JOB frame is exactly `"\0REQ"`, BE32(9), BE32(0) |
| Frames.PreSleepFrame | classes/Phearman/Task/Request/PreSleep.php:25-30 | the PRE_SLEEP frame is exactly `"\0REQ"`, BE32(4), BE32(0) |
| Frames.CanDoPayload | classes/Phearman/Task/Request/CanDo.php:36-39 | intended: the payload is the function name and the frame is 12 + its length. As written the payload is empty |
| Frames.EchoReqPayload | classes/Phearman/Task/Request/EchoReq.php:32-35 | the payload is the data, NULs included, and the length is its byte count |
| Frames.GetStatusPayload | classes/Phearman/Task/Request/GetStatus.php:30-33 | with no handle the payload is empty; after `setJobHandle(h)` it is exactly `h` |
| Frames.SubmitTask | classes/Phearman/Client.php:86-89 | building the submit request succeeds exactly for an accepted type |
| Frames.SubmitTaskFields | classes/Phearman/Client.php:86-89 | the request carries the given function name, unique id and workload, direction REQ and the given type |
| Frames.SubmitJobPayload | classes/Phearman/Task/Request/SubmitJob.php:60-66 | the payload is the function name, NUL, unique id, NUL, workload, in that order, with the workload verbatim |
| Frames.SubmitJobData | classes/Phearman/Task/Request/SubmitJob.php:60-66 | the SUBMIT_JOB field order for any type |
| Frames.SubmitJobNoUniqueId | classes/Phearman/Task/Request/SubmitJob.php:39-66 | a null unique id gives the payload name, NUL, NUL, workload |
| Frames.WorkStatusPayload | classes/Phearman/Task/Request/WorkStatus.php:41-47 | handle, numerator and denominator in decimal, with exactly two NULs, splitting back into the three fields |
| Frames.WorkCompletePayload | classes/Phearman/Task/Request/WorkComplete.php:41-46 | intended: the payload is handle, NUL, workload. As written it is empty |
| Frames.ParseJoined | classes/Phearman/Task/Response/JobAssign.php:37-43 | parsing fields joined on NUL, all but the last NUL-free, recovers every field in order |
| Frames.JobAssignParse | classes/Phearman/Task/Response/JobAssign.php:37-43 | handle, function name and workload come back in order, and the workload may hold NULs |
| Frames.JobAssignParseAsWritten | classes/Phearman/Task/Response/JobAssign.php:39-42 | as written, a NUL inside the workload truncates it |
| Frames.JobAssignMissing | classes/Phearman/Task/Response/JobAssign.php:39-42 | with fewer than two NULs the workload is null; with none the function name is null too |
| Frames.WorkCompleteRoundTrip | classes/Phearman/Task/Response/WorkComplete.php:33-38 | parsing a worker's WORK_COMPLETE payload gives back its handle and workload, NULs in the workload included |
| Frames.WorkCompleteParseAsWritten | classes/Phearman/Task/Response/WorkComplete.php:35-37 | as written, a NUL inside the workload truncates it |
| Frames.WorkStatusRoundTrip | classes/Phearman/Task/Response/WorkStatus.php:39-45 | parsing a worker's WORK_STATUS payload gives back the handle and the two numbers as decimal text |
| Frames.ErrorParse | classes/Phearman/Task/Response/Error.php:34-39 | code and text come back, and the text may hold NULs |
| Frames.ErrorParseAsWritten | classes/Phearman/Task/Response/Error.php:36-38 | as written, a NUL inside the error text truncates it |
| Frames.StatusResParse | classes/Phearman/Task/Response/StatusRes.php:40-48 | handle, known, running, numerator and denominator come back in order, as raw text |
| Frames.StatusResMissing | classes/Phearman/Task/Response/StatusRes.php:42-47 | with fewer than four NULs the denominator is null |
| Frames.JobCreatedParse | classes/Phearman/Task/Response/JobCreated.php:33-36 | the handle is the whole payload, NULs included |
| Frames.EchoRoundTrip | classes/Phearman/Task/Response/EchoRes.php:31-34 | parsing an ECHO_REQ's payload as ECHO_RES gives back the data unchanged |
| Frames.NoParser | classes/Phearman/Task.php:55 | NOOP, NO_JOB and every request class have no parser: calling it throws |
| TaskFactory.ConstantName | classes/Phearman/Task.php:27-29 | `array_search` finds `CODE_REQUEST` for 0 (`0 == 'REQ'` in PHP). For any other code it finds the TYPE_* constant with that code, or nothing |
| TaskFactory.ClassesExist | classes/Phearman/Task.php:48-50 | the listed classes are exactly those that exist in each namespace |
| TaskFactory.Load | classes/Phearman/Task.php:50 | `new $className` finds the class with that CamelCase name, or none exists |
| TaskFactory.Instantiate | classes/Phearman/Task.php:50 | every existing class is built with no arguments, with the matching direction, class and type code and no length |
| TaskFactory.DefaultSubmitJob | classes/Phearman/Task/Request/SubmitJob.php:39-58 | `new SubmitJob()` takes the default type SUBMIT_JOB, which the constructor accepts, and a null unique id |
| TaskFactory.Factory | classes/Phearman/Task.php:25-51 | an unknown code throws "invalid type". A direction other than REQ/RES, in any case, throws. Otherwise the task is well typed, has no length yet and has the requested direction |
| TaskFactory.InstantiateResponseAsWritten | classes/Phearman/Task.php:50 | as written, every response class is built with its own class, direction RES and no length; Error and StatusRes get type JOB_CREATED (8) and every other class its own code |
| TaskFactory.FactoryAsWritten | classes/Phearman/Task.php:25-51 | as written, the factory fails exactly where the corrected one fails, with the same fault, and otherwise builds the same task except that a new Error or StatusRes has type JOB_CREATED (8) |
| TaskFactory.FactoryRetypesAsWritten | classes/Phearman/Task/Response/Error.php:31 | as written, the factory given ERROR or STATUS_RES builds the constructor's task of type 8; corrected, it builds one of type 19 or 20 |
| TaskFactory.FactoryFindsClass | classes/Phearman/Task.php:43-50 | for every existing class, SubmitJob included, the factory succeeds and builds that class in the matching namespace |
| TaskFactory.FactoryMissingClass | classes/Phearman/Task.php:46-50 | a valid code whose class does not exist fails, naming the class it looked for |
| TaskFactory.FactoryCodeZero | classes/Phearman/Task.php:29-32 | code 0 passes the type guard, then fails looking for class `CodeRequest` |
| TaskFactory.FactoryNeverStalls | classes/Phearman/Task.php:25-51 | the factory always returns |
| TaskFactory.JobAssignClassName | classes/Phearman/Task.php:46-47 | JOB_ASSIGN maps to `JobAssign` |
| TaskFactory.NoJobClassName | classes/Phearman/Task.php:46-47 | NO_JOB maps to `NoJob` |
| TaskFactory.ClassOfType | classes/Phearman/Task.php:46-47 | the rewritten name of every constant is the CamelCase of its words |
| TaskFactory.LoadByName | classes/Phearman/Task.php:48-50 | a class is found by its CamelCase name exactly when it exists |
| TaskFactory.FactoryCaseInsensitive | classes/Phearman/Task.php:30 | the direction is matched case-insensitively |
| TaskFactory.ResponseCodes | classes/Phearman/Task.php:25-51 | the response factory succeeds exactly for the codes {6, 8, 10, 11, 12, 13, 17, 19, 20} |
| TaskFactory.RequestCodes | classes/Phearman/Task.php:25-51 | the request factory succeeds exactly for the codes {1, 4, 7, 9, 12, 13, 15, 16} |
| TaskFactory.RequestTypeCodes | classes/Phearman/Task.php:46-50 | the request classes that exist are exactly those of the codes {1, 4, 7, 9, 12, 13, 15, 16} |
| TaskFactory.ResponseTypeCodes | classes/Phearman/Task.php:46-50 | the response classes that exist are exactly those of the codes {6, 8, 10, 11, 12, 13, 17, 19, 20} |
| Streams.Decode | classes/Phearman/Adapter/Socket.php:83-92 | a failing factory is passed on. Otherwise the task has the class and type the factory chose, direction RES and the header's length |
| Streams.DecodeAsWritten | classes/Phearman/Client.php:157-175 | as written, a failing factory is passed on; otherwise the task has direction RES, the header's length and the type the as-written factory gives |
| Streams.ClientReadAsWritten | classes/Phearman/Client.php:157-175 | as written, `Client::read` consumes the same bytes as the corrected read and succeeds exactly when it does, with the same class and length; an ERROR or STATUS_RES task has type JOB_CREATED (8), any other the same type |
| Streams.ReadFrame | classes/Phearman/Adapter/Socket.php:74-94 | the header-and-payload tail never reads past the stream and never stalls |
| Streams.ClientRead | classes/Phearman/Client.php:157-175 | `Client::read` never consumes more than the stream holds |
| Streams.AdapterRead | classes/Phearman/Adapter.php:117-151 | `Adapter::read` stalls exactly on an empty stream; otherwise it reads as `Client::read` does |
| Streams.Resync | classes/Phearman/Adapter/Socket.php:68-71 | the resynchronisation ends inside the stream and after at least one window |
| Streams.SocketRead | classes/Phearman/Adapter/Socket.php:60-95 | `Socket::read` stalls exactly when no window reads `RES`, and never consumes more than the stream holds |
| Streams.MagicWindows | classes/Phearman/Adapter/Socket.php:70-71 | `"\0RES"` and `"RES\0"` end the resynchronisation; `"\0REQ"` does not |
| Streams.ReadWholeFrame | classes/Phearman/Adapter/Socket.php:74-92 | after the magic code, a header and payload read as the decoded task. Exactly 8 + length bytes are consumed, or 8 when the factory fails |
| Streams.ClientIgnoresMagic | classes/Phearman/Client.php:159 | `Client::read` gives the same result whatever the first 4 bytes are |
| Streams.ClientReadsFrame | classes/Phearman/Client.php:157-175 | a frame reads as its decoded task and consumes 12 + length bytes |
| Streams.ShortRead | classes/Phearman/Client.php:159-165 | fewer than 12 bytes give a header with no type, which the factory refuses |
| Streams.ResyncSkipsJunk | classes/Phearman/Adapter/Socket.php:68-71 | k windows that do not read `RES`, then `"\0RES"`: the resynchronisation consumes exactly 4k + 4 bytes |
| Streams.SocketReadsAfterJunk | classes/Phearman/Adapter/Socket.php:68-92 | one read after k junk windows consumes 4k + 12 + length bytes and no more |
| Streams.SocketStallsWithoutMagic | classes/Phearman/Adapter/Socket.php:68-71 | a stream of junk windows only never ends the loop |
| Streams.RequestMagicSkipped | classes/Phearman/Adapter/Socket.php:68-71 | a `"\0REQ"` window is skipped like any junk |
| Streams.DecodeEmpty | classes/Phearman/Adapter/Socket.php:88 | length 0 returns the fresh task without calling the parser |
| Streams.DecodeFilled | classes/Phearman/Adapter/Socket.php:91-92 | a non-empty payload goes to `setFromResponse` |
| Streams.DecodeNoParser | classes/Phearman/Adapter/Socket.php:91-92 | a NOOP or NO_JOB carrying a payload throws, since neither class has a parser |
| Streams.SocketReadsClass | classes/Phearman/Adapter/Socket.php:60-95 | a RES frame of an existing class with a payload reads as that class parsed from the payload, and consumes exactly the frame |
| Streams.SocketReadsEmpty | classes/Phearman/Adapter/Socket.php:60-95 | an empty RES frame reads as the fresh task with length 0, and consumes 12 bytes |
| Streams.JobAssignOverSocket | classes/Phearman/Adapter/Socket.php:60-95 | a JOB_ASSIGN frame reads as its handle, function name and workload |
| Streams.ClientReadsClass | classes/Phearman/Client.php:157-175 | any frame of an existing response class reads as that class parsed from the payload |
| Streams.ReadTypes | classes/Phearman/Client.php:165 | every task a read returns has a type in 1..36 |
| Streams.SocketReadWellTyped | classes/Phearman/Adapter/Socket.php:83 | every task the socket reads has a type matching its class, direction RES, and took at least 12 bytes |
| Adapters.LastColon | classes/Phearman/Adapter.php:46 | the position of the last colon in a host name, if any |
| Adapters.PortOf | classes/Phearman/Adapter.php:46-65 | the port `parse_url` finds is at most 65535 |
| Adapters.WithPort | classes/Phearman/Adapter.php:50-67 | a host that names a port is kept; any other gets `":" + port` |
| Adapters.WithPorts | classes/Phearman/Adapter.php:64-69 | each host gets its port, in the order given |
| Adapters.Normalized | classes/Phearman/Adapter.php:38-70 | the constructor throws exactly for an argument that is neither a string nor a list; a list is normalised host by host |
| Adapters.PortAppended | classes/Phearman/Adapter.php:50 | appending `":" + port` makes a host name a port |
| Adapters.NormalizedHostsHavePorts | classes/Phearman/Adapter.php:64-69 | after construction every host names a port; hosts that already had one are unchanged and the order is kept |
| Adapters.WithPortIdempotent | classes/Phearman/Adapter.php:50-67 | giving a host its port twice is giving it once |
| Adapters.SingleHost | classes/Phearman/Adapter.php:45-52 | a single host string becomes a one-element list with its port |
| Adapters.AddServerProperties | classes/Phearman/Adapter.php:72-76 | `addServer` twice is `addServer` once. The list keeps its order and afterwards holds the host. It never gains a duplicate |
| Adapters.FinishRead | classes/Phearman/Adapter.php:131-150 | the header-and-payload reading statements compute the read function's result and leave the rest of the stream |
| Adapters.Adapter.constructor | classes/Phearman/Adapter.php:62-69 | the loop stores each host with its port, in order |
| Adapters.Adapter.Open | classes/Phearman/Adapter.php:38-70 | the constructor on any argument: a string is wrapped, anything but a string or a list throws |
| Adapters.Adapter.AddServer | classes/Phearman/Adapter.php:72-76 | the host list becomes the one `addServer` specifies |
| Adapters.Adapter.Send | classes/Phearman/Adapter.php:106-115 | exactly the task's frame is written |
| Adapters.Adapter.Read | classes/Phearman/Adapter.php:117-151 | the loop and tail compute `Adapter::read` and consume exactly what it consumes |
| Adapters.Socket.constructor | classes/Phearman/Adapter.php:62-69 | the inherited constructor stores each host with its port |
| Adapters.Socket.Write | classes/Phearman/Adapter/Socket.php:49-58 | exactly the task's frame is written |
| Adapters.Socket.Read | classes/Phearman/Adapter/Socket.php:60-95 | computes `Socket::read` and consumes exactly what it consumes |
| Adapters.Socket.SkipToMagic | classes/Phearman/Adapter/Socket.php:68-71 | the loop ends just after the first `RES` window exactly when there is one; otherwise the stream runs dry |
| Workers.Lookup | classes/Phearman/Worker.php:63 | the function registered for a job name, present exactly when the name is a key |
| Workers.Put | classes/Phearman/Worker.php:63 | `$functions[$k] = $v` adds one entry for a new key and none for an existing one |
| Workers.PutLookup | classes/Phearman/Worker.php:63 | afterwards the key gives the new function and every other key what it gave before |
| Workers.PutKeys | classes/Phearman/Worker.php:63 | the keys keep their insertion order; a new key goes at the end |
| Workers.PutDistinct | classes/Phearman/Worker.php:63 | registering a job name again keeps the keys unique |
| Workers.Registration | classes/Phearman/Worker.php:51-64 | `addFunction` fails only with "non-existent function" |
| Workers.RegistrationEffect | classes/Phearman/Worker.php:51-64 | registration succeeds exactly when the function exists. A missing function name means the job name. The job then leads to its function, other jobs are untouched, and keys stay unique |
| Workers.Wire | classes/Phearman/Adapter/Socket.php:57 | the frames written for a list of tasks, one per task, in order |
| Workers.CanDos | classes/Phearman/Worker.php:117-125 | one CAN_DO per registered job name, in registry order |
| Workers.Dispatch | classes/Phearman/Worker.php:171 | corrected: the registry's function runs for the job; a job name that is not registered gives a null callback and so a null result |
| Workers.DispatchAsWritten | classes/Phearman/Worker.php:171 | as written: the job's own function name is called, and a function that is not defined yields null |
| Workers.AssignedJob | classes/Phearman/Worker.php:166 | a task of type JOB_ASSIGN read from the socket is a JobAssign |
| Workers.React | classes/Phearman/Worker.php:156-179 | `checkForJob` writes exactly one task after NO_JOB or JOB_ASSIGN, registered job name or not, and nothing after any other type |
| Workers.Check | classes/Phearman/Worker.php:150-182 | a task read is well typed and consumes bytes, and what is written answers it; a failed read writes nothing |
| Workers.Loop | classes/Phearman/Worker.php:128-147 | every job the inner and outer loops handle was read and answered |
| Workers.Session | classes/Phearman/Worker.php:112-148 | `work` handles the same jobs as the loop, leaves the same stream and ends the same way |
| Workers.CheckAsWritten | classes/Phearman/Worker.php:150-154 | as written, a step that gets past the log line has consumed bytes |
| Workers.WireAsWritten | classes/Phearman/Task.php:57-73 | as written, the frames of a list of tasks, one per task, in order |
| Workers.SessionAsWrittenStops | classes/Phearman/Worker.php:112-154 | as written, `work` writes one CAN_DO per job name and one GRAB_JOB, then its first read ends it, with `getTypeName` not found or with the read's own fault. No job is handled. Every CAN_DO frame is 12 bytes with length 0 |
| Workers.Count | classes/Phearman/Worker.php:117-176 | the number of written tasks of one type |
| Workers.Worker.constructor | classes/Phearman/Worker.php:33 | a new worker has an empty registry |
| Workers.Worker.AddFunction | classes/Phearman/Worker.php:51-64 | the registry becomes what registration specifies; on failure it is unchanged and the fault is reported; keys stay unique |
| Workers.Worker.UpdateStatus | classes/Phearman/Worker.php:94-100 | exactly one WORK_STATUS frame with the handle, numerator and denominator is written |
| Workers.Worker.CheckForJob | classes/Phearman/Worker.php:150-182 | computes one step of the loop: the task read, the frames written for it, the stream left |
| Workers.Worker.RegisterCapabilities | classes/Phearman/Worker.php:117-125 | writes the CAN_DO frames of every registered job name, in order |
| Workers.Worker.Work | classes/Phearman/Worker.php:112-148 | writes exactly the session's frames, consumes what it consumes and stops with its fault |
| Workers.Worker.Await | classes/Phearman/Worker.php:134-146 | the inner loop stops at a read that throws or at NOOP or JOB_ASSIGN, having written the answers so far |
| Workers.ReplyOrder | classes/Phearman/Worker.php:128-176 | what follows a job: PRE_SLEEP and no GRAB_JOB after NO_JOB; GRAB_JOB after NOOP; WORK_COMPLETE with the job's handle and the dispatched function's output, then GRAB_JOB, after JOB_ASSIGN; nothing after any other type |
| Workers.ReplyCount | classes/Phearman/Worker.php:142-176 | for one job: one PRE_SLEEP per NO_JOB, one WORK_COMPLETE per JOB_ASSIGN, one GRAB_JOB per NOOP or JOB_ASSIGN, and no CAN_DO |
| Workers.RepliesCount | classes/Phearman/Worker.php:134-176 | the same counts over any list of handled jobs |
| Workers.LoopReplies | classes/Phearman/Worker.php:128-147 | everything the loop writes is a reply to a job it read, in the order the jobs came |
| Workers.CanDosCount | classes/Phearman/Worker.php:117-125 | the registration writes one CAN_DO per job name and nothing else |
| Workers.SessionOpens | classes/Phearman/Worker.php:117-132 | a session opens with one CAN_DO per job name in registry order, then GRAB_JOB, before anything is read |
| Workers.SessionCounts | classes/Phearman/Worker.php:112-182 | over a session: one CAN_DO per job name, and one GRAB_JOB more than the NOOPs and JOB_ASSIGNs read. Also one PRE_SLEEP per NO_JOB and one WORK_COMPLETE per JOB_ASSIGN |
| Workers.DispatchIgnoresRegistry | classes/Phearman/Worker.php:171 | job `rev` registered to function `my`: as written the call completes with null, through the registry with what `my` returns |
| Workers.DispatchAgrees | classes/Phearman/Worker.php:171 | when a job is registered to itself, the code as written and the registry agree |
| Workers.CheckAsWrittenThrows | classes/Phearman/Worker.php:154 | as written, every task read throws at the log line and nothing is written |
| Workers.ReadTaskNamed | classes/Phearman/Worker.php:154 | corrected: every task the socket reads has a type name to log |
| Workers.NoJobStep | classes/Phearman/Worker.php:159-163 | a NO_JOB frame is answered with PRE_SLEEP, and reading goes on after it |
| Workers.JobStep | classes/Phearman/Worker.php:166-178 | a JOB_ASSIGN frame for a registered job is answered with one WORK_COMPLETE. It carries the handle and what the registered function returns |
| Workers.DryLoop | classes/Phearman/Worker.php:134-137 | on a dry stream the worker waits, handling and writing nothing |
| Workers.NoJobLoop | classes/Phearman/Worker.php:134-163 | after NO_JOB the loop writes PRE_SLEEP and reads on without GRAB_JOB |
| Workers.JobThenDry | classes/Phearman/Worker.php:128-178 | a JOB_ASSIGN and nothing after it: WORK_COMPLETE, then GRAB_JOB, then the worker waits |
| Clients.SendLast | classes/Phearman/Client.php:86-92 | sending writes the request's frame and records it as the last task; nothing else changes |
| Clients.ReadOn | classes/Phearman/Client.php:157-175 | one read on the client's stream: the task read and the stream after its frame |
| Clients.ReadOnAsWritten | classes/Phearman/Client.php:157-175 | as written, one read leaves the same state as the corrected read and returns the as-written task |
| Clients.Submit | classes/Phearman/Client.php:78-122 | `submitJob` never changes the host list |
| Clients.Answer | classes/Phearman/Client.php:96-121 | handling the answers changes neither the hosts, nor what was written, nor the last task |
| Clients.Echo | classes/Phearman/Client.php:134-150 | `echoRequest` never changes the host list |
| Clients.Client.constructor | classes/Phearman/Client.php:33-46 | a new client has no hosts, nothing written, no last task and no responses |
| Clients.Client.AddServer | classes/Phearman/Client.php:48-52 | the host list becomes the one `addServer` specifies |
| Clients.Client.Send | classes/Phearman/Client.php:152-155 | exactly the task's frame is written |
| Clients.Client.Read | classes/Phearman/Client.php:157-175 | computes `Client::read` and consumes exactly its frame |
| Clients.Client.SubmitJob | classes/Phearman/Client.php:78-122 | the new state and result are those `submitJob` specifies |
| Clients.Client.ReadAnswer | classes/Phearman/Client.php:96-121 | the reads after sending, as specified |
| Clients.Client.EchoRequest | classes/Phearman/Client.php:134-150 | the new state and result are those `echoRequest` specifies |
| Clients.SubmitInvalidType | classes/Phearman/Client.php:83-86 | an invalid type throws before anything is written; only the responses have been reset |
| Clients.SubmitWritesRequest | classes/Phearman/Client.php:83-92 | a valid submission writes exactly one frame, with name, unique id and workload joined on NUL. It records that frame's task, with its length, as the last task |
| Clients.BackgroundSubmit | classes/Phearman/Client.php:96-121 | a background submission answered with JOB_CREATED returns it and records it as the only response. It consumes exactly its frame |
| Clients.ForegroundSubmit | classes/Phearman/Client.php:96-118 | a foreground submission reads JOB_CREATED and then WORK_COMPLETE. It returns the second, records both in order and consumes both frames |
| Clients.SubmitResponses | classes/Phearman/Client.php:110-121 | a successful submission records two responses for a foreground type and one for a background type. It returns the last, and the first is JOB_CREATED |
| Clients.ErrorAnswerRefused | classes/Phearman/Client.php:99-103 | corrected, with Findings rows 2 and 4 fixed together: an ERROR answer is refused as a protocol violation, where the guard as written lets it through |
| Clients.SubmitAsWritten | classes/Phearman/Client.php:78-122 | as written, `submitJob` never changes the host list |
| Clients.AnswerAsWritten | classes/Phearman/Client.php:96-121 | as written, handling the answers changes neither the hosts, nor what was written, nor the last task |
| Clients.ErrorAnswerAcceptedAsWritten | classes/Phearman/Client.php:96-121 | as written, a background submission answered with ERROR returns the Error task, of type JOB_CREATED (8), records it as the only response and consumes its frame. Type 8 passes the intended guard `!= 8` too, so only the program with both Error.php:31 and Client.php:101 corrected refuses the answer |
| Clients.CheckAsWrittenNeverFires | classes/Phearman/Client.php:101 | `!$type == 8` holds only for type 0, which no read ever returns |
| Clients.EchoRoundTripOverClient | classes/Phearman/Client.php:134-150 | the echo writes one ECHO_REQ with the data. An ECHO_RES answer returns the data unchanged, is recorded as the only response, and consumes exactly its frame |

## Left out

- Network I/O is not modelled: `Adapter::connect`, `Socket::connect`, `Socket::close`
  and the `fsockopen` in the `Client` constructor. The inbound side is a finite byte
  sequence, and a write always succeeds.
- The `connected` flag is not modelled, nor the lazy connect in `send`, `write` and
  `read`. Adapter's `$hosts`, `$connected` and `$socket` are private, so as written
  `Socket` reads them as undefined: `$this->connected === false` never holds, Socket
  never connects and its `fwrite`/`fread` get no stream. The model's Socket writes and
  reads as though it had connected.
- `Connection.php` is not part of this model. That covers its constructor's
  `setAdapter`, the `log` line (a timestamped `echo`) and its duplicate
  `echoRequest`. The worker is built directly on a `Socket`.
- `Phearman::autoload`, `registerAutoloader` and `phearman_init.php` are bootstrap
  file loading. `Echo.php` does not compile in PHP, because `Echo` is a reserved word.
- `Client::getStatus`, `connect` and `isConnected` are empty stubs. The getters
  `getLastTask` and `getLastTaskResponses` are the fields `lastTask` and
  `lastTaskResponses`.
- `function_exists` and `call_user_func` are not modelled. In their place are a set of
  defined function names (lower-cased) and a parameter `run` that gives a function's
  return value for a job. Whatever the job function itself writes, such as
  `updateStatus` calls from inside the job, is not part of the loop's frames.
- Adapters.PortOf: `parse_url` is approximated. A host names a port exactly when it
  has 1 to 5 digits after its last colon, making at most 65535. Schemes, IPv6
  brackets and paths are not parsed. PHP 5 to 7.0's `parse_url` differs in two ways
  the model does not follow: it refuses port 0, so `h:0` gets `:4730` appended where
  the model keeps `h:0`, and it splits host from port at the first colon, not the
  last.
- Adapters.AddedHost and Workers.LooseNull: PHP's loose `in_array` and `== null` are
  reduced to the cases the model's values can take. Host names are compared as
  exact bytes, and "null" means null, `""` or `0`.
- Workers.Put: the registry is keyed by the job-name bytes. PHP turns numeric string
  keys into integers, and that is not modelled.
- Workers.Dispatch: a job function that throws is not modelled. `run` is total, so
  only a read ends the worker's loops.
- Workers.Loop, Adapters.Socket.SkipToMagic, Adapters.Adapter.Read: the source
  blocks or spins for ever on an exhausted stream. The model ends with `Stalled`
  instead, and the run loop has no fuel bound because the finite stream bounds it.
- PHP 7.1 and later are not modelled. The model assumes PHP 5 to 7.0: `count` of a
  string is 1, `join` of a string fails and yields null, `0 == 'REQ'` is true, and a
  constructor called with too few arguments gets null for each missing one (from 7.1
  the factory's `new CanDo`, `new EchoReq`, `new WorkComplete` and `new WorkStatus`
  throw `ArgumentCountError` instead).
- Streams.ShortRead: `unpack` of a short header gives a warning and `false`. The
  model passes that on to the factory as a missing type.
- TaskFactory.Instantiate: builds ERROR and STATUS_RES with their own codes 19 and 20,
  through the corrected constructors (Findings, row 2). As written both have type 8.
- TaskFactory.Factory: its tasks are well typed only because ERROR and STATUS_RES are
  built by the corrected constructors (Findings, row 2).
- TaskFactory.FactoryFindsClass: the class it builds is the one from the corrected
  constructors, so ERROR and STATUS_RES carry 19 and 20, not 8 (Findings, row 2).
- Streams.Decode: parses with the corrected, limited `explode` and the corrected
  factory (Findings, rows 2 and 3). As written a NUL in the last field cuts it, and
  ERROR and STATUS_RES read with type 8.
- Streams.DecodeFilled: the payload goes to the corrected `setFromResponse` (Findings,
  row 3), not to the unlimited `explode` the code calls.
- Streams.SocketReadsClass: "parsed from the payload" means the corrected parse and
  the corrected types (Findings, rows 2 and 3).
- Streams.ClientReadsClass: the same corrected parse and types as
  Streams.SocketReadsClass (Findings, rows 2 and 3).
- Streams.JobAssignOverSocket: the workload comes back whole through the corrected
  parse (Findings, row 3). As written it is cut at its first NUL.
- Streams.SocketReadWellTyped: holds for the corrected constructors (Findings, row 2).
  As written a socket-read ERROR or STATUS_RES has type 8.
- Adapters.FinishRead: computes the corrected read (Findings, rows 2 and 3).
- Adapters.Adapter.Send: writes the corrected frame of `Frames.ToString` (Findings,
  row 1). As written a CAN_DO or WORK_COMPLETE goes out with an empty payload.
- Adapters.Socket.Write: writes the corrected frame, like Adapters.Adapter.Send
  (Findings, row 1).
- Clients.Client.Send: writes the corrected frame of `Frames.ToString` for any task
  (Findings, row 1). As written, a CAN_DO or WORK_COMPLETE sent through the public
  `send` goes out with an empty payload. The requests the client builds itself,
  ECHO_REQ and SUBMIT_JOB, render the same both ways (`Frames.RenderArrays`).
- Workers.Wire: renders with the corrected `Frames.ToString` (Findings, row 1).
  `Workers.WireAsWritten` gives the frames as written.
- Workers.Worker.RegisterCapabilities: its CAN_DO frames carry the job name (Findings,
  row 1). As written each is 12 bytes with length 0, as
  `Workers.SessionAsWrittenStops` states.
- Workers.React: dispatches through the registry (Findings, row 5), after a log line
  that does not throw (Findings, row 6).
- Workers.Loop: the corrected loop (Findings, rows 1, 5 and 6). As written the first
  task read throws, as `Workers.SessionAsWrittenStops` states.
- Workers.Session: the corrected session (Findings, rows 1, 5 and 6). As written,
  `work` stops at its first read (`Workers.SessionAsWrittenStops`).
- Workers.Worker.Work: implements the corrected `Workers.Session` (Findings, rows 1, 5
  and 6).
- Workers.Worker.Await: its inner loop runs the corrected step (Findings, rows 5 and 6).
- Workers.Check: reads through the corrected `Streams.SocketRead`, so its
  `WellTyped` result holds only with Findings row 2 corrected, and it applies the
  corrected log line (row 6). As written every read throws at the log line
  (`Workers.CheckAsWrittenThrows`).
- Workers.Worker.CheckForJob: computes the corrected `Workers.Check`, without the
  throwing log line (Findings, rows 5 and 6).
- Workers.ReplyOrder: the WORK_COMPLETE carries the output of the corrected dispatch
  (Findings, row 5). As written the job's own name is called.
- Workers.NoJobStep: as written the NO_JOB read throws at the log line before any
  PRE_SLEEP (Findings, row 6).
- Workers.JobStep: as written the JOB_ASSIGN read throws at the log line, and past it
  the job name would be called (Findings, rows 5 and 6).
- Workers.NoJobLoop: as written NO_JOB is never answered (Findings, row 6).
- Workers.JobThenDry: as written no WORK_COMPLETE and no second GRAB_JOB is written
  (Findings, rows 5 and 6).
- Clients.Answer: uses the corrected guard (Findings, row 4). `Clients.AnswerAsWritten`
  is the guard as written, which lets every answer through.
- Clients.Client.ReadAnswer: implements the corrected `Clients.Answer` (Findings,
  row 4).
- Clients.Client.SubmitJob: implements the corrected `Clients.Submit` (Findings,
  row 4). As written an ERROR answer is returned
  (`Clients.ErrorAnswerAcceptedAsWritten`).
- Clients.SubmitResponses: "the first is JOB_CREATED" holds only with the corrected
  guard (Findings, row 4).
- Clients.ForegroundSubmit: the WORK_COMPLETE result keeps its NULs through the
  corrected parse (Findings, row 3). As written it is cut at the first NUL.
- Clients.ErrorAnswerRefused: reads ERROR with the corrected type of Findings row 2
  and applies the corrected guard of row 4. With only one of the two fixed, the
  ERROR answer is still accepted.

## Findings

| source | as written | input that shows it | evidently intended | confidence | as-written member | corrected member |
|---|---|---|---|---|---|---|
| classes/Phearman/Task/Request/CanDo.php:36-39 | `getDataPart` returns a string; `__toString` joins it as if it were an array, which yields null, so the frame's payload is empty (the same holds for WorkComplete.php:41-46) | `new CanDo("rev")` gives a 12-byte frame with length 0 | the payload is the function name (for WORK_COMPLETE: handle, NUL, workload) | not executed | Frames.ToStringAsWritten, Frames.CanDoPayload, Frames.WorkCompletePayload | Frames.ToString, Frames.RenderArrays |
| classes/Phearman/Task/Response/Error.php:31 | the constructor sets type JOB_CREATED (8); StatusRes.php:37 does the same | a fresh Error or StatusRes has type 8 | ERROR (19) and STATUS_RES (20) | not executed | Responses.NewErrorAsWritten, Responses.NewStatusResAsWritten, TaskFactory.FactoryRetypesAsWritten, Streams.ClientReadAsWritten | Responses.NewError, Responses.NewStatusRes |
| classes/Phearman/Task/Response/JobAssign.php:39 | `explode("\0", $packet)` has no limit, so a NUL in the opaque last field cuts it (also WorkComplete.php:35, Error.php:36) | JOB_ASSIGN payload `h\0f\0\x01\0\x02` gives workload `\x01` | the last field keeps every remaining byte | not executed | Responses.SetFromResponseAsWritten, Frames.JobAssignParseAsWritten, Frames.WorkCompleteParseAsWritten, Frames.ErrorParseAsWritten | Responses.SetFromResponse, Frames.JobAssignParse, Frames.WorkCompleteRoundTrip, Frames.ErrorParse |
| classes/Phearman/Client.php:101 | `!$task->getType() == 8` compares a boolean with 8 and holds only for type 0 | an ERROR response to a SUBMIT_JOB_BG is accepted | anything but JOB_CREATED throws; for ERROR this needs row 2 corrected as well, since an Error task built as written has type 8 and passes `!= 8` | not executed | Clients.CheckAsWrittenNeverFires, Clients.AnswerAsWritten, Clients.ErrorAnswerAcceptedAsWritten | Clients.ErrorAnswerRefused, Clients.Answer |
| classes/Phearman/Worker.php:171 | `call_user_func($job->getFunctionName(), …)` calls the job name itself, not the registered function | job `rev` registered to `my`: as written `rev` is called | the registry's function is called | not executed | Workers.DispatchAsWritten, Workers.DispatchIgnoresRegistry | Workers.Dispatch, Workers.DispatchAgrees |
| classes/Phearman/Worker.php:154 | the log line calls `getTypeName()`, which no task class declares, so `__call` throws on every task read | any task read by the worker | a log line naming the packet type | not executed | Workers.CheckAsWritten, Workers.CheckAsWrittenThrows, Workers.SessionAsWrittenStops, Tasks.TypeNameUnresolved | Workers.Check, Workers.ReadTaskNamed, Tasks.TypeName |

=== FILE: adapter.dfy ===
/** The adapters (Adapter.php and Adapter/Socket.php): the host list the constructor
    normalises, and reading and writing frames on the connection. The connection is
    two byte sequences: what the server has sent and the adapter has not read yet,
    and the frames written so far. */
module Adapters {
  import opened Base
  import opened Phearman
  import opened Codec
  import opened Tasks
  import opened Responses
  import opened Frames
  import opened TaskFactory
  import opened Streams

  // ---------------------------------------------------------------------------
  // Host names.

  const COLON: byte := 58

  /** The host argument of the constructor: one host name, a list of them, or
      anything else PHP can pass. */
  datatype HostArg = HostString(host: Bytes) | HostArray(hosts: seq<Bytes>) | OtherHost

  /** The position of the last colon. */
  function LastColon(h: Bytes): (r: Option<nat>)
    ensures r.Some? ==> r.value < |h| && h[r.value] == COLON
                        && forall i :: r.value < i < |h| ==> h[i] != COLON
    ensures r.None? ==> forall i :: 0 <= i < |h| ==> h[i] != COLON
  {
    if h == [] then None
    else if h[|h| - 1] == COLON then Some(|h| - 1)
    else LastColon(h[..|h| - 1])
  }

  predicate AllDigits(s: Bytes)
  {
    forall i :: 0 <= i < |s| ==> 48 <= s[i] <= 57
  }

  /** The port `parse_url` finds in a host name: one to five digits after the last
      colon, making a number no greater than 65535. */
  function PortOf(h: Bytes): (r: Option<nat>)
    ensures r.Some? ==> r.value <= 65535
  {
    match LastColon(h)
    case None => None
    case Some(i) =>
      var digits := h[i + 1..];
      if 0 < |digits| <= 5 && AllDigits(digits) && DigitsValue(digits) <= 65535
      then Some(DigitsValue(digits)) else None
  }

  /** A host as the constructor stores it: unchanged when it names a port, with
      ":" and the default port appended otherwise. */
  function WithPort(h: Bytes, port: nat): (r: Bytes)
    ensures PortOf(h).Some? ==> r == h
    ensures PortOf(h).None? ==> r == h + [COLON] + Digits(port)
  {
    if PortOf(h).Some? then h else h + [COLON] + Digits(port)
  }

  /** The host list the constructor builds from a list: each host with its port, in
      the order given. */
  function WithPorts(hs: seq<Bytes>, port: nat): (r: seq<Bytes>)
    ensures |r| == |hs|
    ensures forall i :: 0 <= i < |hs| ==> r[i] == WithPort(hs[i], port)
  {
    if hs == [] then [] else [WithPort(hs[0], port)] + WithPorts(hs[1..], port)
  }

  /** The constructor: a string is given its port and wrapped in a list, which is then
      processed like any list; any other kind of argument throws. */
  function Normalized(hosts: HostArg, port: nat): (r: Result<seq<Bytes>, Fault>)
    ensures r.Err? <==> hosts.OtherHost?
    ensures r.Err? ==> r.error == InvalidHosts
    ensures hosts.HostArray? ==> r == Ok(WithPorts(hosts.hosts, port))
  {
    match hosts
    case HostString(h) => Ok(WithPorts([WithPort(h, port)], port))
    case HostArray(hs) => Ok(WithPorts(hs, port))
    case OtherHost => Err(InvalidHosts)
  }

  /** `addServer($host)`: append the host unless the list already holds it. */
  function AddedHost(hs: seq<Bytes>, h: Bytes): (r: seq<Bytes>)
  {
    if h in hs then hs else hs + [h]
  }

  predicate Distinct(hs: seq<Bytes>)
  {
    forall i, j :: 0 <= i < j < |hs| ==> hs[i] != hs[j]
  }

  /** Appending ":" and the port makes the host name a port. */
  lemma PortAppended(h: Bytes, port: nat)
    requires port <= 65535
    ensures PortOf(h + [COLON] + Digits(port)) == Some(port)
  {
    var s := h + [COLON] + Digits(port);
    var d := Digits(port);
    ColonLast(h + [COLON], d);
    assert s[|h| + 1..] == d;
    DigitsRoundTrip(port);
    DigitsBound(port, 5);
  }

  lemma {:induction false} ColonLast(a: Bytes, d: Bytes)
    requires a != [] && a[|a| - 1] == COLON
    requires forall i :: 0 <= i < |d| ==> d[i] != COLON
    ensures LastColon(a + d) == Some(|a| - 1)
    decreases |d|
  {
    if d == [] {
      assert a + d == a;
    } else {
      var s := a + d;
      assert s[..|s| - 1] == a + d[..|d| - 1];
      ColonLast(a, d[..|d| - 1]);
    }
  }

  function Ten(k: nat): nat
  {
    if k == 0 then 1 else 10 * Ten(k - 1)
  }

  /** A number below 10^k has at most k digits. */
  lemma {:induction false} DigitsBound(n: nat, k: nat)
    requires k >= 1 && n < Ten(k)
    ensures |Digits(n)| <= k
    decreases k
  {
    if n >= 10 {
      assert Ten(1) == 10;
      if k == 1 {
        assert false;
      }
      DigitsBound(n / 10, k - 1);
    }
  }

  /** After construction every host names a port, as long as the default port is one
      `parse_url` accepts; hosts that already named one are kept as they were, and the
      order is preserved. */
  lemma NormalizedHostsHavePorts(hosts: HostArg, port: nat)
    requires port <= 65535 && hosts.HostArray?
    ensures forall h :: h in Normalized(hosts, port).value ==> PortOf(h).Some?
    ensures forall i :: 0 <= i < |hosts.hosts| && PortOf(hosts.hosts[i]).Some? ==>
              Normalized(hosts, port).value[i] == hosts.hosts[i]
  {
    var r := Normalized(hosts, port).value;
    forall h | h in r
      ensures PortOf(h).Some?
    {
      var i :| 0 <= i < |r| && r[i] == h;
      if PortOf(hosts.hosts[i]).None? {
        PortAppended(hosts.hosts[i], port);
      }
    }
  }

  /** Giving a host its port twice changes nothing. */
  lemma WithPortIdempotent(h: Bytes, port: nat)
    requires port <= 65535
    ensures WithPort(WithPort(h, port), port) == WithPort(h, port)
    ensures PortOf(WithPort(h, port)).Some?
  {
    if PortOf(h).None? {
      PortAppended(h, port);
    }
  }

  /** A single host string becomes a list of one host with its port. */
  lemma SingleHost(h: Bytes, port: nat)
    requires port <= 65535
    ensures Normalized(HostString(h), port) == Ok([WithPort(h, port)])
    ensures PortOf(h).None? ==> Normalized(HostString(h), port) == Ok([h + [COLON] + Digits(port)])
  {
    WithPortIdempotent(h, port);
    var w := WithPorts([WithPort(h, port)], port);
    assert |w| == 1 && w[0] == WithPort(h, port);
    assert w == [WithPort(h, port)];
  }

  /** Adding a server twice is adding it once; the list keeps its order, holds the new
      host afterwards, and never holds a host twice if it did not before. */
  lemma AddServerProperties(hs: seq<Bytes>, h: Bytes)
    ensures AddedHost(AddedHost(hs, h), h) == AddedHost(hs, h)
    ensures h in AddedHost(hs, h) && hs <= AddedHost(hs, h)
    ensures |AddedHost(hs, h)| == if h in hs then |hs| else |hs| + 1
    ensures Distinct(hs) ==> Distinct(AddedHost(hs, h))
  {
  }

  // ---------------------------------------------------------------------------
  // The tail every read shares.

  /** Once the header is in: unpack it (a short header leaves the factory without a
      type), build the response class, record the length and, for a non-empty payload,
      read exactly that many bytes and parse them. */
  method FinishRead(header: Bytes, s: Bytes) returns (r: Result<Task, Fault>, rest: Bytes)
    requires |header| == 8 || (|header| < 8 && s == [])
    ensures r == ReadFrame(header + s).result
    ensures rest == (header + s)[ReadFrame(header + s).consumed..]
  {
    assert Take(header + s, 8) == header;
    if |header| == 8 {
      assert (header + s)[8..] == s;
    }
    match UnpackHeader(header) {
      case None =>
        assert header + s == header;
        return Err(InvalidTaskType), [];
      case Some((typ, len)) =>
        var f := Factory(typ, CODE_RESPONSE);
        if f.Err? {
          return f, s;
        }
        var task := Set(f.value, LengthProp, Int(len));
        if len == 0 {
          return Ok(task), s;
        }
        var packet := Take(s, len);
        r := SetFromResponse(task, packet);
        rest := s[|packet|..];
        assert (header + s)[8 + |packet|..] == rest;
    }
  }

  // ---------------------------------------------------------------------------
  // Adapter.

  /** The abstract adapter: its host list and its connection. */
  class Adapter {
    var hosts: seq<Bytes>
    var inbound: Bytes
    var written: seq<Bytes>

    /** The final constructor, given the host list (a single string already wrapped):
        each host without a port gets the default one. */
    constructor (hostList: seq<Bytes>, port: nat, inbound: Bytes)
      ensures hosts == WithPorts(hostList, port)
      ensures this.inbound == inbound && written == []
    {
      this.inbound := inbound;
      written := [];
      hosts := [];
      new;
      var i := 0;
      while i < |hostList|
        invariant 0 <= i <= |hostList|
        invariant hosts == WithPorts(hostList[..i], port)
        invariant this.inbound == inbound && written == []
      {
        hosts := hosts + [WithPort(hostList[i], port)];
        i := i + 1;
        assert hostList[..i] == hostList[..i - 1] + [hostList[i - 1]];
        WithPortsAppend(hostList[..i - 1], hostList[i - 1], port);
      }
      assert hostList[..i] == hostList;
    }

    /** The constructor for any host argument: a string is given its port and wrapped
        in a list; anything but a string or a list throws. */
    static method Open(hostArg: HostArg, port: nat, inbound: Bytes) returns (r: Result<Adapter, Fault>)
      ensures Normalized(hostArg, port).Err? ==> r == Err(InvalidHosts)
      ensures Normalized(hostArg, port).Ok? ==>
                r.Ok? && fresh(r.value) && r.value.hosts == Normalized(hostArg, port).value
                && r.value.inbound == inbound && r.value.written == []
    {
      match hostArg {
        case HostString(h) =>
          var a := new Adapter([WithPort(h, port)], port, inbound);
          r := Ok(a);
        case HostArray(hs) =>
          var a := new Adapter(hs, port, inbound);
          r := Ok(a);
        case OtherHost =>
          r := Err(InvalidHosts);
      }
    }

    /** `addServer($host)`. */
    method AddServer(h: Bytes)
      modifies this`hosts
      ensures hosts == AddedHost(old(hosts), h)
    {
      if h !in hosts {
        hosts := hosts + [h];
      }
    }

    /** `send($task)`: the task's frame goes on the wire, and the task, whose string
        conversion records the payload length, comes back with that length set. */
    method Send(t: Task) returns (sent: Task)
      modifies this`written
      ensures written == old(written) + [ToString(t).0]
      ensures sent == ToString(t).1
    {
      var frame := ToString(t);
      written := written + [frame.0];
      sent := frame.1;
    }

    /** `read()`: four bytes of magic and eight of header, again while the magic read
        comes back empty, then the frame's task. */
    method Read() returns (r: Result<Task, Fault>)
      modifies this`inbound
      ensures r == AdapterRead(old(inbound)).result
      ensures inbound == old(inbound)[AdapterRead(old(inbound)).consumed..]
    {
      ghost var s := inbound;
      var code: Bytes := [];
      var header: Bytes := [];
      while code == []
        invariant code == [] ==> inbound == s
        invariant code != [] ==> s != [] && code == Take(s, 4) && header == Take(s[|code|..], 8)
                                 && inbound == s[|code|..][|header|..]
        decreases |inbound|
      {
        if inbound == [] {
          // Every further read is empty too: the loop spins for ever.
          return Err(Stalled);
        }
        code := Take(inbound, 4);
        inbound := inbound[|code|..];
        header := Take(inbound, 8);
        inbound := inbound[|header|..];
      }
      ghost var frame := s[|code|..];
      assert header + inbound == frame;
      r, inbound := FinishRead(header, inbound);
      assert s[|code| + ReadFrame(frame).consumed..] == frame[ReadFrame(frame).consumed..];
    }
  }

  lemma WithPortsAppend(hs: seq<Bytes>, h: Bytes, port: nat)
    ensures WithPorts(hs + [h], port) == WithPorts(hs, port) + [WithPort(h, port)]
  {
  }

  // ---------------------------------------------------------------------------
  // Socket.

  /** The socket adapter: the inherited host list and a socket connection. */
  class Socket {
    var hosts: seq<Bytes>
    var inbound: Bytes
    var written: seq<Bytes>

    /** The inherited constructor, given the host list. */
    constructor (hostList: seq<Bytes>, port: nat, inbound: Bytes)
      ensures hosts == WithPorts(hostList, port)
      ensures this.inbound == inbound && written == []
    {
      var a := new Adapter(hostList, port, inbound);
      hosts := a.hosts;
      this.inbound := inbound;
      written := [];
    }

    /** `write($task)`: the task's frame goes on the wire. */
    method Write(t: Task) returns (sent: Task)
      modifies this`written
      ensures written == old(written) + [ToString(t).0]
      ensures sent == ToString(t).1
    {
      var frame := ToString(t);
      written := written + [frame.0];
      sent := frame.1;
    }

    /** `read()`: four-byte windows are read and dropped until one, trimmed of NULs,
        reads "RES"; then the header and the frame's task. */
    method Read() returns (r: Result<Task, Fault>)
      modifies this`inbound
      ensures r == SocketRead(old(inbound)).result
      ensures inbound == old(inbound)[SocketRead(old(inbound)).consumed..]
    {
      ghost var s := inbound;
      var found := SkipToMagic();
      if !found {
        return Err(Stalled);
      }
      ghost var k := Resync(s).value;
      var header := Take(inbound, 8);
      assert header + inbound[|header|..] == inbound;
      r, inbound := FinishRead(header, inbound[|header|..]);
      assert s[k + ReadFrame(s[k..]).consumed..] == s[k..][ReadFrame(s[k..]).consumed..];
    }

    /** The resynchronisation loop: it ends just after the first window that reads
        "RES", and spins for ever (here: gives up, with the stream used up) when the
        stream runs dry first. */
    method SkipToMagic() returns (found: bool)
      modifies this`inbound
      ensures found <==> Resync(old(inbound)).Some?
      ensures found ==> inbound == old(inbound)[Resync(old(inbound)).value..]
      ensures !found ==> inbound == []
    {
      ghost var s := inbound;
      ghost var skipped: nat := 0;
      found := false;
      while !found
        invariant skipped <= |s| && inbound == s[skipped..]
        invariant !found ==> Resync(s) == Shifted(Resync(inbound), skipped)
        invariant found ==> Resync(s) == Some(skipped)
        decreases |inbound|, !found
      {
        if inbound == [] {
          // Every further read is empty and trims to "".
          return;
        }
        var code := Take(inbound, 4);
        ResyncStep(inbound, skipped);
        assert inbound[|code|..] == s[skipped + |code|..];
        inbound := inbound[|code|..];
        skipped := skipped + |code|;
        found := IsRes(code);
      }
    }
  }

  /** One window of the resynchronisation, seen from `k` bytes further on. */
  lemma ResyncStep(t: Bytes, k: nat)
    requires t != []
    ensures var w := Take(t, 4);
            Shifted(Resync(t), k) == if IsRes(w) then Some(k + |w|) else Shifted(Resync(t[|w|..]), k + |w|)
  {
    var w := Take(t, 4);
    if IsRes(w) {
      assert Resync(t) == Some(|w|);
    } else {
      assert Resync(t) == Shifted(Resync(t[|w|..]), |w|);
      ShiftedTwice(Resync(t[|w|..]), |w|, k);
    }
  }

  lemma ShiftedTwice(r: Option<nat>, a: nat, b: nat)
    ensures Shifted(Shifted(r, a), b) == Shifted(r, b + a)
  {
  }

  /** A resynchronisation count seen from `k` bytes further on. */
  function Shifted(r: Option<nat>, k: nat): Option<nat>
  {
    if r.None? then None else Some(k + r.value)
  }
}

=== FILE: base.dfy ===
/** Bytes, optional values, results and the failures the library raises. */
module Base {

  /** PHP strings are byte strings; the wire format is bytes too. */
  newtype byte = x: int | 0 <= x < 256
  type Bytes = seq<byte>

  datatype Option<+T> = None | Some(value: T)

  datatype Result<+T, +E> = Ok(value: T) | Err(error: E)

  /** The exceptions and fatal errors of the library, and `Stalled`, the way a modelled
      run ends where the PHP code blocks or spins on an exhausted stream. */
  datatype Fault =
    | InvalidTaskType            // Task::factory: no Phearman constant has that value
    | InvalidDirection           // Task::factory: direction is neither REQ nor RES
    | ClassNotFound(name: string)   // autoloading a task class that does not exist
    | MethodNotFound(call: string)   // Task::__call on an undeclared property
    | InvalidJobType             // SubmitJob's constructor
    | NonExistentFunction        // Worker::addFunction
    | InvalidHosts               // Adapter's constructor
    | Stalled                    // the source blocks or spins forever on an exhausted stream
    | ProtocolViolation          // a SUBMIT_JOB not answered with JOB_CREATED

  const NUL: byte := 0

  predicate NulFree(s: Bytes)
  {
    forall i :: 0 <= i < |s| ==> s[i] != NUL
  }

  /** `fread` on a finite stream: the requested count, or what is left. */
  function Take(s: Bytes, n: nat): (r: Bytes)
    ensures |r| == if n <= |s| then n else |s|
    ensures r <= s
  {
    if n <= |s| then s[..n] else s
  }

  /** ASCII lower-casing of one byte, as PHP's `strtolower` in the C locale. */
  function LowerByte(b: byte): byte
  {
    if 65 <= b <= 90 then b + 32 else b
  }

  function LowerBytes(s: Bytes): (r: Bytes)
    ensures |r| == |s|
  {
    if s == [] then [] else [LowerByte(s[0])] + LowerBytes(s[1..])
  }

  /** The decimal digits of a natural number, most significant first. */
  function Digits(n: nat): (r: Bytes)
    ensures |r| > 0
    ensures forall i :: 0 <= i < |r| ==> 48 <= r[i] <= 57
    decreases n
  {
    if n < 10 then [(48 + n) as byte] else Digits(n / 10) + [(48 + n % 10) as byte]
  }

  /** The number a string of decimal digits denotes. */
  function DigitsValue(s: Bytes): nat
    requires forall i :: 0 <= i < |s| ==> 48 <= s[i] <= 57
  {
    if s == [] then 0 else DigitsValue(s[..|s| - 1]) * 10 + (s[|s| - 1] as int - 48)
  }

  /** PHP's conversion of an integer to a string. */
  function Decimal(n: int): Bytes
  {
    if n < 0 then [45] + Digits(-n) else Digits(n)
  }

  /** Reading the digits back gives the number: decimal rendering loses nothing. */
  lemma {:induction false} DigitsRoundTrip(n: nat)
    ensures DigitsValue(Digits(n)) == n
    decreases n
  {
    if n >= 10 {
      var d := Digits(n);
      DigitsRoundTrip(n / 10);
      assert d[..|d| - 1] == Digits(n / 10);
    }
  }

  /** A rendered integer never contains the field separator. */
  lemma DecimalNulFree(n: int)
    ensures NulFree(Decimal(n))
  {
  }
}

=== FILE: client.dfy ===
/** The client (Client.php): submitting jobs and echo requests over its own socket,
    and the `lastTask` / `lastTaskResponses` bookkeeping. */
module Clients {
  import opened Base
  import opened Phearman
  import opened Codec
  import opened Tasks
  import opened Requests
  import opened Responses
  import opened Frames
  import opened TaskFactory
  import opened Streams
  import opened Adapters

  /** Everything a client holds: its host list, the connection (bytes the server sent
      and the client has not read, frames written), the last request and the responses
      read for it. */
  datatype ClientState = ClientState(
    hosts: seq<Bytes>,
    inbound: Bytes,
    written: seq<Bytes>,
    lastTask: Option<Task>,
    lastTaskResponses: seq<Task>)

  /** The types that wait for the work's result: SUBMIT_JOB, SUBMIT_JOB_HIGH and
      SUBMIT_JOB_LOW. */
  predicate Foreground(typ: int)
  {
    typ == TYPE_SUBMIT_JOB || typ == TYPE_SUBMIT_JOB_HIGH || typ == TYPE_SUBMIT_JOB_LOW
  }

  /** The guard after the first response, as the comment above it means it: anything
      but JOB_CREATED is refused. */
  predicate Rejects(typ: int)
  {
    typ != TYPE_JOB_CREATED
  }

  /** The guard as written, `!$type == 8`: the negated type is a boolean, so PHP
      compares it with 8 taken as a boolean, which is true. */
  predicate RejectsAsWritten(typ: int)
  {
    (typ == 0) == (TYPE_JOB_CREATED != 0)
  }

  /** Sending a request: its frame is written and it becomes the last task, with the
      length its string conversion records. */
  function SendLast(st: ClientState, t: Task): (r: ClientState)
    ensures r.written == st.written + [ToString(t).0]
    ensures r.lastTask == Some(ToString(t).1)
    ensures r.hosts == st.hosts && r.inbound == st.inbound && r.lastTaskResponses == st.lastTaskResponses
  {
    st.(written := st.written + [ToString(t).0], lastTask := Some(ToString(t).1))
  }

  /** One `read()` on the state: the result, and the state with the frame consumed. */
  function ReadOn(st: ClientState): (r: (ClientState, Result<Task, Fault>))
    ensures r.0 == st.(inbound := st.inbound[ClientRead(st.inbound).consumed..])
    ensures r.1 == ClientRead(st.inbound).result
  {
    var o := ClientRead(st.inbound);
    (st.(inbound := st.inbound[o.consumed..]), o.result)
  }

  /** One `read()` as written: the same bytes are consumed, and the task is decoded as
      written. */
  function ReadOnAsWritten(st: ClientState): (r: (ClientState, Result<Task, Fault>))
    ensures r.0 == ReadOn(st).0
    ensures r.1 == ClientReadAsWritten(st.inbound).result
  {
    var o := ClientReadAsWritten(st.inbound);
    (st.(inbound := st.inbound[o.consumed..]), o.result)
  }

  /** `submitJob($functionName, $workload, $type, $uniqueId)`: reset the responses,
      build the request (an invalid type throws here, before anything is sent), send
      it and deal with the answer. */
  function Submit(st: ClientState, functionName: Value, workload: Value, typ: int, uniqueId: Value)
    : (r: (ClientState, Result<Task, Fault>))
    ensures r.0.hosts == st.hosts
  {
    var cleared := st.(lastTaskResponses := []);
    var request := SubmitTask(functionName, workload, typ, uniqueId);
    if request.Err? then (cleared, Err(request.error))
    else Answer(ReadOn(SendLast(cleared, request.value)), typ)
  }

  /** What `submitJob` does with the first read: record the response, refuse anything
      but JOB_CREATED and, for a foreground type, read, record and return a second
      response. */
  function Answer(first: (ClientState, Result<Task, Fault>), typ: int): (r: (ClientState, Result<Task, Fault>))
    ensures r.0.hosts == first.0.hosts && r.0.written == first.0.written && r.0.lastTask == first.0.lastTask
  {
    if first.1.Err? then first
    else
      var recorded := first.0.(lastTaskResponses := first.0.lastTaskResponses + [first.1.value]);
      if Rejects(first.1.value.typ) then (recorded, Err(ProtocolViolation))
      else if !Foreground(typ) then (recorded, first.1)
      else
        var second := ReadOn(recorded);
        if second.1.Err? then second
        else (second.0.(lastTaskResponses := recorded.lastTaskResponses + [second.1.value]), second.1)
  }

  /** `submitJob` as written: the same steps, with the reads and the guard as written. */
  function SubmitAsWritten(st: ClientState, functionName: Value, workload: Value, typ: int, uniqueId: Value)
    : (r: (ClientState, Result<Task, Fault>))
    ensures r.0.hosts == st.hosts
  {
    var cleared := st.(lastTaskResponses := []);
    var request := SubmitTask(functionName, workload, typ, uniqueId);
    if request.Err? then (cleared, Err(request.error))
    else AnswerAsWritten(ReadOnAsWritten(SendLast(cleared, request.value)), typ)
  }

  /** The rest of `submitJob` as written, with `!$type == 8` as the guard and the second
      read as written. */
  function AnswerAsWritten(first: (ClientState, Result<Task, Fault>), typ: int): (r: (ClientState, Result<Task, Fault>))
    ensures r.0.hosts == first.0.hosts && r.0.written == first.0.written && r.0.lastTask == first.0.lastTask
  {
    if first.1.Err? then first
    else
      var recorded := first.0.(lastTaskResponses := first.0.lastTaskResponses + [first.1.value]);
      if RejectsAsWritten(first.1.value.typ) then (recorded, Err(ProtocolViolation))
      else if !Foreground(typ) then (recorded, first.1)
      else
        var second := ReadOnAsWritten(recorded);
        if second.1.Err? then second
        else (second.0.(lastTaskResponses := recorded.lastTaskResponses + [second.1.value]), second.1)
  }

  /** `echoRequest($data)`: reset the responses, send an ECHO_REQ, read one response and
      return it. */
  function Echo(st: ClientState, data: Value): (r: (ClientState, Result<Task, Fault>))
    ensures r.0.hosts == st.hosts
  {
    var read := ReadOn(SendLast(st.(lastTaskResponses := []), NewEchoReq(data)));
    if read.1.Err? then read
    else (read.0.(lastTaskResponses := [read.1.value]), read.1)
  }

  /** The echo's outcome in terms of its read: the response is appended to the
      emptied list. */
  lemma EchoRead(st: ClientState, data: Value, read: (ClientState, Result<Task, Fault>))
    requires read == ReadOn(SendLast(st.(lastTaskResponses := []), NewEchoReq(data)))
    requires read.0.lastTaskResponses == []
    ensures Echo(st, data) == if read.1.Err? then read
      else (read.0.(lastTaskResponses := read.0.lastTaskResponses + [read.1.value]), read.1)
  {
    if read.1.Ok? {
      assert read.0.lastTaskResponses + [read.1.value] == [read.1.value];
    }
  }

  class Client {
    var hosts: seq<Bytes>
    var inbound: Bytes
    var written: seq<Bytes>
    var lastTask: Option<Task>
    var lastTaskResponses: seq<Task>

    function State(): ClientState
      reads this
    {
      ClientState(hosts, inbound, written, lastTask, lastTaskResponses)
    }

    /** The constructor, once the socket is open: no hosts, no last task. */
    constructor (inbound: Bytes)
      ensures State() == ClientState([], inbound, [], None, [])
    {
      hosts := [];
      this.inbound := inbound;
      written := [];
      lastTask := None;
      lastTaskResponses := [];
    }

    /** `addServer($host)`. */
    method AddServer(h: Bytes)
      modifies this`hosts
      ensures hosts == AddedHost(old(hosts), h)
    {
      if h !in hosts {
        hosts := hosts + [h];
      }
    }

    /** `send($task)`: the task's frame goes on the wire; the task comes back with its
        length set. */
    method Send(t: Task) returns (sent: Task)
      modifies this`written
      ensures written == old(written) + [ToString(t).0]
      ensures sent == ToString(t).1
    {
      var frame := ToString(t);
      written := written + [frame.0];
      sent := frame.1;
    }

    /** `read()`: four bytes of magic, not looked at, eight of header, then the task. */
    method Read() returns (r: Result<Task, Fault>)
      modifies this`inbound
      ensures (State(), r) == ReadOn(old(State()))
    {
      ghost var s := inbound;
      var code := Take(inbound, 4);
      inbound := inbound[|code|..];
      var header := Take(inbound, 8);
      assert header + inbound[|header|..] == inbound;
      r, inbound := FinishRead(header, inbound[|header|..]);
      ghost var frame := s[|code|..];
      assert s[|code| + ReadFrame(frame).consumed..] == frame[ReadFrame(frame).consumed..];
    }

    method SubmitJob(functionName: Value, workload: Value, typ: int, uniqueId: Value)
      returns (r: Result<Task, Fault>)
      modifies this
      ensures (State(), r) == Submit(old(State()), functionName, workload, typ, uniqueId)
    {
      ghost var start := State();
      lastTaskResponses := [];
      var request := SubmitTask(functionName, workload, typ, uniqueId);
      if request.Err? {
        return Err(request.error);
      }
      SubmitSends(start, functionName, workload, typ, uniqueId);
      ghost var cleared := State();
      lastTask := Some(request.value);
      var sent := Send(request.value);
      lastTask := Some(sent);
      assert State() == SendLast(cleared, request.value);
      r := ReadAnswer(typ);
    }

    /** The rest of `submitJob`, once the request is on the wire. */
    method ReadAnswer(typ: int) returns (r: Result<Task, Fault>)
      modifies this`inbound, this`lastTaskResponses
      ensures (State(), r) == Answer(ReadOn(old(State())), typ)
    {
      var task := Read();
      if task.Err? {
        return task;
      }
      lastTaskResponses := lastTaskResponses + [task.value];
      if Rejects(task.value.typ) {
        return Err(ProtocolViolation);
      }
      if Foreground(typ) {
        var response := Read();
        if response.Ok? {
          lastTaskResponses := lastTaskResponses + [response.value];
        }
        return response;
      }
      return task;
    }

    method EchoRequest(data: Value) returns (r: Result<Task, Fault>)
      modifies this
      ensures (State(), r) == Echo(old(State()), data)
    {
      ghost var start := State();
      lastTaskResponses := [];
      var request := NewEchoReq(data);
      lastTask := Some(request);
      var sent := Send(request);
      lastTask := Some(sent);
      assert State() == SendLast(start.(lastTaskResponses := []), request);
      r := Read();
      EchoRead(start, data, (State(), r));
      if r.Ok? {
        lastTaskResponses := lastTaskResponses + [r.value];
      }
    }
  }

  // ---------------------------------------------------------------------------
  // Properties.

  /** An invalid job type throws before anything is written: the responses are reset,
      and the last task, the connection and the hosts are as they were. */
  lemma SubmitInvalidType(st: ClientState, functionName: Value, workload: Value, typ: int, uniqueId: Value)
    requires !Submittable(typ)
    ensures Submit(st, functionName, workload, typ, uniqueId)
            == (st.(lastTaskResponses := []), Err(InvalidJobType))
  {
  }

  /** A valid submission writes exactly one frame, the SUBMIT_JOB with function name,
      unique id and workload, and records it as the last task. */
  lemma SubmitWritesRequest(st: ClientState, name: Bytes, workload: Bytes, typ: int, uniqueId: Value)
    requires Submittable(typ)
    ensures var after := Submit(st, Text(name), Text(workload), typ, uniqueId).0;
            var t := SubmitTask(Text(name), Text(workload), typ, uniqueId).value;
            after.written == st.written + [ToString(t).0]
            && ToString(t).0[12..] == name + [NUL] + Str(uniqueId) + [NUL] + workload
            && after.lastTask == Some(ToString(t).1)
            && ToString(t).1.length == Int(|name + [NUL] + Str(uniqueId) + [NUL] + workload|)
  {
    SubmitJobPayload(name, workload, typ, uniqueId);
    var t := SubmitTask(Text(name), Text(workload), typ, uniqueId).value;
    var first := ReadOn(SendLast(st.(lastTaskResponses := []), t));
    assert Submit(st, Text(name), Text(workload), typ, uniqueId) == Answer(first, typ);
  }

  /** A valid submission is the answer to the request it sent: responses reset, the
      request written and recorded, then the reads. */
  lemma SubmitSends(st: ClientState, functionName: Value, workload: Value, typ: int, uniqueId: Value)
    requires Submittable(typ)
    ensures var t := SubmitTask(functionName, workload, typ, uniqueId).value;
            Submit(st, functionName, workload, typ, uniqueId)
            == Answer(ReadOn(SendLast(st.(lastTaskResponses := []), t)), typ)
  {
  }

  /** A background submission answered with JOB_CREATED returns that response, keeps it
      as the only recorded response and consumes exactly its frame. */
  lemma BackgroundSubmit(st: ClientState, functionName: Value, workload: Value, typ: int, uniqueId: Value,
                         d: Direction, handle: Bytes, rest: Bytes)
    requires Submittable(typ) && !Foreground(typ)
    requires handle != [] && |handle| < TWO32
    requires st.inbound == Frame(d, TYPE_JOB_CREATED, handle) + rest
    ensures var created := Task(Response, TYPE_JOB_CREATED, Int(|handle|), JobCreated(Text(handle)));
            var r := Submit(st, functionName, workload, typ, uniqueId);
            r.1 == Ok(created) && r.0.lastTaskResponses == [created] && r.0.inbound == rest
  {
    SubmitSends(st, functionName, workload, typ, uniqueId);
    var sent := SendLast(st.(lastTaskResponses := []), SubmitTask(functionName, workload, typ, uniqueId).value);
    BackgroundAnswer(sent, typ, d, handle, rest);
  }

  lemma BackgroundAnswer(sent: ClientState, typ: int, d: Direction, handle: Bytes, rest: Bytes)
    requires !Foreground(typ) && sent.lastTaskResponses == []
    requires handle != [] && |handle| < TWO32
    requires sent.inbound == Frame(d, TYPE_JOB_CREATED, handle) + rest
    ensures var created := Task(Response, TYPE_JOB_CREATED, Int(|handle|), JobCreated(Text(handle)));
            var r := Answer(ReadOn(sent), typ);
            r.1 == Ok(created) && r.0.lastTaskResponses == [created] && r.0.inbound == rest
  {
    JobCreatedRead(d, handle, rest);
  }

  /** A foreground submission reads the JOB_CREATED and then the result: it returns the
      second response, records both in order and consumes both frames. */
  lemma ForegroundSubmit(st: ClientState, functionName: Value, workload: Value, typ: int, uniqueId: Value,
                         d: Direction, handle: Bytes, result: Bytes, rest: Bytes)
    requires Submittable(typ) && Foreground(typ)
    requires handle != [] && |handle| < TWO32 && NulFree(handle)
    requires |handle + [NUL] + result| < TWO32
    requires st.inbound == Frame(d, TYPE_JOB_CREATED, handle) + (Frame(d, TYPE_WORK_COMPLETE, handle + [NUL] + result) + rest)
    ensures var created := Task(Response, TYPE_JOB_CREATED, Int(|handle|), JobCreated(Text(handle)));
            var done := Task(Response, TYPE_WORK_COMPLETE, Int(|handle + [NUL] + result|),
                             WorkCompleteRes(Text(handle), Text(result)));
            var r := Submit(st, functionName, workload, typ, uniqueId);
            r.1 == Ok(done) && r.0.lastTaskResponses == [created, done] && r.0.inbound == rest
  {
    SubmitSends(st, functionName, workload, typ, uniqueId);
    var sent := SendLast(st.(lastTaskResponses := []), SubmitTask(functionName, workload, typ, uniqueId).value);
    ForegroundAnswer(sent, typ, d, handle, result, rest);
  }

  lemma ForegroundAnswer(sent: ClientState, typ: int, d: Direction, handle: Bytes, result: Bytes, rest: Bytes)
    requires Foreground(typ) && sent.lastTaskResponses == []
    requires handle != [] && |handle| < TWO32 && NulFree(handle)
    requires |handle + [NUL] + result| < TWO32
    requires sent.inbound == Frame(d, TYPE_JOB_CREATED, handle) + (Frame(d, TYPE_WORK_COMPLETE, handle + [NUL] + result) + rest)
    ensures var created := Task(Response, TYPE_JOB_CREATED, Int(|handle|), JobCreated(Text(handle)));
            var done := Task(Response, TYPE_WORK_COMPLETE, Int(|handle + [NUL] + result|),
                             WorkCompleteRes(Text(handle), Text(result)));
            var r := Answer(ReadOn(sent), typ);
            r.1 == Ok(done) && r.0.lastTaskResponses == [created, done] && r.0.inbound == rest
  {
    ForegroundReads(d, handle, result, rest);
    TwoReads(sent, typ, Task(Response, TYPE_JOB_CREATED, Int(|handle|), JobCreated(Text(handle))),
             Task(Response, TYPE_WORK_COMPLETE, Int(|handle + [NUL] + result|), WorkCompleteRes(Text(handle), Text(result))),
             12 + |handle|, 12 + |handle + [NUL] + result|);
  }

  /** A JOB_CREATED frame then a WORK_COMPLETE frame, read one after the other. */
  lemma ForegroundReads(d: Direction, handle: Bytes, result: Bytes, rest: Bytes)
    requires handle != [] && |handle| < TWO32 && NulFree(handle)
    requires |handle + [NUL] + result| < TWO32
    ensures var s := Frame(d, TYPE_JOB_CREATED, handle) + (Frame(d, TYPE_WORK_COMPLETE, handle + [NUL] + result) + rest);
            var k1, k2 := 12 + |handle|, 12 + |handle + [NUL] + result|;
            ClientRead(s) == Outcome(Ok(Task(Response, TYPE_JOB_CREATED, Int(|handle|), JobCreated(Text(handle)))), k1)
            && ClientRead(s[k1..])
               == Outcome(Ok(Task(Response, TYPE_WORK_COMPLETE, Int(|handle + [NUL] + result|), WorkCompleteRes(Text(handle), Text(result)))), k2)
            && s[k1..][k2..] == rest
  {
    var second := Frame(d, TYPE_WORK_COMPLETE, handle + [NUL] + result) + rest;
    JobCreatedRead(d, handle, second);
    WorkCompleteRead(d, handle, result, rest);
    var s := Frame(d, TYPE_JOB_CREATED, handle) + second;
    assert s[12 + |handle|..] == second;
    assert second[12 + |handle + [NUL] + result|..] == rest;
  }

  /** A foreground submission whose first read gives JOB_CREATED and whose second read
      gives a task: both recorded, the second returned. */
  lemma TwoReads(sent: ClientState, typ: int, created: Task, done: Task, k1: nat, k2: nat)
    requires Foreground(typ) && !Rejects(created.typ)
    requires ClientRead(sent.inbound) == Outcome(Ok(created), k1)
    requires ClientRead(sent.inbound[k1..]) == Outcome(Ok(done), k2)
    ensures Answer(ReadOn(sent), typ)
            == (sent.(inbound := sent.inbound[k1..][k2..], lastTaskResponses := sent.lastTaskResponses + [created] + [done]),
                Ok(done))
  {
  }

  /** A successful submission has recorded one response, or two for a foreground type;
      it returns the last one, and the first is the JOB_CREATED. */
  lemma SubmitResponses(st: ClientState, functionName: Value, workload: Value, typ: int, uniqueId: Value)
    ensures var r := Submit(st, functionName, workload, typ, uniqueId);
            r.1.Ok? ==> |r.0.lastTaskResponses| == (if Foreground(typ) then 2 else 1)
                        && r.1.value == r.0.lastTaskResponses[|r.0.lastTaskResponses| - 1]
                        && r.0.lastTaskResponses[0].typ == TYPE_JOB_CREATED
  {
    if Submittable(typ) {
      SubmitSends(st, functionName, workload, typ, uniqueId);
      var sent := SendLast(st.(lastTaskResponses := []), SubmitTask(functionName, workload, typ, uniqueId).value);
      AnswerResponses(ReadOn(sent), typ);
    }
  }

  lemma AnswerResponses(first: (ClientState, Result<Task, Fault>), typ: int)
    requires first.0.lastTaskResponses == []
    ensures var r := Answer(first, typ);
            r.1.Ok? ==> |r.0.lastTaskResponses| == (if Foreground(typ) then 2 else 1)
                        && r.1.value == r.0.lastTaskResponses[|r.0.lastTaskResponses| - 1]
                        && r.0.lastTaskResponses[0].typ == TYPE_JOB_CREATED
  {
  }

  /** With the Error constructor and the guard both corrected, an ERROR answer is refused,
      where the guard as written lets every response through: every task a read
      produces has a non-zero type. */
  lemma ErrorAnswerRefused(st: ClientState, functionName: Value, workload: Value, typ: int, uniqueId: Value,
                           d: Direction, code: Bytes, text: Bytes, rest: Bytes)
    requires Submittable(typ)
    requires code + [NUL] + text != [] && |code + [NUL] + text| < TWO32
    requires st.inbound == Frame(d, TYPE_ERROR, code + [NUL] + text) + rest
    ensures Submit(st, functionName, workload, typ, uniqueId).1 == Err(ProtocolViolation)
    ensures ClientRead(st.inbound).result.Ok?
            && !RejectsAsWritten(ClientRead(st.inbound).result.value.typ)
  {
    ClientReadsClass(d, ERROR, code + [NUL] + text, rest);
    SubmitSends(st, functionName, workload, typ, uniqueId);
  }

  /** As written, a background submission answered with ERROR succeeds: the ERROR task
      is recorded as the only response and returned. Its constructor gave it the type
      JOB_CREATED, so the intended guard alone would let it through too; the corrected
      program, with both the constructor and the guard fixed, refuses it. */
  lemma ErrorAnswerAcceptedAsWritten(st: ClientState, functionName: Value, workload: Value, typ: int,
                                     uniqueId: Value, d: Direction, code: Bytes, text: Bytes, rest: Bytes)
    requires Submittable(typ) && !Foreground(typ)
    requires code + [NUL] + text != [] && |code + [NUL] + text| < TWO32
    requires st.inbound == Frame(d, TYPE_ERROR, code + [NUL] + text) + rest
    ensures var r := SubmitAsWritten(st, functionName, workload, typ, uniqueId);
            r.1.Ok? && Class(r.1.value.body) == ERROR && r.1.value.typ == TYPE_JOB_CREATED
            && !Rejects(r.1.value.typ) && r.0.lastTaskResponses == [r.1.value] && r.0.inbound == rest
    ensures Submit(st, functionName, workload, typ, uniqueId).1 == Err(ProtocolViolation)
  {
    ClientReadsClass(d, ERROR, code + [NUL] + text, rest);
    SubmitSends(st, functionName, workload, typ, uniqueId);
    var payload := code + [NUL] + text;
    var s := Frame(d, TYPE_ERROR, payload) + rest;
    assert s[12 + |payload|..] == rest;
  }

  /** The guard as written fires only for type 0, which no read ever produces. */
  lemma CheckAsWrittenNeverFires(s: Bytes)
    ensures forall typ :: RejectsAsWritten(typ) <==> typ == 0
    ensures ClientRead(s).result.Ok? ==> !RejectsAsWritten(ClientRead(s).result.value.typ)
    ensures ClientReadAsWritten(s).result.Ok? ==> !RejectsAsWritten(ClientReadAsWritten(s).result.value.typ)
  {
    ReadTypes(s);
  }

  /** The echo request writes one ECHO_REQ carrying the data, and an ECHO_RES answer
      gives the data back, recorded as the only response. */
  lemma EchoRoundTripOverClient(st: ClientState, data: Bytes, d: Direction, rest: Bytes)
    requires data != [] && |data| < TWO32
    requires st.inbound == Frame(d, TYPE_ECHO_RES, data) + rest
    ensures var r := Echo(st, Text(data));
            r.0.written == st.written + [ToString(NewEchoReq(Text(data))).0]
            && r.1 == Ok(Task(Response, TYPE_ECHO_RES, Int(|data|), EchoRes(Text(data))))
            && r.0.lastTaskResponses == [r.1.value] && r.0.inbound == rest
  {
    EchoReqPayload(data);
    ClientReadsClass(d, ECHO_RES, data, rest);
    EchoRoundTrip(data);
    var t := NewEchoRes().(length := Int(|data|));
    assert SetFromResponse(t, data).value == SetFromResponse(NewEchoRes(), data).value.(length := Int(|data|));
  }

  lemma JobCreatedRead(d: Direction, handle: Bytes, rest: Bytes)
    requires handle != [] && |handle| < TWO32
    ensures ClientRead(Frame(d, TYPE_JOB_CREATED, handle) + rest)
            == Outcome(Ok(Task(Response, TYPE_JOB_CREATED, Int(|handle|), JobCreated(Text(handle)))),
                       12 + |handle|)
  {
    ClientReadsClass(d, JOB_CREATED, handle, rest);
    JobCreatedParse(handle);
    var t := NewJobCreated().(length := Int(|handle|));
    assert SetFromResponse(t, handle).value == SetFromResponse(NewJobCreated(), handle).value.(length := Int(|handle|));
  }

  lemma WorkCompleteRead(d: Direction, handle: Bytes, result: Bytes, rest: Bytes)
    requires NulFree(handle) && |handle + [NUL] + result| < TWO32
    ensures ClientRead(Frame(d, TYPE_WORK_COMPLETE, handle + [NUL] + result) + rest)
            == Outcome(Ok(Task(Response, TYPE_WORK_COMPLETE, Int(|handle + [NUL] + result|),
                               WorkCompleteRes(Text(handle), Text(result)))),
                       12 + |handle + [NUL] + result|)
  {
    var payload := handle + [NUL] + result;
    ClientReadsClass(d, WORK_COMPLETE, payload, rest);
    WorkCompleteRoundTrip(handle, result);
    WorkCompletePayload(handle, result);
    var t := NewWorkCompleteRes().(length := Int(|payload|));
    assert SetFromResponse(t, payload).value == SetFromResponse(NewWorkCompleteRes(), payload).value.(length := Int(|payload|));
  }
}

=== FILE: codec.dfy ===
/** The Gearman binary framing the library writes and reads: big-endian 32-bit
    numbers (`pack('N')`/`unpack('N2')`), NUL-separated fields (`join`/`explode`)
    and the 12-byte frame header. */
module Codec {
  import opened Base
  import opened Phearman

  const TWO32: int := 0x1_0000_0000

  /** `pack('N', n)`: the four bytes of n modulo 2^32, most significant first. */
  function PackN(n: int): (r: Bytes)
    ensures |r| == 4
  {
    var m := n % TWO32;
    [(m / 0x100_0000) as byte, (m / 0x1_0000 % 256) as byte, (m / 0x100 % 256) as byte, (m % 256) as byte]
  }

  /** `unpack('N', b)`: the unsigned big-endian number in four bytes. */
  function UnpackN(b: Bytes): (r: nat)
    requires |b| == 4
    ensures r < TWO32
  {
    b[0] as int * 0x100_0000 + b[1] as int * 0x1_0000 + b[2] as int * 0x100 + b[3] as int
  }

  /** Encoding then decoding a number gives it back, reduced modulo 2^32. */
  lemma UnpackPack(n: int)
    ensures UnpackN(PackN(n)) == n % TWO32
  {
    var m := n % TWO32;
    assert m / 0x100 / 0x100 == m / 0x1_0000;
    assert m / 0x1_0000 / 0x100 == m / 0x100_0000;
    assert m == (m / 0x100_0000) * 0x100_0000 + (m / 0x1_0000 % 256) * 0x1_0000 + (m / 0x100 % 256) * 0x100 + m % 256;
  }

  /** Decoding then encoding four bytes gives them back. */
  lemma PackUnpack(b: Bytes)
    requires |b| == 4
    ensures PackN(UnpackN(b)) == b
  {
    var n := UnpackN(b);
    var b0, b1, b2, b3 := b[0] as int, b[1] as int, b[2] as int, b[3] as int;
    assert n % TWO32 == n;
    assert n / 0x100_0000 == b0;
    assert n / 0x1_0000 == b0 * 0x100 + b1;
    assert (b0 * 0x100 + b1) % 256 == b1;
    assert n / 0x100 == b0 * 0x1_0000 + b1 * 0x100 + b2;
    assert (b0 * 0x1_0000 + b1 * 0x100 + b2) % 256 == b2;
    assert n % 256 == b3;
  }

  /** `unpack('N2', h)`: type and length, or nothing (PHP's `false`) on fewer than 8 bytes. */
  function UnpackHeader(h: Bytes): (r: Option<(nat, nat)>)
    ensures r.Some? <==> |h| >= 8
  {
    if |h| < 8 then None else Some((UnpackN(h[..4]), UnpackN(h[4..8])))
  }

  /** `join("\0", fields)` on a list of fields. */
  function Implode(fields: seq<Bytes>): Bytes
  {
    if fields == [] then [] else if |fields| == 1 then fields[0] else fields[0] + [NUL] + Implode(fields[1..])
  }

  /** `explode("\0", s)`: the pieces between separators; never empty. */
  function Explode(s: Bytes): (r: seq<Bytes>)
    ensures |r| >= 1
  {
    if s == [] then [[]]
    else if s[0] == NUL then [[]] + Explode(s[1..])
    else var t := Explode(s[1..]); [[s[0]] + t[0]] + t[1..]
  }

  /** `explode("\0", s, limit)`: at most `limit` pieces, the last one keeping the rest. */
  function ExplodeLimit(s: Bytes, limit: nat): (r: seq<Bytes>)
    requires limit >= 1
    ensures 1 <= |r| <= limit
  {
    if limit == 1 || s == [] then [s]
    else if s[0] == NUL then [[]] + ExplodeLimit(s[1..], limit - 1)
    else var t := ExplodeLimit(s[1..], limit); [[s[0]] + t[0]] + t[1..]
  }

  /** `$parts[i]`: the piece, or null when the split produced fewer pieces. */
  function Piece(parts: seq<Bytes>, i: nat): (r: Option<Bytes>)
    ensures r.Some? <==> i < |parts|
  {
    if i < |parts| then Some(parts[i]) else None
  }

  function NulCount(s: Bytes): nat
  {
    if s == [] then 0 else (if s[0] == NUL then 1 else 0) + NulCount(s[1..])
  }

  predicate AllNulFree(fields: seq<Bytes>)
  {
    forall i :: 0 <= i < |fields| ==> NulFree(fields[i])
  }

  lemma {:induction false} NulCountAppend(a: Bytes, b: Bytes)
    ensures NulCount(a + b) == NulCount(a) + NulCount(b)
    decreases |a|
  {
    if a == [] {
      assert a + b == b;
    } else {
      assert (a + b)[1..] == a[1..] + b;
      NulCountAppend(a[1..], b);
    }
  }

  lemma {:induction false} NulFreeCount(s: Bytes)
    requires NulFree(s)
    ensures NulCount(s) == 0
    decreases |s|
  {
    if s != [] {
      NulFreeCount(s[1..]);
    }
  }

  /** Joining NUL-free fields puts exactly one NUL between consecutive fields and none elsewhere. */
  lemma {:induction false} ImplodeSeparators(fields: seq<Bytes>)
    requires |fields| >= 1 && AllNulFree(fields)
    ensures NulCount(Implode(fields)) == |fields| - 1
    decreases |fields|
  {
    NulFreeCount(fields[0]);
    if |fields| > 1 {
      ImplodeSeparators(fields[1..]);
      NulCountAppend(fields[0] + [NUL], Implode(fields[1..]));
      NulCountAppend(fields[0], [NUL]);
    }
  }

  /** Splitting a NUL-free field glued to the rest of a string. */
  lemma {:induction false} ExplodeNulFreePrefix(a: Bytes, rest: Bytes)
    requires NulFree(a)
    ensures Explode(a + rest) == [a + Explode(rest)[0]] + Explode(rest)[1..]
    decreases |a|
  {
    if a == [] {
      assert a + rest == rest;
      var t := Explode(rest);
      assert a + t[0] == t[0];
      assert [a + t[0]] + t[1..] == t;
    } else {
      assert (a + rest)[1..] == a[1..] + rest;
      ExplodeNulFreePrefix(a[1..], rest);
      assert [a[0]] + (a[1..] + Explode(rest)[0]) == a + Explode(rest)[0];
    }
  }

  /** A NUL-free string splits into itself. */
  lemma ExplodeNulFree(a: Bytes)
    requires NulFree(a)
    ensures Explode(a) == [a]
  {
    ExplodeNulFreePrefix(a, []);
    assert a + [] == a;
  }

  /** A NUL-free field followed by a separator splits off as the first piece. */
  lemma ExplodeField(a: Bytes, rest: Bytes)
    requires NulFree(a)
    ensures Explode(a + [NUL] + rest) == [a] + Explode(rest)
  {
    assert Explode([NUL] + rest) == [[]] + Explode(rest) by {
      assert ([NUL] + rest)[1..] == rest;
    }
    assert a + [NUL] + rest == a + ([NUL] + rest);
    ExplodeNulFreePrefix(a, [NUL] + rest);
    assert a + [] == a;
  }

  /** Splitting joined NUL-free fields gives the fields back. */
  lemma {:induction false} ExplodeImplode(fields: seq<Bytes>)
    requires |fields| >= 1 && AllNulFree(fields)
    ensures Explode(Implode(fields)) == fields
    decreases |fields|
  {
    var f := fields[0];
    if |fields| == 1 {
      ExplodeNulFreePrefix(f, []);
      assert f + [] == f;
    } else {
      var rest := Implode(fields[1..]);
      ExplodeImplode(fields[1..]);
      assert [NUL] + rest == [NUL] + rest;
      assert Explode([NUL] + rest) == [[]] + Explode(rest) by {
        assert ([NUL] + rest)[1..] == rest;
      }
      assert f + [NUL] + rest == f + ([NUL] + rest);
      ExplodeNulFreePrefix(f, [NUL] + rest);
      var e := [[]] + fields[1..];
      assert e[0] == [] && e[1..] == fields[1..];
      assert f + [] == f;
      assert [f] + fields[1..] == fields;
    }
  }

  /** Joining the pieces of a split gives the string back: the split loses nothing but the separators. */
  lemma {:induction false} ImplodeExplode(s: Bytes)
    ensures Implode(Explode(s)) == s
    decreases |s|
  {
    if s != [] {
      ImplodeExplode(s[1..]);
      var t := Explode(s[1..]);
      if s[0] == NUL {
        assert Implode([[]] + t) == [] + [NUL] + Implode(t) by {
          assert ([[]] + t)[1..] == t;
        }
        assert s == [NUL] + s[1..];
      } else {
        var r := [[s[0]] + t[0]] + t[1..];
        if |t| == 1 {
          assert s == [s[0]] + s[1..];
        } else {
          assert r[1..] == t[1..];
          assert Implode(t) == t[0] + [NUL] + Implode(t[1..]);
          assert s == [s[0]] + s[1..];
        }
      }
    }
  }

  /** With a limit equal to the number of fields, splitting joined fields gives them back as
      long as every field but the last is NUL-free: the last field may hold anything. */
  lemma {:induction false} ExplodeLimitImplode(fields: seq<Bytes>)
    requires |fields| >= 1 && AllNulFree(fields[..|fields| - 1])
    ensures ExplodeLimit(Implode(fields), |fields|) == fields
    decreases |fields|
  {
    if |fields| > 1 {
      var f := fields[0];
      var rest := Implode(fields[1..]);
      assert fields[1..][..|fields[1..]| - 1] == fields[..|fields| - 1][1..];
      ExplodeLimitImplode(fields[1..]);
      assert NulFree(f) by {
        assert fields[..|fields| - 1][0] == f;
      }
      ExplodeLimitNulFreePrefix(f, [NUL] + rest, |fields|);
      assert ExplodeLimit([NUL] + rest, |fields|) == [[]] + ExplodeLimit(rest, |fields| - 1) by {
        assert ([NUL] + rest)[1..] == rest;
      }
      assert f + [NUL] + rest == f + ([NUL] + rest);
      var e := [[]] + fields[1..];
      assert e[0] == [] && e[1..] == fields[1..];
      assert f + [] == f;
      assert [f] + fields[1..] == fields;
    }
  }

  lemma {:induction false} ExplodeLimitNulFreePrefix(a: Bytes, rest: Bytes, limit: nat)
    requires NulFree(a) && limit >= 2 && rest != [] && rest[0] == NUL
    ensures ExplodeLimit(a + rest, limit) == [a + ExplodeLimit(rest, limit)[0]] + ExplodeLimit(rest, limit)[1..]
    decreases |a|
  {
    if a == [] {
      assert a + rest == rest;
      var t := ExplodeLimit(rest, limit);
      assert a + t[0] == t[0];
      assert [a + t[0]] + t[1..] == t;
    } else {
      assert (a + rest)[1..] == a[1..] + rest;
      ExplodeLimitNulFreePrefix(a[1..], rest, limit);
      assert [a[0]] + (a[1..] + ExplodeLimit(rest, limit)[0]) == a + ExplodeLimit(rest, limit)[0];
    }
  }

  /** The wire magic: a NUL followed by the three-letter code. */
  function Magic(d: Direction): (r: Bytes)
    ensures |r| == 4
  {
    match d
    case Request => [NUL, 82, 69, 81]    // "\0REQ"
    case Response => [NUL, 82, 69, 83]   // "\0RES"
  }

  /** A frame: magic, BE32 type, BE32 payload length, payload. */
  function Frame(d: Direction, typ: int, payload: Bytes): (r: Bytes)
    ensures |r| == 12 + |payload|
  {
    Magic(d) + PackN(typ) + PackN(|payload|) + payload
  }

  /** Reads a whole frame back: direction from the magic, type and length from the header,
      and a payload of exactly the announced length. */
  function DecodeFrame(f: Bytes): Option<(Direction, nat, Bytes)>
  {
    if |f| < 12 then None
    else
      var d := if f[..4] == Magic(Request) then Some(Request)
               else if f[..4] == Magic(Response) then Some(Response)
               else None;
      var h := UnpackHeader(f[4..12]);
      if d.None? || h.None? || h.value.1 != |f| - 12 then None
      else Some((d.value, h.value.0, f[12..]))
  }

  /** The parts of a frame: the magic, a header that decodes to the type and the
      payload length (both modulo 2^32), and the payload. */
  lemma FrameParts(d: Direction, typ: int, payload: Bytes)
    ensures Frame(d, typ, payload)[..4] == Magic(d)
    ensures UnpackHeader(Frame(d, typ, payload)[4..12]) == Some((typ % TWO32, |payload| % TWO32))
    ensures Frame(d, typ, payload)[12..] == payload
  {
    var f := Frame(d, typ, payload);
    var h := PackN(typ) + PackN(|payload|);
    assert f == Magic(d) + h + payload;
    assert f[4..12] == h;
    assert h[..4] == PackN(typ);
    assert h[4..8] == PackN(|payload|);
    UnpackPack(typ);
    UnpackPack(|payload|);
  }

  /** Every frame decodes to its direction, its type modulo 2^32 and its payload. */
  lemma FrameRoundTrip(d: Direction, typ: int, payload: Bytes)
    requires |payload| < TWO32
    ensures DecodeFrame(Frame(d, typ, payload)) == Some((d, typ % TWO32, payload))
  {
    FrameParts(d, typ, payload);
  }

  /** A split yields one piece more than there are separators. */
  lemma {:induction false} ExplodeCount(s: Bytes)
    ensures |Explode(s)| == NulCount(s) + 1
    decreases |s|
  {
    if s != [] {
      ExplodeCount(s[1..]);
    }
  }

  /** A split with a limit yields one piece more than there are separators, but no
      more than the limit. */
  lemma {:induction false} ExplodeLimitCount(s: Bytes, limit: nat)
    requires limit >= 1
    ensures |ExplodeLimit(s, limit)| == if NulCount(s) + 1 < limit then NulCount(s) + 1 else limit
    decreases |s|
  {
    if limit > 1 && s != [] {
      if s[0] == NUL {
        ExplodeLimitCount(s[1..], limit - 1);
      } else {
        ExplodeLimitCount(s[1..], limit);
      }
    }
  }
}

=== FILE: factory.dfy ===
/** `Task::factory` (Task.php): from a numeric packet type and a direction to a new
    instance of the packet class whose name is derived from the type's constant. */
module TaskFactory {
  import opened Base
  import opened PhpString
  import opened Phearman
  import opened Tasks
  import opened Requests
  import opened Responses

  /** The words of `CODE_REQUEST`, the constant PHP's loose comparison matches with 0. */
  const CodeRequestWords: seq<ConstWord> := ["CODE", "REQUEST"]

  /** `array_search($code, $constants)`: the name of the first of Phearman's constants
      that loosely equals the code. `VERSION` ('0.1') equals no integer, `CODE_REQUEST`
      ('REQ') equals 0 and comes before any type, and a TYPE_ constant equals its own
      value only. */
  function ConstantName(code: int): (r: Option<string>)
    ensures code == 0 ==> r == Some(Joined(CodeRequestWords, '_'))
    ensures code != 0 ==> (r.Some? <==> TypeOf(code).Some?)
    ensures forall p :: code != 0 && TypeOf(code) == Some(p) ==> r == Some(ConstName(p))
  {
    if code == 0 then Some(Joined(CodeRequestWords, '_'))
    else match TypeOf(code)
      case None => None
      case Some(p) => Some(ConstName(p))
  }

  /** The packet classes that exist in each namespace, by the constant they stand for. */
  function Classes(d: Direction): (r: seq<PacketType>)
    ensures |r| == if d == Request then 8 else 9
  {
    match d
    case Request => [CAN_DO, ECHO_REQ, GET_STATUS, GRAB_JOB, PRE_SLEEP, SUBMIT_JOB, WORK_COMPLETE, WORK_STATUS]
    case Response => [ECHO_RES, ERROR, JOB_ASSIGN, JOB_CREATED, NO_JOB, NOOP, STATUS_RES, WORK_COMPLETE, WORK_STATUS]
  }

  /** Whether the namespace has a class for the type. */
  predicate Exists(d: Direction, p: PacketType)
  {
    match d
    case Request => p.CAN_DO? || p.ECHO_REQ? || p.GET_STATUS? || p.GRAB_JOB? || p.PRE_SLEEP?
                    || p.SUBMIT_JOB? || p.WORK_COMPLETE? || p.WORK_STATUS?
    case Response => p.ECHO_RES? || p.ERROR? || p.JOB_ASSIGN? || p.JOB_CREATED? || p.NO_JOB?
                     || p.NOOP? || p.STATUS_RES? || p.WORK_COMPLETE? || p.WORK_STATUS?
  }

  /** The list and the predicate agree. */
  lemma ClassesExist(d: Direction, p: PacketType)
    ensures p in Classes(d) <==> Exists(d, p)
  {
    if d == Request {
      RequestClassesExist(p);
    } else {
      ResponseClassesExist(p);
    }
  }

  lemma RequestClassesExist(p: PacketType)
    ensures p in Classes(Request) <==> Exists(Request, p)
  {
  }

  lemma ResponseClassesExist(p: PacketType)
    ensures p in Classes(Response) <==> Exists(Response, p)
  {
  }

  /** Loading a class by name: the first class of the namespace whose name is `cls`. */
  function Load(ps: seq<PacketType>, cls: string): (r: Option<PacketType>)
    ensures r.Some? ==> r.value in ps && CamelCase(Words(r.value)) == cls
    ensures r.None? ==> forall p :: p in ps ==> CamelCase(Words(p)) != cls
  {
    if ps == [] then None
    else if CamelCase(Words(ps[0])) == cls then Some(ps[0])
    else Load(ps[1..], cls)
  }

  /** `new $className` with no arguments: every constructor parameter without a default
      is null, and SubmitJob's defaults give a null unique id and the type SUBMIT_JOB. */
  function Instantiate(d: Direction, p: PacketType): (t: Task)
    requires Exists(d, p)
    ensures WellTyped(t) && t.code == d && Class(t.body) == p && t.length == Null && t.typ == Code(p)
  {
    if d == Request then InstantiateRequest(p) else InstantiateResponse(p)
  }

  function InstantiateRequest(p: PacketType): (t: Task)
    requires Exists(Request, p)
    ensures WellTyped(t) && t.code == Request && Class(t.body) == p && t.length == Null && t.typ == Code(p)
  {
    match p
    case CAN_DO => NewCanDo(Null)
    case ECHO_REQ => NewEchoReq(Null)
    case GET_STATUS => NewGetStatus()
    case GRAB_JOB => NewGrabJob()
    case PRE_SLEEP => NewPreSleep()
    case SUBMIT_JOB => DefaultSubmitJob()
    case WORK_COMPLETE => NewWorkComplete(Null)
    case WORK_STATUS => NewWorkStatus(Null, Null, Null)
  }

  /** `new SubmitJob()`: the default type is accepted, so the constructor does not throw. */
  function DefaultSubmitJob(): (t: Task)
    ensures NewSubmitJob(Null, TYPE_SUBMIT_JOB) == Ok(t)
    ensures WellTyped(t) && t.code == Request && t.typ == TYPE_SUBMIT_JOB && Get(t, UniqueId) == Null
  {
    SubmittableFamily(TYPE_SUBMIT_JOB);
    NewSubmitJob(Null, TYPE_SUBMIT_JOB).value
  }

  function InstantiateResponse(p: PacketType): (t: Task)
    requires Exists(Response, p)
    ensures WellTyped(t) && t.code == Response && Class(t.body) == p && t.length == Null && t.typ == Code(p)
  {
    match p
    case ECHO_RES => NewEchoRes()
    case ERROR => NewError()
    case JOB_ASSIGN => NewJobAssign()
    case JOB_CREATED => NewJobCreated()
    case NO_JOB => NewNoJob()
    case NOOP => NewNoop()
    case STATUS_RES => NewStatusRes()
    case WORK_COMPLETE => NewWorkCompleteRes()
    case WORK_STATUS => NewWorkStatusRes()
  }

  /** `Task::factory($code, $direction)`: an unknown code throws, then a direction other
      than REQ or RES (in any case) throws, then the class named after the constant is
      loaded from the direction's namespace, and a missing class is fatal. */
  function Factory(code: int, direction: string): (r: Result<Task, Fault>)
    ensures ConstantName(code).None? ==> r == Err(InvalidTaskType)
    ensures ConstantName(code).Some? && ToUpper(direction) != CODE_REQUEST && ToUpper(direction) != CODE_RESPONSE
            ==> r == Err(InvalidDirection)
    ensures r.Ok? ==> WellTyped(r.value) && r.value.length == Null
                      && DirectionCode(r.value.code) == ToUpper(direction)
  {
    match ConstantName(code)
    case None => Err(InvalidTaskType)
    case Some(name) =>
      var dir := ToUpper(direction);
      if dir != CODE_REQUEST && dir != CODE_RESPONSE then Err(InvalidDirection)
      else
        var d := if dir == CODE_REQUEST then Request else Response;
        var cls := ClassName(name);
        match Load(Classes(d), cls)
        case None => Err(ClassNotFound(cls))
        case Some(p) => ClassesExist(d, p); Ok(Instantiate(d, p))
  }

  /** The response constructors as written: Error and StatusRes give the new task the
      JOB_CREATED type; every other class is built as in `InstantiateResponse`. */
  function InstantiateResponseAsWritten(p: PacketType): (t: Task)
    requires Exists(Response, p)
    ensures t.code == Response && Class(t.body) == p && t.length == Null
    ensures t.typ == if p == ERROR || p == STATUS_RES then TYPE_JOB_CREATED else Code(p)
    ensures t == InstantiateResponse(p).(typ := t.typ)
  {
    if p == ERROR then NewErrorAsWritten()
    else if p == STATUS_RES then NewStatusResAsWritten()
    else InstantiateResponse(p)
  }

  /** `Task::factory` as written: the same lookup, with the response constructors as
      written. It fails exactly where the corrected factory fails, and differs from it
      only in the type of a new Error or StatusRes. */
  function FactoryAsWritten(code: int, direction: string): (r: Result<Task, Fault>)
    ensures Factory(code, direction).Err? ==> r == Factory(code, direction)
    ensures r.Ok? <==> Factory(code, direction).Ok?
    ensures r.Ok? ==> var t := Factory(code, direction).value;
                      r.value == t.(typ := r.value.typ)
                      && r.value.typ == if Class(t.body) == ERROR || Class(t.body) == STATUS_RES
                                        then TYPE_JOB_CREATED else t.typ
  {
    match ConstantName(code)
    case None => Err(InvalidTaskType)
    case Some(name) =>
      var dir := ToUpper(direction);
      if dir != CODE_REQUEST && dir != CODE_RESPONSE then Err(InvalidDirection)
      else
        var d := if dir == CODE_REQUEST then Request else Response;
        var cls := ClassName(name);
        match Load(Classes(d), cls)
        case None => Err(ClassNotFound(cls))
        case Some(p) =>
          ClassesExist(d, p);
          Ok(if d == Request then InstantiateRequest(p) else InstantiateResponseAsWritten(p))
  }

  /** As written, the factory builds ERROR and STATUS_RES tasks of type JOB_CREATED,
      where the corrected factory gives them their own types. */
  lemma FactoryRetypesAsWritten(direction: string)
    requires ToUpper(direction) == CODE_RESPONSE
    ensures FactoryAsWritten(TYPE_ERROR, direction) == Ok(NewErrorAsWritten())
    ensures FactoryAsWritten(TYPE_STATUS_RES, direction) == Ok(NewStatusResAsWritten())
    ensures Factory(TYPE_ERROR, direction) == Ok(NewError())
    ensures Factory(TYPE_STATUS_RES, direction) == Ok(NewStatusRes())
  {
    FactoryFindsClass(Response, ERROR, direction);
    FactoryFindsClass(Response, STATUS_RES, direction);
  }

  /** The factory's failures are its own exceptions; it never blocks. */
  lemma FactoryNeverStalls(code: int, direction: string)
    ensures Factory(code, direction) != Err(Stalled)
  {
    match ConstantName(code)
    case None =>
    case Some(name) =>
      var dir := ToUpper(direction);
      if dir == CODE_REQUEST || dir == CODE_RESPONSE {
        var d := if dir == CODE_REQUEST then Request else Response;
        match Load(Classes(d), ClassName(name))
        case None =>
        case Some(p) => ClassesExist(d, p);
      }
  }

  /** Only the class of the constant itself bears its name: class names are CamelCased
      constant names, and different constants give different names. */
  lemma LoadByName(ps: seq<PacketType>, p: PacketType)
    ensures p in ps ==> Load(ps, CamelCase(Words(p))) == Some(p)
    ensures p !in ps ==> Load(ps, CamelCase(Words(p))) == None
  {
    var cls := CamelCase(Words(p));
    match Load(ps, cls)
    case None =>
    case Some(q) =>
      CamelCaseInjective(Words(q), Words(p));
      WordsInjective(q, p);
      if p in ps {
        LoadFirst(ps, p);
      }
  }

  lemma {:induction false} LoadFirst(ps: seq<PacketType>, p: PacketType)
    requires p in ps
    ensures Load(ps, CamelCase(Words(p))).Some?
  {
    if ps[0] != p {
      LoadFirst(ps[1..], p);
    }
  }

  /** The class name of a type's constant is its CamelCased words. */
  lemma ClassOfType(p: PacketType)
    ensures ClassName(ConstName(p)) == CamelCase(Words(p))
  {
    ClassNameOfConstant(Words(p));
  }

  /** Every class is reached: the factory given a class's code and its namespace's
      direction, in any case, builds a new instance of exactly that class. */
  lemma FactoryFindsClass(d: Direction, p: PacketType, direction: string)
    requires Exists(d, p) && ToUpper(direction) == DirectionCode(d)
    ensures Factory(Code(p), direction) == Ok(Instantiate(d, p))
    ensures Factory(Code(p), direction).Ok? && Class(Factory(Code(p), direction).value.body) == p
            && Factory(Code(p), direction).value.code == d
  {
    LookupInverse(p, Code(p));
    ClassOfType(p);
    ClassesExist(d, p);
    LoadByName(Classes(d), p);
  }

  /** A type whose class does not exist in the namespace is fatal, naming the class. */
  lemma FactoryMissingClass(d: Direction, p: PacketType, direction: string)
    requires !Exists(d, p) && ToUpper(direction) == DirectionCode(d)
    ensures Factory(Code(p), direction) == Err(ClassNotFound(CamelCase(Words(p))))
  {
    ClassesExist(d, p);
    LookupInverse(p, Code(p));
    ClassOfType(p);
    LoadByName(Classes(d), p);
  }

  /** Code 0 matches `CODE_REQUEST`, so it passes the type guard and then fails to load
      a class `CodeRequest`. */
  lemma FactoryCodeZero(direction: string)
    requires ToUpper(direction) == CODE_REQUEST || ToUpper(direction) == CODE_RESPONSE
    ensures Factory(0, direction) == Err(ClassNotFound(CamelCase(CodeRequestWords)))
  {
    ClassNameOfConstant(CodeRequestWords);
    var d := if ToUpper(direction) == CODE_REQUEST then Request else Response;
    forall q | q in Classes(d)
      ensures CamelCase(Words(q)) != CamelCase(CodeRequestWords)
    {
      CamelCaseInjective(Words(q), CodeRequestWords);
      CodeRequestIsNoType(q);
    }
  }

  /** `TYPE_JOB_ASSIGN` gives the class name `JobAssign`. */
  lemma JobAssignClassName()
    ensures CamelCase(Words(JOB_ASSIGN)) == "JobAssign"
  {
    var ws := Words(JOB_ASSIGN);
    assert ws == ["JOB", "ASSIGN"];
    assert ws[1..] == ["ASSIGN"];
    assert CamelCase(ws[1..]) == "Assign" by {
      assert ToLower("SSIGN") == "ssign";
    }
    assert ToLower("OB") == "ob";
  }

  /** `TYPE_NO_JOB` gives the class name `NoJob`. */
  lemma NoJobClassName()
    ensures CamelCase(Words(NO_JOB)) == "NoJob"
  {
    var ws := Words(NO_JOB);
    assert ws == ["NO", "JOB"];
    assert ws[1..] == ["JOB"];
    assert CamelCase(ws[1..]) == "Job" by {
      assert ToLower("OB") == "ob";
    }
    assert ToLower("O") == "o";
  }

  /** The class name code 0 leads to. */
  lemma CodeRequestClass()
    ensures CamelCase(CodeRequestWords) == "CodeRequest"
  {
    assert CodeRequestWords[1..] == ["REQUEST"];
    assert ToLower("ODE") == "ode";
    assert ToLower("EQUEST") == "equest";
  }

  /** The direction is matched without regard to case. */
  lemma FactoryCaseInsensitive(code: int, direction: string)
    ensures Factory(code, direction) == Factory(code, ToUpper(direction))
  {
    ToUpperIdempotent(direction);
  }

  lemma DirectionCodesUpper(d: Direction)
    ensures ToUpper(DirectionCode(d)) == DirectionCode(d)
  {
  }

  /** The codes a response header may carry that give a task: exactly those of the nine
      response classes. */
  lemma ResponseCodes(code: int)
    ensures Factory(code, CODE_RESPONSE).Ok? <==> code in {6, 8, 10, 11, 12, 13, 17, 19, 20}
  {
    DirectionCodesUpper(Response);
    ResponseTypeCodes(code);
    if code == 0 {
      FactoryCodeZero(CODE_RESPONSE);
    } else if TypeOf(code).Some? {
      var p := TypeOf(code).value;
      LookupInverse(p, code);
      if Exists(Response, p) {
        FactoryFindsClass(Response, p, CODE_RESPONSE);
      } else {
        FactoryMissingClass(Response, p, CODE_RESPONSE);
      }
    }
  }

  lemma ResponseTypeCodes(code: int)
    ensures TypeOf(code).Some? && Exists(Response, TypeOf(code).value) <==> code in {6, 8, 10, 11, 12, 13, 17, 19, 20}
  {
  }

  /** The codes a request header may carry that give a task: exactly those of the eight
      request classes, SUBMIT_JOB included. */
  lemma RequestCodes(code: int)
    ensures Factory(code, CODE_REQUEST).Ok? <==> code in {1, 4, 7, 9, 12, 13, 15, 16}
  {
    DirectionCodesUpper(Request);
    RequestTypeCodes(code);
    if code == 0 {
      FactoryCodeZero(CODE_REQUEST);
    } else if TypeOf(code).Some? {
      var p := TypeOf(code).value;
      LookupInverse(p, code);
      if Exists(Request, p) {
        FactoryFindsClass(Request, p, CODE_REQUEST);
      } else {
        FactoryMissingClass(Request, p, CODE_REQUEST);
      }
    }
  }

  lemma RequestTypeCodes(code: int)
    ensures TypeOf(code).Some? && Exists(Request, TypeOf(code).value) <==> code in {1, 4, 7, 9, 12, 13, 15, 16}
  {
  }
}

=== FILE: frames.dfy ===
/** Serialising a task (Task.php, `__toString`) and what the request and response
    classes promise about the payloads they write and read. */
module Frames {
  import opened Base
  import opened Phearman
  import opened Codec
  import opened Tasks
  import opened Requests
  import opened Responses

  function Strs(vs: seq<Value>): (r: seq<Bytes>)
    ensures |r| == |vs|
    ensures forall i :: 0 <= i < |vs| ==> r[i] == Str(vs[i])
  {
    if vs == [] then [] else [Str(vs[0])] + Strs(vs[1..])
  }

  /** The payload of a data part: an array is joined on NUL, a single value is sent as it is. */
  function Render(p: Part): Bytes
  {
    match p
    case Scalar(v) => Str(v)
    case Items(first, rest) => Implode([Str(first)] + Strs(rest))
  }

  /** The payload as written: only an array gets through. A null data part has count 0
      and stays null; a string has count 1 and is handed to `join`, which refuses a
      string and returns null. Either way the payload is empty. */
  function RenderAsWritten(p: Part): Bytes
  {
    match p
    case Scalar(_) => []
    case Items(first, rest) => Implode([Str(first)] + Strs(rest))
  }

  function Payload(t: Task): Bytes
  {
    Render(DataPart(t.body))
  }

  /** `__toString()`: the frame, and the task with `length` set to the payload's length.
      The frame is the magic, a header that decodes to the type and the payload length,
      and the payload. */
  function ToString(t: Task): (r: (Bytes, Task))
    ensures |r.0| == 12 + |Payload(t)|
    ensures r.0[..4] == Magic(t.code) && r.0[12..] == Payload(t)
    ensures UnpackHeader(r.0[4..12]) == Some((t.typ % TWO32, |Payload(t)| % TWO32))
    ensures r.1.length == Int(|Payload(t)|) && r.1.(length := t.length) == t
  {
    FrameParts(t.code, t.typ, Payload(t));
    (Frame(t.code, t.typ, Payload(t)), t.(length := Int(|Payload(t)|)))
  }

  /** `__toString()` as written: CanDo and WorkComplete requests lose their payload. */
  function ToStringAsWritten(t: Task): (r: (Bytes, Task))
    ensures |r.0| == 12 + |RenderAsWritten(DataPart(t.body))|
    ensures r.1.length == Int(|RenderAsWritten(DataPart(t.body))|)
  {
    var payload := RenderAsWritten(DataPart(t.body));
    (Frame(t.code, t.typ, payload), t.(length := Int(|payload|)))
  }

  /** The two renderings differ only on a single-value data part. */
  lemma RenderArrays(p: Part)
    ensures p.Items? ==> RenderAsWritten(p) == Render(p)
    ensures p.Scalar? ==> RenderAsWritten(p) == [] && Render(p) == Str(p.v)
  {
  }

  // ---------------------------------------------------------------------------
  // Request payloads.

  /** A class that keeps the inherited `getDataPart` sends an empty payload: a
      12-byte frame with length 0. */
  lemma NoDataFrame(t: Task)
    requires DataPart(t.body) == Scalar(Null)
    ensures Payload(t) == [] && |ToString(t).0| == 12 && ToString(t).1.length == Int(0)
  {
  }

  lemma NoDataClasses(b: Body)
    ensures b.GrabJob? || b.PreSleep? || Dir(b) == Response ==> DataPart(b) == Scalar(Null)
  {
  }

  /** GRAB_JOB is exactly "\0REQ", 9 and 0. */
  lemma GrabJobFrame()
    ensures ToString(NewGrabJob()).0 == [0, 82, 69, 81, 0, 0, 0, 9, 0, 0, 0, 0]
  {
    var f := ToString(NewGrabJob()).0;
    assert f == [0, 82, 69, 81] + PackN(9) + PackN(0) + [];
  }

  /** PRE_SLEEP is exactly "\0REQ", 4 and 0. */
  lemma PreSleepFrame()
    ensures ToString(NewPreSleep()).0 == [0, 82, 69, 81, 0, 0, 0, 4, 0, 0, 0, 0]
  {
    var f := ToString(NewPreSleep()).0;
    assert f == [0, 82, 69, 81] + PackN(4) + PackN(0) + [];
  }

  /** CAN_DO carries the function name and nothing else; as written it carries nothing. */
  lemma CanDoPayload(name: Bytes)
    ensures Payload(NewCanDo(Text(name))) == name
    ensures |ToString(NewCanDo(Text(name))).0| == 12 + |name|
    ensures RenderAsWritten(DataPart(NewCanDo(Text(name)).body)) == []
  {
  }

  /** ECHO_REQ carries the data verbatim, NUL bytes included. */
  lemma EchoReqPayload(data: Bytes)
    ensures Payload(NewEchoReq(Text(data))) == data
    ensures ToString(NewEchoReq(Text(data))).1.length == Int(|data|)
  {
  }

  /** GET_STATUS carries the handle set on it, and nothing before one is set. */
  lemma GetStatusPayload(handle: Bytes)
    ensures Payload(NewGetStatus()) == []
    ensures Payload(Set(NewGetStatus(), JobHandle, Text(handle))) == handle
  {
  }

  /** The task `Client::submitJob` builds: a SubmitJob with the three setters applied. */
  function SubmitTask(functionName: Value, workload: Value, typ: int, uniqueId: Value): (r: Result<Task, Fault>)
    ensures r.Ok? <==> Submittable(typ)
  {
    match NewSubmitJob(uniqueId, typ)
    case Err(e) => Err(e)
    case Ok(t) => Ok(Set(Set(Set(t, FunctionName, functionName), Workload, workload), UniqueId, uniqueId))
  }

  /** SUBMIT_JOB carries function name, unique id and workload in that order; a missing
      unique id leaves an empty middle field. The workload goes last and is not touched. */
  lemma SubmitJobPayload(name: Bytes, workload: Bytes, typ: int, uniqueId: Value)
    requires Submittable(typ)
    ensures SubmitTask(Text(name), Text(workload), typ, uniqueId).Ok?
    ensures Payload(SubmitTask(Text(name), Text(workload), typ, uniqueId).value)
            == name + [NUL] + Str(uniqueId) + [NUL] + workload
    ensures SubmitTask(Text(name), Text(workload), typ, uniqueId).value.typ == typ
  {
    SubmitTaskFields(Text(name), Text(workload), typ, uniqueId);
    SubmitJobData(name, uniqueId, workload, typ);
  }

  /** The setters fill the three fields of a constructed SubmitJob. */
  lemma SubmitTaskFields(functionName: Value, workload: Value, typ: int, uniqueId: Value)
    requires Submittable(typ)
    ensures SubmitTask(functionName, workload, typ, uniqueId)
            == Ok(Task(Request, typ, Null, SubmitJob(functionName, uniqueId, workload)))
  {
  }

  lemma SubmitJobData(name: Bytes, uniqueId: Value, workload: Bytes, typ: int)
    ensures Payload(Task(Request, typ, Null, SubmitJob(Text(name), uniqueId, Text(workload))))
            == name + [NUL] + Str(uniqueId) + [NUL] + workload
  {
    assert Strs([uniqueId, Text(workload)]) == [Str(uniqueId), workload];
    assert [name] + [Str(uniqueId), workload] == [name, Str(uniqueId), workload];
    assert Implode([Str(uniqueId), workload]) == Str(uniqueId) + [NUL] + workload;
  }

  /** Without a unique id the two separators meet: function name, two NULs, workload. */
  lemma SubmitJobNoUniqueId(name: Bytes, workload: Bytes, typ: int)
    requires Submittable(typ)
    ensures Payload(SubmitTask(Text(name), Text(workload), typ, Null).value) == name + [NUL, NUL] + workload
  {
    SubmitTaskFields(Text(name), Text(workload), typ, Null);
    SubmitJobData(name, Null, workload, typ);
    assert Str(Null) == [];
    assert name + [NUL] + [] + [NUL] + workload == name + [NUL, NUL] + workload;
  }

  /** WORK_STATUS carries the handle and the two numbers in decimal: for a NUL-free
      handle the payload splits into exactly those three fields. */
  lemma WorkStatusPayload(handle: Bytes, num: int, den: int)
    requires NulFree(handle)
    ensures Payload(NewWorkStatus(Text(handle), Int(num), Int(den)))
            == handle + [NUL] + Decimal(num) + [NUL] + Decimal(den)
    ensures Explode(Payload(NewWorkStatus(Text(handle), Int(num), Int(den)))) == [handle, Decimal(num), Decimal(den)]
    ensures NulCount(Payload(NewWorkStatus(Text(handle), Int(num), Int(den)))) == 2
  {
    var fields := [handle, Decimal(num), Decimal(den)];
    assert Strs([Int(num), Int(den)]) == [Decimal(num), Decimal(den)];
    assert [handle] + [Decimal(num), Decimal(den)] == fields;
    assert Implode(fields[1..]) == Decimal(num) + [NUL] + Decimal(den);
    DecimalNulFree(num);
    DecimalNulFree(den);
    assert AllNulFree(fields);
    ExplodeImplode(fields);
    ImplodeSeparators(fields);
  }

  /** WORK_COMPLETE carries the handle and the workload separated by a NUL; as written
      it carries nothing. */
  lemma WorkCompletePayload(handle: Bytes, workload: Bytes)
    ensures Payload(SetWorkload(NewWorkComplete(Text(handle)), Text(workload))) == handle + [NUL] + workload
    ensures RenderAsWritten(DataPart(SetWorkload(NewWorkComplete(Text(handle)), Text(workload)).body)) == []
  {
  }

  // ---------------------------------------------------------------------------
  // Response payloads.

  /** A class's own fields, in the order `setFromResponse` fills them. */
  function Fields(b: Body): seq<Value>
  {
    match b
    case EchoRes(w) => [w]
    case JobCreated(h) => [h]
    case Error(c, x) => [c, x]
    case JobAssign(h, f, w) => [h, f, w]
    case StatusRes(h, k, r, n, d) => [h, k, r, n, d]
    case WorkCompleteRes(h, w) => [h, w]
    case WorkStatusRes(h, n, d) => [h, n, d]
    case _ => []
  }

  function Texts(fields: seq<Bytes>): (r: seq<Value>)
    ensures |r| == |fields|
    ensures forall i :: 0 <= i < |fields| ==> r[i] == Text(fields[i])
  {
    if fields == [] then [] else [Text(fields[0])] + Texts(fields[1..])
  }

  /** Splitting joined fields with the class's limit hands `Fill` the fields themselves. */
  lemma SplitJoined(t: Task, fields: seq<Bytes>)
    requires Parses(t.body) && |fields| == Arity(t.body)
    requires AllNulFree(fields[..|fields| - 1])
    ensures SetFromResponse(t, Implode(fields)) == Ok(t.(body := Fill(t.body, Implode(fields), fields)))
  {
    ExplodeLimitImplode(fields);
  }

  /** Parsing fields joined on NUL gives each field back, in order, for every class that
      parses, as long as all but the last are NUL-free: the last one may hold anything. */
  lemma ParseJoined(t: Task, fields: seq<Bytes>)
    requires Parses(t.body) && |fields| == Arity(t.body)
    requires AllNulFree(fields[..|fields| - 1])
    ensures SetFromResponse(t, Implode(fields)).Ok?
    ensures Fields(SetFromResponse(t, Implode(fields)).value.body) == Texts(fields)
  {
    SplitJoined(t, fields);
    if Arity(t.body) == 1 {
      assert Implode(fields) == fields[0];
    }
    FieldsFill(t.body, Implode(fields), fields);
  }

  lemma FieldsFill(b: Body, packet: Bytes, fields: seq<Bytes>)
    requires Parses(b) && |fields| == Arity(b)
    requires Arity(b) == 1 ==> packet == fields[0]
    ensures Fields(Fill(b, packet, fields)) == Texts(fields)
  {
    var r := Fields(Fill(b, packet, fields));
    assert |r| == |fields|;
    forall i | 0 <= i < |fields|
      ensures r[i] == Text(fields[i])
    {
    }
  }

  lemma Implode2(a: Bytes, b: Bytes)
    ensures Implode([a, b]) == a + [NUL] + b
  {
    assert [a, b][1..] == [b];
  }

  lemma Implode3(a: Bytes, b: Bytes, c: Bytes)
    ensures Implode([a, b, c]) == a + [NUL] + b + [NUL] + c
  {
    assert [a, b, c][1..] == [b, c];
    Implode2(b, c);
  }

  /** JOB_ASSIGN gives handle, function name and workload in that order, the workload
      intact whatever bytes it holds. */
  lemma JobAssignParse(handle: Bytes, name: Bytes, workload: Bytes)
    requires NulFree(handle) && NulFree(name)
    ensures SetFromResponse(NewJobAssign(), handle + [NUL] + name + [NUL] + workload)
            == Ok(Task(Response, TYPE_JOB_ASSIGN, Null, JobAssign(Text(handle), Text(name), Text(workload))))
  {
    var fields := [handle, name, workload];
    Implode3(handle, name, workload);
    assert fields[..2] == [handle, name];
    SplitJoined(NewJobAssign(), fields);
  }

  /** As written, a NUL in the workload cuts it short: the bytes after it are lost. */
  lemma JobAssignParseAsWritten()
    ensures SetFromResponseAsWritten(NewJobAssign(), [104, NUL, 102, NUL, 1, NUL, 2])
            == Ok(Task(Response, TYPE_JOB_ASSIGN, Null, JobAssign(Text([104]), Text([102]), Text([1]))))
  {
    var s: Bytes := [104, NUL, 102, NUL, 1, NUL, 2];
    assert s == [104] + [NUL] + ([102] + [NUL] + ([1] + [NUL] + [2]));
    ExplodeNulFree([2]);
    ExplodeField([1], [2]);
    ExplodeField([102], [1] + [NUL] + [2]);
    ExplodeField([104], [102] + [NUL] + ([1] + [NUL] + [2]));
  }

  /** With fewer than two NULs the trailing JOB_ASSIGN fields stay null. */
  lemma JobAssignMissing(packet: Bytes)
    requires NulCount(packet) < 2
    ensures SetFromResponse(NewJobAssign(), packet).value.body.workload == Null
    ensures NulCount(packet) == 0 ==> SetFromResponse(NewJobAssign(), packet).value.body.functionName == Null
  {
    ExplodeLimitCount(packet, 3);
  }

  /** WORK_COMPLETE gives back handle and workload of a WorkComplete request. */
  lemma WorkCompleteRoundTrip(handle: Bytes, workload: Bytes)
    requires NulFree(handle)
    ensures SetFromResponse(NewWorkCompleteRes(), Payload(SetWorkload(NewWorkComplete(Text(handle)), Text(workload))))
            == Ok(Task(Response, TYPE_WORK_COMPLETE, Null, WorkCompleteRes(Text(handle), Text(workload))))
  {
    var fields := [handle, workload];
    Implode2(handle, workload);
    assert fields[..1] == [handle];
    SplitJoined(NewWorkCompleteRes(), fields);
  }

  /** As written, a NUL in the WORK_COMPLETE workload cuts it short. */
  lemma WorkCompleteParseAsWritten()
    ensures SetFromResponseAsWritten(NewWorkCompleteRes(), [104, NUL, 1, NUL, 2])
            == Ok(Task(Response, TYPE_WORK_COMPLETE, Null, WorkCompleteRes(Text([104]), Text([1]))))
  {
    var s: Bytes := [104, NUL, 1, NUL, 2];
    assert s == [104] + [NUL] + ([1] + [NUL] + [2]);
    ExplodeNulFree([2]);
    ExplodeField([1], [2]);
    ExplodeField([104], [1] + [NUL] + [2]);
  }

  /** WORK_STATUS gives back the handle and the two numbers of a WorkStatus request, as
      their decimal text (which `DigitsRoundTrip` reads back). */
  lemma WorkStatusRoundTrip(handle: Bytes, num: nat, den: nat)
    requires NulFree(handle)
    ensures SetFromResponse(NewWorkStatusRes(), Payload(NewWorkStatus(Text(handle), Int(num), Int(den))))
            == Ok(Task(Response, TYPE_WORK_STATUS, Null,
                       WorkStatusRes(Text(handle), Text(Digits(num)), Text(Digits(den)))))
  {
    var fields := [handle, Decimal(num), Decimal(den)];
    WorkStatusPayload(handle, num, den);
    Implode3(handle, Decimal(num), Decimal(den));
    DecimalNulFree(num);
    assert fields[..2] == [handle, Decimal(num)];
    SplitJoined(NewWorkStatusRes(), fields);
  }

  /** ERROR gives code and text; the text goes last and is kept whole. */
  lemma ErrorParse(code: Bytes, text: Bytes)
    requires NulFree(code)
    ensures SetFromResponse(NewError(), code + [NUL] + text)
            == Ok(Task(Response, TYPE_ERROR, Null, Error(Text(code), Text(text))))
  {
    var fields := [code, text];
    Implode2(code, text);
    assert fields[..1] == [code];
    SplitJoined(NewError(), fields);
  }

  /** As written, a NUL in the error text cuts it short. */
  lemma ErrorParseAsWritten()
    ensures SetFromResponseAsWritten(NewErrorAsWritten(), [69, NUL, 1, NUL, 2]).value.body
            == Error(Text([69]), Text([1]))
  {
    var s: Bytes := [69, NUL, 1, NUL, 2];
    assert s == [69] + [NUL] + ([1] + [NUL] + [2]);
    ExplodeNulFree([2]);
    ExplodeField([1], [2]);
    ExplodeField([69], [1] + [NUL] + [2]);
  }

  /** STATUS_RES gives handle, known, running, numerator and denominator, in that order,
      each as the text the server sent. */
  lemma StatusResParse(fields: seq<Bytes>)
    requires |fields| == 5 && AllNulFree(fields[..4])
    ensures SetFromResponse(NewStatusRes(), Implode(fields))
            == Ok(Task(Response, TYPE_STATUS_RES, Null,
                       StatusRes(Text(fields[0]), Text(fields[1]), Text(fields[2]), Text(fields[3]), Text(fields[4]))))
  {
    ParseJoined(NewStatusRes(), fields);
  }

  /** With fewer than four NULs the STATUS_RES denominator stays null. */
  lemma StatusResMissing(packet: Bytes)
    requires NulCount(packet) < 4
    ensures SetFromResponse(NewStatusRes(), packet).value.body.percentCompleteDenominator == Null
  {
    ExplodeLimitCount(packet, 5);
  }

  /** JOB_CREATED takes the whole payload as the handle, NUL bytes included. */
  lemma JobCreatedParse(packet: Bytes)
    ensures SetFromResponse(NewJobCreated(), packet)
            == Ok(Task(Response, TYPE_JOB_CREATED, Null, JobCreated(Text(packet))))
  {
  }

  /** ECHO_RES gives back exactly the data an ECHO_REQ sent. */
  lemma EchoRoundTrip(data: Bytes)
    ensures SetFromResponse(NewEchoRes(), Payload(NewEchoReq(Text(data))))
            == Ok(Task(Response, TYPE_ECHO_RES, Null, EchoRes(Text(data))))
  {
  }

  /** NOOP and NO_JOB define no parser: handing them a payload throws. */
  lemma NoParser(t: Task, packet: Bytes)
    requires t.body.Noop? || t.body.NoJob? || Dir(t.body) == Request
    ensures SetFromResponse(t, packet) == Err(MethodNotFound("setFromResponse"))
  {
  }
}

=== FILE: phearman.dfy ===
/** The library's constant table (Phearman.php): the magic codes and the
    Gearman packet types with their numeric codes. */
module Phearman {
  import opened Base
  import opened PhpString

  const CODE_REQUEST: string := "REQ"
  const CODE_RESPONSE: string := "RES"

  /** The two magic codes: a frame is a request (REQ) or a response (RES). */
  datatype Direction = Request | Response

  function DirectionCode(d: Direction): string
  {
    match d
    case Request => CODE_REQUEST
    case Response => CODE_RESPONSE
  }

  const TYPE_CAN_DO: int := 1
  const TYPE_CANT_DO: int := 2
  const TYPE_RESET_ABILITIES: int := 3
  const TYPE_PRE_SLEEP: int := 4
  const TYPE_NOOP: int := 6
  const TYPE_SUBMIT_JOB: int := 7
  const TYPE_JOB_CREATED: int := 8
  const TYPE_GRAB_JOB: int := 9
  const TYPE_NO_JOB: int := 10
  const TYPE_JOB_ASSIGN: int := 11
  const TYPE_WORK_STATUS: int := 12
  const TYPE_WORK_COMPLETE: int := 13
  const TYPE_WORK_FAIL: int := 14
  const TYPE_GET_STATUS: int := 15
  const TYPE_ECHO_REQ: int := 16
  const TYPE_ECHO_RES: int := 17
  const TYPE_SUBMIT_JOB_BG: int := 18
  const TYPE_ERROR: int := 19
  const TYPE_STATUS_RES: int := 20
  const TYPE_SUBMIT_JOB_HIGH: int := 21
  const TYPE_SET_CLIENT_ID: int := 22
  const TYPE_CAN_DO_TIMEOUT: int := 23
  const TYPE_ALL_YOURS: int := 24
  const TYPE_WORK_EXCEPTION: int := 25
  const TYPE_OPTION_REQ: int := 26
  const TYPE_OPTION_RES: int := 27
  const TYPE_WORK_DATA: int := 28
  const TYPE_WORK_WARNING: int := 29
  const TYPE_GRAB_JOB_UNIQ: int := 30
  const TYPE_JOB_ASSIGN_UNIQ: int := 31
  const TYPE_SUBMIT_JOB_HIGH_BG: int := 32
  const TYPE_SUBMIT_JOB_LOW: int := 33
  const TYPE_SUBMIT_JOB_LOW_BG: int := 34
  const TYPE_SUBMIT_JOB_SCHED: int := 35
  const TYPE_SUBMIT_JOB_EPOCH: int := 36

  /** The packet types, one per `TYPE_` constant, named by the constant without its prefix. */
  datatype PacketType =
    | CAN_DO
    | CANT_DO
    | RESET_ABILITIES
    | PRE_SLEEP
    | NOOP
    | SUBMIT_JOB
    | JOB_CREATED
    | GRAB_JOB
    | NO_JOB
    | JOB_ASSIGN
    | WORK_STATUS
    | WORK_COMPLETE
    | WORK_FAIL
    | GET_STATUS
    | ECHO_REQ
    | ECHO_RES
    | SUBMIT_JOB_BG
    | ERROR
    | STATUS_RES
    | SUBMIT_JOB_HIGH
    | SET_CLIENT_ID
    | CAN_DO_TIMEOUT
    | ALL_YOURS
    | WORK_EXCEPTION
    | OPTION_REQ
    | OPTION_RES
    | WORK_DATA
    | WORK_WARNING
    | GRAB_JOB_UNIQ
    | JOB_ASSIGN_UNIQ
    | SUBMIT_JOB_HIGH_BG
    | SUBMIT_JOB_LOW
    | SUBMIT_JOB_LOW_BG
    | SUBMIT_JOB_SCHED
    | SUBMIT_JOB_EPOCH

  /** The value of the packet type's constant. */
  function Code(p: PacketType): int
  {
    match p
    case CAN_DO => TYPE_CAN_DO
    case CANT_DO => TYPE_CANT_DO
    case RESET_ABILITIES => TYPE_RESET_ABILITIES
    case PRE_SLEEP => TYPE_PRE_SLEEP
    case NOOP => TYPE_NOOP
    case SUBMIT_JOB => TYPE_SUBMIT_JOB
    case JOB_CREATED => TYPE_JOB_CREATED
    case GRAB_JOB => TYPE_GRAB_JOB
    case NO_JOB => TYPE_NO_JOB
    case JOB_ASSIGN => TYPE_JOB_ASSIGN
    case WORK_STATUS => TYPE_WORK_STATUS
    case WORK_COMPLETE => TYPE_WORK_COMPLETE
    case WORK_FAIL => TYPE_WORK_FAIL
    case GET_STATUS => TYPE_GET_STATUS
    case ECHO_REQ => TYPE_ECHO_REQ
    case ECHO_RES => TYPE_ECHO_RES
    case SUBMIT_JOB_BG => TYPE_SUBMIT_JOB_BG
    case ERROR => TYPE_ERROR
    case STATUS_RES => TYPE_STATUS_RES
    case SUBMIT_JOB_HIGH => TYPE_SUBMIT_JOB_HIGH
    case SET_CLIENT_ID => TYPE_SET_CLIENT_ID
    case CAN_DO_TIMEOUT => TYPE_CAN_DO_TIMEOUT
    case ALL_YOURS => TYPE_ALL_YOURS
    case WORK_EXCEPTION => TYPE_WORK_EXCEPTION
    case OPTION_REQ => TYPE_OPTION_REQ
    case OPTION_RES => TYPE_OPTION_RES
    case WORK_DATA => TYPE_WORK_DATA
    case WORK_WARNING => TYPE_WORK_WARNING
    case GRAB_JOB_UNIQ => TYPE_GRAB_JOB_UNIQ
    case JOB_ASSIGN_UNIQ => TYPE_JOB_ASSIGN_UNIQ
    case SUBMIT_JOB_HIGH_BG => TYPE_SUBMIT_JOB_HIGH_BG
    case SUBMIT_JOB_LOW => TYPE_SUBMIT_JOB_LOW
    case SUBMIT_JOB_LOW_BG => TYPE_SUBMIT_JOB_LOW_BG
    case SUBMIT_JOB_SCHED => TYPE_SUBMIT_JOB_SCHED
    case SUBMIT_JOB_EPOCH => TYPE_SUBMIT_JOB_EPOCH
  }

  /** The words of the constant's name after `TYPE_`. */
  function Words(p: PacketType): (ws: seq<ConstWord>)
    ensures |ws| > 0
  {
    match p
    case CAN_DO => ["CAN", "DO"]
    case CANT_DO => ["CANT", "DO"]
    case RESET_ABILITIES => ["RESET", "ABILITIES"]
    case PRE_SLEEP => ["PRE", "SLEEP"]
    case NOOP => ["NOOP"]
    case SUBMIT_JOB => ["SUBMIT", "JOB"]
    case JOB_CREATED => ["JOB", "CREATED"]
    case GRAB_JOB => ["GRAB", "JOB"]
    case NO_JOB => ["NO", "JOB"]
    case JOB_ASSIGN => ["JOB", "ASSIGN"]
    case WORK_STATUS => ["WORK", "STATUS"]
    case WORK_COMPLETE => ["WORK", "COMPLETE"]
    case WORK_FAIL => ["WORK", "FAIL"]
    case GET_STATUS => ["GET", "STATUS"]
    case ECHO_REQ => ["ECHO", "REQ"]
    case ECHO_RES => ["ECHO", "RES"]
    case SUBMIT_JOB_BG => ["SUBMIT", "JOB", "BG"]
    case ERROR => ["ERROR"]
    case STATUS_RES => ["STATUS", "RES"]
    case SUBMIT_JOB_HIGH => ["SUBMIT", "JOB", "HIGH"]
    case SET_CLIENT_ID => ["SET", "CLIENT", "ID"]
    case CAN_DO_TIMEOUT => ["CAN", "DO", "TIMEOUT"]
    case ALL_YOURS => ["ALL", "YOURS"]
    case WORK_EXCEPTION => ["WORK", "EXCEPTION"]
    case OPTION_REQ => ["OPTION", "REQ"]
    case OPTION_RES => ["OPTION", "RES"]
    case WORK_DATA => ["WORK", "DATA"]
    case WORK_WARNING => ["WORK", "WARNING"]
    case GRAB_JOB_UNIQ => ["GRAB", "JOB", "UNIQ"]
    case JOB_ASSIGN_UNIQ => ["JOB", "ASSIGN", "UNIQ"]
    case SUBMIT_JOB_HIGH_BG => ["SUBMIT", "JOB", "HIGH", "BG"]
    case SUBMIT_JOB_LOW => ["SUBMIT", "JOB", "LOW"]
    case SUBMIT_JOB_LOW_BG => ["SUBMIT", "JOB", "LOW", "BG"]
    case SUBMIT_JOB_SCHED => ["SUBMIT", "JOB", "SCHED"]
    case SUBMIT_JOB_EPOCH => ["SUBMIT", "JOB", "EPOCH"]
  }

  /** The constant's full name, as reflection reports it: `TYPE_JOB_ASSIGN`. */
  function ConstName(p: PacketType): string
  {
    "TYPE_" + Joined(Words(p), '_')
  }

  /** The packet type whose constant has the given value, if any. */
  function TypeOf(code: int): Option<PacketType>
  {
    match code
    case 1 => Some(CAN_DO)
    case 2 => Some(CANT_DO)
    case 3 => Some(RESET_ABILITIES)
    case 4 => Some(PRE_SLEEP)
    case 6 => Some(NOOP)
    case 7 => Some(SUBMIT_JOB)
    case 8 => Some(JOB_CREATED)
    case 9 => Some(GRAB_JOB)
    case 10 => Some(NO_JOB)
    case 11 => Some(JOB_ASSIGN)
    case 12 => Some(WORK_STATUS)
    case 13 => Some(WORK_COMPLETE)
    case 14 => Some(WORK_FAIL)
    case 15 => Some(GET_STATUS)
    case 16 => Some(ECHO_REQ)
    case 17 => Some(ECHO_RES)
    case 18 => Some(SUBMIT_JOB_BG)
    case 19 => Some(ERROR)
    case 20 => Some(STATUS_RES)
    case 21 => Some(SUBMIT_JOB_HIGH)
    case 22 => Some(SET_CLIENT_ID)
    case 23 => Some(CAN_DO_TIMEOUT)
    case 24 => Some(ALL_YOURS)
    case 25 => Some(WORK_EXCEPTION)
    case 26 => Some(OPTION_REQ)
    case 27 => Some(OPTION_RES)
    case 28 => Some(WORK_DATA)
    case 29 => Some(WORK_WARNING)
    case 30 => Some(GRAB_JOB_UNIQ)
    case 31 => Some(JOB_ASSIGN_UNIQ)
    case 32 => Some(SUBMIT_JOB_HIGH_BG)
    case 33 => Some(SUBMIT_JOB_LOW)
    case 34 => Some(SUBMIT_JOB_LOW_BG)
    case 35 => Some(SUBMIT_JOB_SCHED)
    case 36 => Some(SUBMIT_JOB_EPOCH)
    case _ => None
  }


  /** No two constants share a value, so the factory's reverse lookup is deterministic. */
  lemma CodesDistinct(p: PacketType, q: PacketType)
    ensures Code(p) == Code(q) ==> p == q
  {
    TypeOfCode(p);
    TypeOfCode(q);
  }

  /** Looking a type's own code up finds that type, and a lookup only finds a type with that code. */
  lemma LookupInverse(p: PacketType, code: int)
    ensures TypeOf(Code(p)) == Some(p)
    ensures TypeOf(code) == Some(p) ==> Code(p) == code
  {
    TypeOfCode(p);
    CodeOfTypeOf(code);
  }

  lemma TypeOfCode(p: PacketType)
    ensures TypeOf(Code(p)) == Some(p)
  {
  }

  lemma CodeOfTypeOf(code: int)
    ensures TypeOf(code).Some? ==> Code(TypeOf(code).value) == code
  {
  }

  /** The codes are 1 to 36; 5 is the one value in that range without a constant. */
  lemma CodeRange(code: int)
    ensures TypeOf(code).Some? <==> 1 <= code <= 36 && code != 5
  {
  }

  /** The SUBMIT_JOB family, recognised by name. */
  predicate IsSubmitJob(p: PacketType)
  {
    |Words(p)| >= 2 && Words(p)[0] == "SUBMIT" && Words(p)[1] == "JOB"
  }

  /** The SUBMIT_JOB family has exactly the codes 7, 18, 21, 32, 33, 34, 35 and 36. */
  lemma SubmitFamily(p: PacketType)
    ensures IsSubmitJob(p) <==> Code(p) in {7, 18, 21, 32, 33, 34, 35, 36}
  {
  }

  /** No two constants have the same name. */
  lemma WordsInjective(p: PacketType, q: PacketType)
    ensures Words(p) == Words(q) <==> p == q
  {
  }

  /** `CODE_REQUEST` is not the name of a packet type. */
  lemma CodeRequestIsNoType(p: PacketType)
    ensures Words(p) != ["CODE", "REQUEST"]
  {
  }

  /** The codes the worker loop exchanges. */
  lemma WorkerLoopCodes()
    ensures Code(PRE_SLEEP) == 4 && Code(NOOP) == 6 && Code(GRAB_JOB) == 9
    ensures Code(NO_JOB) == 10 && Code(JOB_ASSIGN) == 11
  {
  }
}

=== FILE: php_string.dfy ===
/** The PHP string functions the task factory uses to turn a constant's name into
    a class name (`str_replace`, `strtolower`, `strtoupper`, `ucwords`), in the C
    locale, and the proof that on a constant name they amount to CamelCasing. */
module PhpString {

  function Lower(c: char): char
  {
    if 'A' <= c <= 'Z' then (c as int + 32) as char else c
  }

  function Upper(c: char): char
  {
    if 'a' <= c <= 'z' then (c as int - 32) as char else c
  }

  /** The characters `ucwords` treats as word separators by default. */
  predicate IsSpace(c: char)
  {
    c == ' ' || c == '\t' || c == '\r' || c == '\n' || c as int == 12 || c as int == 11
  }

  predicate StartsWith(s: string, p: string)
  {
    |s| >= |p| && s[..|p|] == p
  }

  /** `str_replace(search, rep, s)`: left to right, non-overlapping. */
  function StrReplace(s: string, search: string, rep: string): string
    requires search != []
    decreases |s|
  {
    if |s| < |search| then s
    else if s[..|search|] == search then rep + StrReplace(s[|search|..], search, rep)
    else [s[0]] + StrReplace(s[1..], search, rep)
  }

  function ToLower(s: string): (r: string)
    ensures |r| == |s|
  {
    if s == [] then [] else [Lower(s[0])] + ToLower(s[1..])
  }

  function ToUpper(s: string): (r: string)
    ensures |r| == |s|
  {
    if s == [] then [] else [Upper(s[0])] + ToUpper(s[1..])
  }

  /** `ucfirst`: upper-case the first character. */
  function UcFirst(s: string): (r: string)
    ensures |r| == |s|
  {
    if s == [] then [] else [Upper(s[0])] + s[1..]
  }

  /** `lcfirst`: lower-case the first character. */
  function LcFirst(s: string): (r: string)
    ensures |r| == |s|
  {
    if s == [] then [] else [Lower(s[0])] + s[1..]
  }

  /** `lcfirst` undoes `ucfirst` on a name that starts with a lower-case letter. */
  lemma LcFirstUcFirst(s: string)
    requires s != [] && 'a' <= s[0] <= 'z'
    ensures LcFirst(UcFirst(s)) == s
  {
    assert LcFirst(UcFirst(s)) == [s[0]] + s[1..];
  }

  /** Upper-casing twice is upper-casing once. */
  lemma {:induction false} ToUpperIdempotent(s: string)
    ensures ToUpper(ToUpper(s)) == ToUpper(s)
    decreases |s|
  {
    if s != [] {
      ToUpperIdempotent(s[1..]);
      assert ToUpper(s)[1..] == ToUpper(s[1..]);
    }
  }

  /** `ucwords`: upper-case every character that starts the string or follows a separator. */
  function UcWords(s: string, wordStart: bool): (r: string)
    ensures |r| == |s|
  {
    if s == [] then [] else [if wordStart then Upper(s[0]) else s[0]] + UcWords(s[1..], IsSpace(s[0]))
  }

  /** Words joined with one separator between consecutive words. */
  function Joined(ws: seq<string>, sep: char): string
  {
    if ws == [] then [] else if |ws| == 1 then ws[0] else ws[0] + [sep] + Joined(ws[1..], sep)
  }

  /** A letter of a constant's name. */
  type Letter = c: char | 'A' <= c <= 'Z' witness 'A'

  /** A word of a `TYPE_` constant's name: upper-case letters, not ending in `TYPE`
      (such a word would let `TYPE_` occur inside the name; no constant has one). */
  type ConstWord = w: seq<Letter> | |w| > 0 && !EndsWithType(w) witness "A"

  predicate EndsWithType(w: string)
  {
    |w| >= 4 && w[|w| - 4] == 'T' && w[|w| - 3] == 'Y' && w[|w| - 2] == 'P' && w[|w| - 1] == 'E'
  }

  /** The class name the factory derives from a constant name (Task.php, `factory`). */
  function ClassName(constName: string): string
  {
    StrReplace(UcWords(ToLower(StrReplace(StrReplace(constName, "TYPE_", ""), "_", " ")), true), " ", "")
  }

  /** The intended result: each word keeps its first letter and lower-cases the rest,
      and the words are run together (`JOB_ASSIGN` gives `JobAssign`). */
  function CamelCase(ws: seq<string>): (r: string)
    ensures |r| == Length(ws)
  {
    if ws == [] then [] else (if ws[0] == [] then [] else [ws[0][0]] + ToLower(ws[0][1..])) + CamelCase(ws[1..])
  }

  function Length(ws: seq<string>): nat
  {
    if ws == [] then 0 else |ws[0]| + Length(ws[1..])
  }

  /** The factory's rewriting CamelCases every constant name, with or without the
      `TYPE_` prefix. */
  lemma ClassNameOfConstant(ws: seq<ConstWord>)
    requires |ws| > 0
    ensures ClassName("TYPE_" + Joined(ws, '_')) == CamelCase(ws)
    ensures ClassName(Joined(ws, '_')) == CamelCase(ws)
  {
    var j := Joined(ws, '_');
    ReplacePrefix(j, "TYPE_", "");
    DropType(ws);
    assert StrReplace("TYPE_" + j, "TYPE_", "") == j;
    Underscores(ws);
    LowerJoined(ws, ' ');
    var lws := LowerAll(ws);
    assert ToLower(StrReplace(j, "_", " ")) == Joined(lws, ' ');
    LowerAllWords(ws);
    CapitalizeJoined(lws);
    var cws := CapitalizeAll(lws);
    CapitalizeAllWords(lws);
    RemoveSpaces(cws);
    CamelOfConstWords(ws);
  }

  // ---------------------------------------------------------------------------
  // str_replace over text that does not contain the search string.

  lemma {:induction false} ReplacePrefix(r: string, search: string, rep: string)
    requires search != []
    ensures StrReplace(search + r, search, rep) == rep + StrReplace(r, search, rep)
  {
    assert (search + r)[..|search|] == search;
    assert (search + r)[|search|..] == r;
  }

  lemma ReplaceStep(s: string, search: string, rep: string)
    requires search != [] && |s| >= |search| && !StartsWith(s, search)
    ensures StrReplace(s, search, rep) == [s[0]] + StrReplace(s[1..], search, rep)
  {
  }

  /** One character at which no occurrence starts is copied unchanged. */
  lemma ReplaceOne(u: string, tail: string, search: string, rep: string, r: string)
    requires search != [] && u != [] && |u + tail| >= |search|
    requires !StartsWith(u + tail, search)
    requires StrReplace(u[1..] + tail, search, rep) == u[1..] + r
    ensures StrReplace(u + tail, search, rep) == u + r
  {
    var s := u + tail;
    ReplaceStep(s, search, rep);
    assert s[1..] == u[1..] + tail;
    assert [u[0]] + (u[1..] + r) == u + r;
  }

  /** Characters at which no occurrence starts are copied unchanged. */
  lemma {:induction false} ReplaceSkip(u: string, tail: string, search: string, rep: string)
    requires search != []
    requires forall j :: 0 <= j < |u| ==> !StartsWith((u + tail)[j..], search)
    requires |tail| < |search| ==> StrReplace(tail, search, rep) == tail
    ensures StrReplace(u + tail, search, rep) == u + StrReplace(tail, search, rep)
    decreases |u|
  {
    if u == [] {
      assert u + tail == tail;
    } else if |u + tail| < |search| {
      assert StrReplace(u + tail, search, rep) == u + tail;
    } else {
      assert (u + tail)[0..] == u + tail;
      SkipRest(u, tail, search);
      ReplaceSkip(u[1..], tail, search, rep);
      ReplaceOne(u, tail, search, rep, StrReplace(tail, search, rep));
    }
  }

  lemma SkipRest(u: string, tail: string, search: string)
    requires u != []
    requires forall j :: 0 <= j < |u| ==> !StartsWith((u + tail)[j..], search)
    ensures forall j :: 0 <= j < |u[1..]| ==> !StartsWith((u[1..] + tail)[j..], search)
  {
    forall j | 0 <= j < |u[1..]|
      ensures !StartsWith((u[1..] + tail)[j..], search)
    {
      assert (u[1..] + tail)[j..] == (u + tail)[j + 1..];
    }
  }

  /** A string none of whose characters is `c` contains no occurrence of `[c] + _`. */
  lemma NoCharNoMatch(u: string, tail: string, c: char, search: string)
    requires |search| > 0 && search[0] == c
    requires forall i :: 0 <= i < |u| ==> u[i] != c
    ensures forall j :: 0 <= j < |u| ==> !StartsWith((u + tail)[j..], search)
  {
    forall j | 0 <= j < |u|
      ensures !StartsWith((u + tail)[j..], search)
    {
      assert (u + tail)[j..][0] == u[j];
    }
  }

  // ---------------------------------------------------------------------------
  // Stage 1: removing "TYPE_" from the joined words changes nothing.

  lemma NoTypeInWord(w: string, tail: string)
    requires forall i :: 0 <= i < |w| ==> 'A' <= w[i] <= 'Z'
    requires !EndsWithType(w)
    requires tail == [] || tail[0] == '_'
    ensures forall j :: 0 <= j < |w| ==> !StartsWith((w + tail)[j..], "TYPE_")
  {
    forall j | 0 <= j < |w|
      ensures !StartsWith((w + tail)[j..], "TYPE_")
    {
      var x := (w + tail)[j..];
      if |x| >= 5 {
        if |w| - j >= 5 {
          assert x[..5][4] == w[j + 4] != "TYPE_"[4];
        } else if |w| - j == 4 {
          assert x[..5][0] == w[|w| - 4] && x[..5][1] == w[|w| - 3];
          assert x[..5][2] == w[|w| - 2] && x[..5][3] == w[|w| - 1];
        } else {
          var k := |w| - j;
          assert x[..5][k] == '_' != "TYPE_"[k];
        }
      }
    }
  }

  lemma {:induction false} DropType(ws: seq<ConstWord>)
    requires |ws| > 0
    ensures StrReplace(Joined(ws, '_'), "TYPE_", "") == Joined(ws, '_')
    decreases |ws|
  {
    var w := ws[0];
    if |ws| == 1 {
      NoTypeInWord(w, []);
      assert w + [] == w;
      ReplaceSkip(w, [], "TYPE_", "");
    } else {
      var rest := Joined(ws[1..], '_');
      var tail := ['_'] + rest;
      NoTypeInWord(w, tail);
      DropType(ws[1..]);
      NoCharNoMatch(['_'], rest, 'T', "TYPE_");
      ReplaceSkip(['_'], rest, "TYPE_", "");
      ReplaceSkip(w, tail, "TYPE_", "");
      assert Joined(ws, '_') == w + tail;
    }
  }

  // ---------------------------------------------------------------------------
  // Stage 2: underscores become spaces.

  lemma {:induction false} Underscores(ws: seq<ConstWord>)
    requires |ws| > 0
    ensures StrReplace(Joined(ws, '_'), "_", " ") == Joined(ws, ' ')
    decreases |ws|
  {
    var w := ws[0];
    if |ws| == 1 {
      NoCharNoMatch(w, [], '_', "_");
      assert w + [] == w;
      ReplaceSkip(w, [], "_", " ");
    } else {
      var rest := Joined(ws[1..], '_');
      var tail := ['_'] + rest;
      NoCharNoMatch(w, tail, '_', "_");
      ReplaceSkip(w, tail, "_", " ");
      ReplacePrefix(rest, "_", " ");
      Underscores(ws[1..]);
      assert Joined(ws, '_') == w + tail;
    }
  }

  // ---------------------------------------------------------------------------
  // Stage 3: lower-casing distributes over the words.

  function LowerAll(ws: seq<string>): (r: seq<string>)
    ensures |r| == |ws|
    ensures forall i :: 0 <= i < |ws| ==> r[i] == ToLower(ws[i])
  {
    if ws == [] then [] else [ToLower(ws[0])] + LowerAll(ws[1..])
  }

  lemma {:induction false} ToLowerAppend(a: string, b: string)
    ensures ToLower(a + b) == ToLower(a) + ToLower(b)
    decreases |a|
  {
    if a != [] {
      assert (a + b)[1..] == a[1..] + b;
      ToLowerAppend(a[1..], b);
    } else {
      assert a + b == b;
    }
  }

  lemma {:induction false} LowerJoined(ws: seq<string>, sep: char)
    requires !('A' <= sep <= 'Z')
    ensures ToLower(Joined(ws, sep)) == Joined(LowerAll(ws), sep)
    decreases |ws|
  {
    if |ws| > 1 {
      var rest := Joined(ws[1..], sep);
      ToLowerAppend(ws[0] + [sep], rest);
      ToLowerAppend(ws[0], [sep]);
      LowerJoined(ws[1..], sep);
      assert LowerAll(ws)[1..] == LowerAll(ws[1..]);
    }
  }

  /** Words that are non-empty and contain no separator of any kind. */
  predicate PlainWords(ws: seq<string>)
  {
    forall i :: 0 <= i < |ws| ==> |ws[i]| > 0 && forall k :: 0 <= k < |ws[i]| ==> !IsSpace(ws[i][k])
  }

  lemma PlainWordsTail(ws: seq<string>)
    requires ws != [] && PlainWords(ws)
    ensures PlainWords(ws[1..])
  {
    assert forall i :: 0 <= i < |ws[1..]| ==> ws[1..][i] == ws[i + 1];
  }

  lemma LowerAllWords(ws: seq<ConstWord>)
    ensures PlainWords(LowerAll(ws))
  {
    forall i | 0 <= i < |ws|
      ensures |LowerAll(ws)[i]| > 0 && forall k :: 0 <= k < |LowerAll(ws)[i]| ==> !IsSpace(LowerAll(ws)[i][k])
    {
      LowerLetters(ws[i]);
    }
  }

  lemma {:induction false} LowerLetters(w: string)
    requires forall k :: 0 <= k < |w| ==> 'A' <= w[k] <= 'Z'
    ensures forall k :: 0 <= k < |w| ==> ToLower(w)[k] == Lower(w[k]) && 'a' <= ToLower(w)[k] <= 'z'
    decreases |w|
  {
    if w != [] {
      LowerLetters(w[1..]);
    }
  }

  // ---------------------------------------------------------------------------
  // Stage 4: ucwords capitalises each word.

  function Capitalize(w: string): string
  {
    if w == [] then [] else [Upper(w[0])] + w[1..]
  }

  function CapitalizeAll(ws: seq<string>): (r: seq<string>)
    ensures |r| == |ws|
    ensures forall i :: 0 <= i < |ws| ==> r[i] == Capitalize(ws[i])
  {
    if ws == [] then [] else [Capitalize(ws[0])] + CapitalizeAll(ws[1..])
  }

  /** The character `ucwords` puts at position i. */
  function UcAt(s: string, f: bool, i: nat): char
    requires i < |s|
  {
    if (if i == 0 then f else IsSpace(s[i - 1])) then Upper(s[i]) else s[i]
  }

  lemma {:induction false} UcWordsAt(s: string, f: bool)
    ensures forall i :: 0 <= i < |s| ==> UcWords(s, f)[i] == UcAt(s, f, i)
    decreases |s|
  {
    if s != [] {
      UcWordsAt(s[1..], IsSpace(s[0]));
      forall i | 1 <= i < |s|
        ensures UcWords(s, f)[i] == UcAt(s, f, i)
      {
        assert UcWords(s, f)[i] == UcWords(s[1..], IsSpace(s[0]))[i - 1];
        assert UcAt(s[1..], IsSpace(s[0]), i - 1) == UcAt(s, f, i);
      }
    }
  }

  lemma UcWordsAppend(a: string, b: string, f: bool)
    ensures UcWords(a + b, f) == UcWords(a, f) + UcWords(b, if a == [] then f else IsSpace(a[|a| - 1]))
  {
    var g := if a == [] then f else IsSpace(a[|a| - 1]);
    UcWordsAt(a + b, f);
    UcWordsAt(a, f);
    UcWordsAt(b, g);
    forall i | 0 <= i < |a + b|
      ensures UcWords(a + b, f)[i] == (UcWords(a, f) + UcWords(b, g))[i]
    {
      if i < |a| {
        assert UcAt(a + b, f, i) == UcAt(a, f, i);
      } else {
        assert UcAt(a + b, f, i) == UcAt(b, g, i - |a|);
      }
    }
  }

  lemma {:induction false} UcWordsInside(w: string)
    requires forall k :: 0 <= k < |w| ==> !IsSpace(w[k])
    ensures UcWords(w, false) == w
    decreases |w|
  {
    if w != [] {
      UcWordsInside(w[1..]);
    }
  }

  lemma {:induction false} CapitalizeJoined(ws: seq<string>)
    requires PlainWords(ws)
    ensures UcWords(Joined(ws, ' '), true) == Joined(CapitalizeAll(ws), ' ')
    decreases |ws|
  {
    if ws != [] {
      var w := ws[0];
      UcWordsInside(w[1..]);
      assert UcWords(w, true) == Capitalize(w);
      if |ws| > 1 {
        var rest := Joined(ws[1..], ' ');
        UcWordsAppend(w + [' '], rest, true);
        UcWordsAppend(w, [' '], true);
        PlainWordsTail(ws);
        CapitalizeJoined(ws[1..]);
        assert CapitalizeAll(ws)[1..] == CapitalizeAll(ws[1..]);
      }
    }
  }

  lemma CapitalizeAllWords(ws: seq<string>)
    requires PlainWords(ws)
    ensures PlainWords(CapitalizeAll(ws))
  {
    forall i, k | 0 <= i < |ws| && 0 <= k < |CapitalizeAll(ws)[i]|
      ensures !IsSpace(CapitalizeAll(ws)[i][k])
    {
      if k > 0 {
        assert CapitalizeAll(ws)[i][k] == ws[i][k];
      }
    }
  }

  // ---------------------------------------------------------------------------
  // Stage 5: removing the spaces runs the words together.

  function Concat(ws: seq<string>): string
  {
    if ws == [] then [] else ws[0] + Concat(ws[1..])
  }

  /** Removing the spaces from a spaceless word followed by a space and more text. */
  lemma RemoveOneSpace(w: string, rest: string)
    requires forall k :: 0 <= k < |w| ==> !IsSpace(w[k])
    ensures StrReplace(w + [' '] + rest, " ", "") == w + StrReplace(rest, " ", "")
  {
    var tail := [' '] + rest;
    assert w + [' '] + rest == w + tail;
    NoCharNoMatch(w, tail, ' ', " ");
    ReplaceSkip(w, tail, " ", "");
    ReplacePrefix(rest, " ", "");
  }

  /** A spaceless word has no space to remove. */
  lemma RemoveNoSpace(w: string)
    requires forall k :: 0 <= k < |w| ==> !IsSpace(w[k])
    ensures StrReplace(w, " ", "") == w
  {
    NoCharNoMatch(w, [], ' ', " ");
    assert w + [] == w;
    ReplaceSkip(w, [], " ", "");
  }

  lemma {:induction false} RemoveSpaces(ws: seq<string>)
    requires |ws| > 0 && PlainWords(ws)
    ensures StrReplace(Joined(ws, ' '), " ", "") == Concat(ws)
    decreases |ws|
  {
    var w := ws[0];
    assert forall k :: 0 <= k < |w| ==> !IsSpace(w[k]);
    if |ws| == 1 {
      RemoveNoSpace(w);
    } else {
      var rest := Joined(ws[1..], ' ');
      assert Joined(ws, ' ') == w + [' '] + rest;
      RemoveOneSpace(w, rest);
      PlainWordsTail(ws);
      RemoveSpaces(ws[1..]);
    }
  }

  lemma {:induction false} CamelOfConstWords(ws: seq<ConstWord>)
    ensures Concat(CapitalizeAll(LowerAll(ws))) == CamelCase(ws)
    decreases |ws|
  {
    if ws != [] {
      var w := ws[0];
      LowerLetters(w);
      assert ToLower(w) == [Lower(w[0])] + ToLower(w[1..]);
      assert CapitalizeAll(LowerAll(ws))[1..] == CapitalizeAll(LowerAll(ws[1..]));
      CamelOfConstWords(ws[1..]);
    }
  }

  // ---------------------------------------------------------------------------
  // Different constants give different class names: CamelCasing words of
  // capital letters loses nothing, since each word starts at a capital.

  /** The number of lower-case letters a string starts with. */
  function LowerRun(s: string): (r: nat)
    ensures r <= |s|
  {
    if s == [] || !('a' <= s[0] <= 'z') then 0 else 1 + LowerRun(s[1..])
  }

  lemma {:induction false} LowerRunAppend(l: string, rest: string)
    requires forall k :: 0 <= k < |l| ==> 'a' <= l[k] <= 'z'
    requires rest == [] || 'A' <= rest[0] <= 'Z'
    ensures LowerRun(l + rest) == |l|
    decreases |l|
  {
    if l == [] {
      assert l + rest == rest;
    } else {
      assert (l + rest)[1..] == l[1..] + rest;
      LowerRunAppend(l[1..], rest);
    }
  }

  /** A CamelCased name of constant words is empty or starts with a capital. */
  lemma CamelStart(ws: seq<ConstWord>)
    ensures CamelCase(ws) == [] || 'A' <= CamelCase(ws)[0] <= 'Z'
  {
  }

  /** The first word of a CamelCased name runs up to the next capital. */
  lemma CamelSplit(ws: seq<ConstWord>)
    requires ws != []
    ensures LowerRun(CamelCase(ws)[1..]) == |ws[0]| - 1
    ensures CamelCase(ws)[..|ws[0]|] == [ws[0][0]] + ToLower(ws[0][1..])
  {
    var w: string := ws[0];
    var t := CamelCase(ws[1..]);
    assert CamelCase(ws) == [w[0]] + ToLower(w[1..]) + t;
    assert forall k :: 0 <= k < |w| - 1 ==> 'a' <= ToLower(w[1..])[k] <= 'z' by {
      LowerLetters(w[1..]);
    }
    assert t == [] || 'A' <= t[0] <= 'Z' by {
      CamelStart(ws[1..]);
    }
    WordBoundary(w[0], ToLower(w[1..]), t);
  }

  lemma WordBoundary(c: char, l: string, t: string)
    requires forall k :: 0 <= k < |l| ==> 'a' <= l[k] <= 'z'
    requires t == [] || 'A' <= t[0] <= 'Z'
    ensures LowerRun(([c] + l + t)[1..]) == |l|
    ensures ([c] + l + t)[..|l| + 1] == [c] + l
  {
    assert ([c] + l + t)[1..] == l + t;
    LowerRunAppend(l, t);
  }

  /** Lower-casing loses nothing on capital letters. */
  lemma ToLowerInjective(x: string, y: string)
    requires forall k :: 0 <= k < |x| ==> 'A' <= x[k] <= 'Z'
    requires forall k :: 0 <= k < |y| ==> 'A' <= y[k] <= 'Z'
    requires ToLower(x) == ToLower(y)
    ensures x == y
  {
    LowerLetters(x);
    LowerLetters(y);
    forall k | 0 <= k < |x|
      ensures x[k] == y[k]
    {
      assert Lower(x[k]) == Lower(y[k]);
    }
  }

  /** Equal CamelCased names start with the same word. */
  lemma {:induction false} FirstWordEqual(a: seq<ConstWord>, b: seq<ConstWord>)
    requires a != [] && b != [] && CamelCase(a) == CamelCase(b)
    ensures a[0] == b[0]
    ensures CamelCase(a[1..]) == CamelCase(b[1..])
  {
    var s := CamelCase(a);
    var wa: string, wb: string := a[0], b[0];
    CamelSplit(a);
    CamelSplit(b);
    assert |wa| == |wb|;
    assert s[|wa|..] == CamelCase(a[1..]) == CamelCase(b[1..]);
    var x := [wa[0]] + ToLower(wa[1..]);
    var y := [wb[0]] + ToLower(wb[1..]);
    assert x == s[..|wa|] == y;
    assert x[0] == wa[0] && y[0] == wb[0];
    assert x[1..] == ToLower(wa[1..]) && y[1..] == ToLower(wb[1..]);
    ToLowerInjective(wa[1..], wb[1..]);
    assert wa == [wa[0]] + wa[1..] && wb == [wb[0]] + wb[1..];
  }

  lemma {:induction false} CamelCaseInjectiveStep(a: seq<ConstWord>, b: seq<ConstWord>)
    requires CamelCase(a) == CamelCase(b)
    ensures a == b
    decreases |a|
  {
    if a != [] {
      assert b != [];
      FirstWordEqual(a, b);
      CamelCaseInjectiveStep(a[1..], b[1..]);
      assert a == [a[0]] + a[1..];
      assert b == [b[0]] + b[1..];
    }
  }

  /** Two lists of constant words give the same class name exactly when they are equal. */
  lemma CamelCaseInjective(a: seq<ConstWord>, b: seq<ConstWord>)
    ensures CamelCase(a) == CamelCase(b) <==> a == b
  {
    if CamelCase(a) == CamelCase(b) {
      CamelCaseInjectiveStep(a, b);
    }
  }
}

=== FILE: requests.dfy ===
/** The request packet classes (classes/Phearman/Task/Request): their constructors,
    WorkComplete's `setWorkload`, and the data part each one hands to `__toString`. */
module Requests {
  import opened Base
  import opened Phearman
  import opened Tasks

  /** `new CanDo($functionName)`. */
  function NewCanDo(functionName: Value): (t: Task)
    ensures WellTyped(t) && t.code == Request && t.typ == TYPE_CAN_DO
    ensures Get(t, FunctionName) == functionName
  {
    Task(Request, TYPE_CAN_DO, Null, CanDo(functionName))
  }

  /** `new EchoReq($workload)`. */
  function NewEchoReq(workload: Value): (t: Task)
    ensures WellTyped(t) && t.code == Request && t.typ == TYPE_ECHO_REQ
    ensures t.body.workload == workload
  {
    Task(Request, TYPE_ECHO_REQ, Null, EchoReq(workload))
  }

  /** `new GetStatus()`: the handle is left for `setJobHandle`. */
  function NewGetStatus(): (t: Task)
    ensures WellTyped(t) && t.code == Request && t.typ == TYPE_GET_STATUS
    ensures Get(t, JobHandle) == Null
  {
    Task(Request, TYPE_GET_STATUS, Null, GetStatus(Null))
  }

  /** `new GrabJob()`. */
  function NewGrabJob(): (t: Task)
    ensures WellTyped(t) && t.code == Request && t.typ == TYPE_GRAB_JOB
  {
    Task(Request, TYPE_GRAB_JOB, Null, GrabJob)
  }

  /** `new PreSleep()`. */
  function NewPreSleep(): (t: Task)
    ensures WellTyped(t) && t.code == Request && t.typ == TYPE_PRE_SLEEP
  {
    Task(Request, TYPE_PRE_SLEEP, Null, PreSleep)
  }

  /** The job types SubmitJob's constructor accepts: SUBMIT_JOB, SUBMIT_JOB_HIGH,
      SUBMIT_JOB_LOW, SUBMIT_JOB_BG, SUBMIT_JOB_HIGH_BG and SUBMIT_JOB_LOW_BG. */
  predicate Submittable(typ: int)
  {
    typ == TYPE_SUBMIT_JOB || typ == TYPE_SUBMIT_JOB_HIGH || typ == TYPE_SUBMIT_JOB_LOW
    || typ == TYPE_SUBMIT_JOB_BG || typ == TYPE_SUBMIT_JOB_HIGH_BG || typ == TYPE_SUBMIT_JOB_LOW_BG
  }

  /** The accepted types are six of the eight SUBMIT_JOB codes: SCHED and EPOCH are refused. */
  lemma SubmittableFamily(typ: int)
    ensures Submittable(typ) <==> typ in {7, 21, 33, 18, 32, 34}
    ensures Submittable(typ) ==> TypeOf(typ).Some? && IsSubmitJob(TypeOf(typ).value)
    ensures TypeOf(typ).Some? && IsSubmitJob(TypeOf(typ).value) && !Submittable(typ) ==> typ in {35, 36}
  {
    if TypeOf(typ).Some? {
      SubmitFamily(TypeOf(typ).value);
      LookupInverse(TypeOf(typ).value, typ);
    }
  }

  /** `new SubmitJob($uniqueId, $type)`: a type outside the six accepted ones throws. */
  function NewSubmitJob(uniqueId: Value, typ: int): (r: Result<Task, Fault>)
    ensures r.Ok? <==> Submittable(typ)
    ensures r.Err? ==> r.error == InvalidJobType
    ensures r.Ok? ==> WellTyped(r.value) && r.value.code == Request && r.value.typ == typ
                      && Get(r.value, UniqueId) == uniqueId
                      && Get(r.value, FunctionName) == Null && Get(r.value, Workload) == Null
  {
    SubmittableFamily(typ);
    if !Submittable(typ) then Err(InvalidJobType)
    else Ok(Task(Request, typ, Null, SubmitJob(Null, uniqueId, Null)))
  }

  /** `new WorkComplete($jobHandle)`. */
  function NewWorkComplete(jobHandle: Value): (t: Task)
    ensures WellTyped(t) && t.code == Request && t.typ == TYPE_WORK_COMPLETE
    ensures Get(t, JobHandle) == jobHandle && Get(t, Workload) == Null
  {
    Task(Request, TYPE_WORK_COMPLETE, Null, WorkCompleteReq(jobHandle, Null))
  }

  /** WorkComplete's own `setWorkload`: replaces the workload and nothing else. */
  function SetWorkload(t: Task, workload: Value): (r: Task)
    requires t.body.WorkCompleteReq?
    ensures r.body.WorkCompleteReq? && WellTyped(r) == WellTyped(t)
    ensures Get(r, Workload) == workload
    ensures r.code == t.code && r.typ == t.typ && r.length == t.length && Get(r, JobHandle) == Get(t, JobHandle)
  {
    t.(body := WorkCompleteReq(t.body.jobHandle, workload))
  }

  /** `new WorkStatus($jobHandle, $percentNum, $percentDen)`. */
  function NewWorkStatus(jobHandle: Value, percentNum: Value, percentDen: Value): (t: Task)
    ensures WellTyped(t) && t.code == Request && t.typ == TYPE_WORK_STATUS
    ensures Get(t, JobHandle) == jobHandle
    ensures Get(t, PercentCompleteNumerator) == percentNum && Get(t, PercentCompleteDenominator) == percentDen
  {
    Task(Request, TYPE_WORK_STATUS, Null, WorkStatusReq(jobHandle, percentNum, percentDen))
  }

  /** What `getDataPart()` returns: a single value (CanDo returns its field and
      WorkComplete an already joined string; the classes that do not override it
      return null), or an array of one or more values. */
  datatype Part = Scalar(v: Value) | Items(first: Value, rest: seq<Value>)

  function DataPart(b: Body): Part
  {
    match b
    case CanDo(f) => Scalar(f)
    case EchoReq(w) => Items(w, [])
    case GetStatus(h) => Items(h, [])
    case SubmitJob(f, u, w) => Items(f, [u, w])
    case WorkCompleteReq(h, w) => Scalar(Text(Str(h) + [NUL] + Str(w)))
    case WorkStatusReq(h, n, d) => Items(h, [n, d])
    case _ => Scalar(Null)
  }
}

=== FILE: responses.dfy ===
/** The response packet classes (classes/Phearman/Task/Response): their constructors
    and `setFromResponse`, which fills the properties from the payload. */
module Responses {
  import opened Base
  import opened Phearman
  import opened Codec
  import opened Tasks

  function NewEchoRes(): (t: Task)
    ensures WellTyped(t) && t.code == Response && t.typ == TYPE_ECHO_RES
  {
    Task(Response, TYPE_ECHO_RES, Null, EchoRes(Null))
  }

  /** Error's constructor, with the type it stands for (ERROR, 19). */
  function NewError(): (t: Task)
    ensures WellTyped(t) && t.code == Response && t.typ == TYPE_ERROR
  {
    Task(Response, TYPE_ERROR, Null, Error(Null, Null))
  }

  /** Error's constructor as written: it gives the task the JOB_CREATED type. */
  function NewErrorAsWritten(): (t: Task)
    ensures t.code == Response && t.body.Error?
    ensures t.typ == TYPE_JOB_CREATED && !WellTyped(t)
  {
    Task(Response, TYPE_JOB_CREATED, Null, Error(Null, Null))
  }

  function NewJobAssign(): (t: Task)
    ensures WellTyped(t) && t.code == Response && t.typ == TYPE_JOB_ASSIGN
  {
    Task(Response, TYPE_JOB_ASSIGN, Null, JobAssign(Null, Null, Null))
  }

  function NewJobCreated(): (t: Task)
    ensures WellTyped(t) && t.code == Response && t.typ == TYPE_JOB_CREATED
  {
    Task(Response, TYPE_JOB_CREATED, Null, JobCreated(Null))
  }

  function NewNoJob(): (t: Task)
    ensures WellTyped(t) && t.code == Response && t.typ == TYPE_NO_JOB
  {
    Task(Response, TYPE_NO_JOB, Null, NoJob)
  }

  function NewNoop(): (t: Task)
    ensures WellTyped(t) && t.code == Response && t.typ == TYPE_NOOP
  {
    Task(Response, TYPE_NOOP, Null, Noop)
  }

  /** StatusRes's constructor, with the type it stands for (STATUS_RES, 20). */
  function NewStatusRes(): (t: Task)
    ensures WellTyped(t) && t.code == Response && t.typ == TYPE_STATUS_RES
  {
    Task(Response, TYPE_STATUS_RES, Null, StatusRes(Null, Null, Null, Null, Null))
  }

  /** StatusRes's constructor as written: it gives the task the JOB_CREATED type. */
  function NewStatusResAsWritten(): (t: Task)
    ensures t.code == Response && t.body.StatusRes?
    ensures t.typ == TYPE_JOB_CREATED && !WellTyped(t)
  {
    Task(Response, TYPE_JOB_CREATED, Null, StatusRes(Null, Null, Null, Null, Null))
  }

  function NewWorkCompleteRes(): (t: Task)
    ensures WellTyped(t) && t.code == Response && t.typ == TYPE_WORK_COMPLETE
  {
    Task(Response, TYPE_WORK_COMPLETE, Null, WorkCompleteRes(Null, Null))
  }

  function NewWorkStatusRes(): (t: Task)
    ensures WellTyped(t) && t.code == Response && t.typ == TYPE_WORK_STATUS
  {
    Task(Response, TYPE_WORK_STATUS, Null, WorkStatusRes(Null, Null, Null))
  }

  /** `$packet[i]` after a split: the piece, or null when there are fewer pieces. */
  function Field(parts: seq<Bytes>, i: nat): (v: Value)
    ensures i < |parts| ==> v == Text(parts[i])
    ensures i >= |parts| ==> v == Null
  {
    if i < |parts| then Text(parts[i]) else Null
  }

  /** The body `setFromResponse` builds from the pieces of the payload. */
  function Fill(b: Body, packet: Bytes, parts: seq<Bytes>): Body
    requires Parses(b)
  {
    match b
    case EchoRes(_) => EchoRes(Text(packet))
    case JobCreated(_) => JobCreated(Text(packet))
    case Error(_, _) => Error(Field(parts, 0), Field(parts, 1))
    case JobAssign(_, _, _) => JobAssign(Field(parts, 0), Field(parts, 1), Field(parts, 2))
    case StatusRes(_, _, _, _, _) =>
      StatusRes(Field(parts, 0), Field(parts, 1), Field(parts, 2), Field(parts, 3), Field(parts, 4))
    case WorkCompleteRes(_, _) => WorkCompleteRes(Field(parts, 0), Field(parts, 1))
    case WorkStatusRes(_, _, _) => WorkStatusRes(Field(parts, 0), Field(parts, 1), Field(parts, 2))
  }

  /** Whether the class defines a public `setFromResponse`. The others inherit Task's
      protected one, so a call from an adapter goes to `__call`, which finds no
      property `fromResponse` and throws. */
  predicate Parses(b: Body)
  {
    b.EchoRes? || b.JobCreated? || b.Error? || b.JobAssign? || b.StatusRes?
    || b.WorkCompleteRes? || b.WorkStatusRes?
  }

  /** How many fields the class reads from the payload. */
  function Arity(b: Body): nat
  {
    match b
    case Error(_, _) => 2
    case JobAssign(_, _, _) => 3
    case StatusRes(_, _, _, _, _) => 5
    case WorkCompleteRes(_, _) => 2
    case WorkStatusRes(_, _, _) => 3
    case _ => 1
  }

  /** `setFromResponse($packet)`, splitting into at most as many pieces as the class has
      fields, so that the last field keeps any NUL bytes it contains. */
  function SetFromResponse(t: Task, packet: Bytes): (r: Result<Task, Fault>)
    ensures r.Ok? <==> Parses(t.body)
    ensures r.Err? ==> r.error == MethodNotFound("setFromResponse")
    ensures r.Ok? ==> r.value.code == t.code && r.value.typ == t.typ && r.value.length == t.length
                      && Class(r.value.body) == Class(t.body) && Dir(r.value.body) == Dir(t.body)
  {
    if !Parses(t.body) then Err(MethodNotFound("setFromResponse"))
    else Ok(t.(body := Fill(t.body, packet, ExplodeLimit(packet, Arity(t.body)))))
  }

  /** `setFromResponse($packet)` as written: `explode` without a limit. */
  function SetFromResponseAsWritten(t: Task, packet: Bytes): (r: Result<Task, Fault>)
    ensures r.Ok? <==> Parses(t.body)
    ensures r.Ok? ==> r.value.code == t.code && r.value.typ == t.typ && Class(r.value.body) == Class(t.body)
  {
    if !Parses(t.body) then Err(MethodNotFound("setFromResponse"))
    else Ok(t.(body := Fill(t.body, packet, Explode(packet))))
  }
}

=== FILE: stream.dfy ===
/** Reading one response frame from the inbound byte stream: what `Client::read`,
    `Adapter::read` and `Socket::read` compute, as functions of the bytes still unread.
    `fread($n)` hands back the next n bytes, or what is left when fewer remain. */
module Streams {
  import opened Base
  import opened Phearman
  import opened Codec
  import opened Tasks
  import opened Responses
  import opened Frames
  import opened TaskFactory

  /** A read's result and the number of bytes it took from the stream. */
  datatype Outcome = Outcome(result: Result<Task, Fault>, consumed: nat)

  /** The task for a header's type and length and the payload read after it: the factory
      builds the response class, `setLength` records the length and, for a non-empty
      payload, `setFromResponse` fills the fields. */
  function Decode(typ: nat, len: nat, packet: Bytes): (r: Result<Task, Fault>)
    ensures Factory(typ, CODE_RESPONSE).Err? ==> r == Factory(typ, CODE_RESPONSE)
    ensures r.Ok? ==> r.value.length == Int(len) && r.value.code == Response
                      && Factory(typ, CODE_RESPONSE).Ok?
                      && Class(r.value.body) == Class(Factory(typ, CODE_RESPONSE).value.body)
                      && r.value.typ == Factory(typ, CODE_RESPONSE).value.typ
    ensures r.Err? ==> r.error != Stalled
  {
    match Factory(typ, CODE_RESPONSE)
    case Err(e) => FactoryNeverStalls(typ, CODE_RESPONSE); Err(e)
    case Ok(t) =>
      DirectionCodesUpper(Response);
      var withLength := Set(t, LengthProp, Int(len));
      if len == 0 then Ok(withLength) else SetFromResponse(withLength, packet)
  }

  /** The part of a read after the magic: eight header bytes, then, when the factory
      succeeds and the length is not zero, a payload of that length. A header cut short
      makes `unpack` fail, and the factory given no type throws. */
  function ReadFrame(s: Bytes): (o: Outcome)
    ensures o.consumed <= |s|
    ensures o.result != Err(Stalled)
  {
    var header := Take(s, 8);
    match UnpackHeader(header)
    case None => Outcome(Err(InvalidTaskType), |header|)
    case Some((typ, len)) =>
      if Factory(typ, CODE_RESPONSE).Err? || len == 0 then Outcome(Decode(typ, len, []), 8)
      else
        var packet := Take(s[8..], len);
        Outcome(Decode(typ, len, packet), 8 + |packet|)
  }

  /** `Client::read`: four bytes of magic, read and not looked at, then the frame. */
  function ClientRead(s: Bytes): (o: Outcome)
    ensures o.consumed <= |s|
  {
    var code := Take(s, 4);
    var o := ReadFrame(s[|code|..]);
    Outcome(o.result, |code| + o.consumed)
  }

  /** `Decode` as written: the factory's Error and StatusRes carry the JOB_CREATED type,
      and `setFromResponse` explodes the payload without a limit. */
  function DecodeAsWritten(typ: nat, len: nat, packet: Bytes): (r: Result<Task, Fault>)
    ensures Factory(typ, CODE_RESPONSE).Err? ==> r == Factory(typ, CODE_RESPONSE)
    ensures r.Ok? ==> r.value.length == Int(len) && r.value.code == Response
                      && r.value.typ == FactoryAsWritten(typ, CODE_RESPONSE).value.typ
  {
    match FactoryAsWritten(typ, CODE_RESPONSE)
    case Err(e) => Err(e)
    case Ok(t) =>
      var withLength := Set(t, LengthProp, Int(len));
      if len == 0 then Ok(withLength) else SetFromResponseAsWritten(withLength, packet)
  }

  /** `Client::read` as written: the bytes it takes are those of `ClientRead`, and the
      task it returns is decoded as written. */
  function ClientReadAsWritten(s: Bytes): (o: Outcome)
    ensures o.consumed == ClientRead(s).consumed
    ensures o.result.Ok? <==> ClientRead(s).result.Ok?
    ensures ClientRead(s).result.Err? ==> o.result == ClientRead(s).result
    ensures o.result.Ok? ==>
              var t := ClientRead(s).result.value;
              Class(o.result.value.body) == Class(t.body) && o.result.value.length == t.length
              && o.result.value.typ == if Class(t.body) == ERROR || Class(t.body) == STATUS_RES
                                       then TYPE_JOB_CREATED else t.typ
  {
    var code := Take(s, 4);
    var tail := s[|code|..];
    var header := Take(tail, 8);
    match UnpackHeader(header)
    case None => Outcome(Err(InvalidTaskType), |code| + |header|)
    case Some((typ, len)) =>
      if Factory(typ, CODE_RESPONSE).Err? || len == 0 then Outcome(DecodeAsWritten(typ, len, []), |code| + 8)
      else
        var packet := Take(tail[8..], len);
        Outcome(DecodeAsWritten(typ, len, packet), |code| + 8 + |packet|)
  }

  /** `Adapter::read`: the same, except that an empty magic read (the stream has run dry)
      repeats for ever. */
  function AdapterRead(s: Bytes): (o: Outcome)
    ensures o.consumed <= |s|
    ensures s == [] <==> o.result == Err(Stalled)
    ensures s != [] ==> o == ClientRead(s)
  {
    if s == [] then Outcome(Err(Stalled), 0) else ClientRead(s)
  }

  // ---------------------------------------------------------------------------
  // Socket::read: resynchronising on the response magic.

  /** `trim($s, "\0")`: NUL bytes removed from both ends. */
  function TrimNul(s: Bytes): (r: Bytes)
    ensures |r| <= |s|
  {
    TrimRight(TrimLeft(s))
  }

  function TrimLeft(s: Bytes): (r: Bytes)
    ensures |r| <= |s|
    ensures r != [] ==> r[0] != NUL
  {
    if s != [] && s[0] == NUL then TrimLeft(s[1..]) else s
  }

  function TrimRight(s: Bytes): (r: Bytes)
    ensures |r| <= |s|
  {
    if s != [] && s[|s| - 1] == NUL then TrimRight(s[..|s| - 1]) else s
  }

  /** A window that ends the resynchronisation: trimmed of NULs, it reads "RES". */
  predicate IsRes(w: Bytes)
  {
    TrimNul(w) == [82, 69, 83]
  }

  /** The number of bytes the resynchronisation loop reads up to and including the
      window that ends it, or nothing when the stream runs dry first (the loop then
      spins for ever on empty reads). */
  function Resync(s: Bytes): (r: Option<nat>)
    ensures r.Some? ==> 0 < r.value <= |s|
    decreases |s|
  {
    if s == [] then None
    else
      var w := Take(s, 4);
      if IsRes(w) then Some(|w|)
      else match Resync(s[|w|..])
        case None => None
        case Some(k) => Some(|w| + k)
  }

  /** `Socket::read`: skip to the response magic, then read the frame. */
  function SocketRead(s: Bytes): (o: Outcome)
    ensures o.consumed <= |s|
    ensures o.result == Err(Stalled) <==> Resync(s).None?
  {
    match Resync(s)
    case None => Outcome(Err(Stalled), |s|)
    case Some(k) =>
      var o := ReadFrame(s[k..]);
      Outcome(o.result, k + o.consumed)
  }

  // ---------------------------------------------------------------------------
  // Properties.

  /** The response magic ends the resynchronisation, and so does the same three letters
      followed by a NUL; the request magic does not. */
  lemma MagicWindows()
    ensures IsRes(Magic(Response))
    ensures IsRes([82, 69, 83, NUL])
    ensures !IsRes(Magic(Request))
  {
    var res: Bytes := [82, 69, 83];
    assert TrimLeft(Magic(Response)) == res by {
      assert Magic(Response)[1..] == res;
    }
    assert TrimRight(res) == res;
    var resNul: Bytes := [82, 69, 83, NUL];
    assert TrimLeft(resNul) == resNul;
    assert TrimRight(resNul) == res by {
      assert resNul[..3] == res;
    }
    var req: Bytes := [82, 69, 81];
    assert TrimLeft(Magic(Request)) == req by {
      assert Magic(Request)[1..] == req;
    }
    assert TrimRight(req) == req;
  }

  /** Reading the header and payload of a whole frame: exactly the frame is consumed
      when the factory accepts the type, the header alone otherwise. */
  lemma ReadWholeFrame(typ: nat, payload: Bytes, rest: Bytes)
    requires typ < TWO32 && |payload| < TWO32
    ensures ReadFrame(PackN(typ) + PackN(|payload|) + payload + rest)
            == Outcome(Decode(typ, |payload|, payload),
                       8 + if Factory(typ, CODE_RESPONSE).Ok? then |payload| else 0)
  {
    var s := PackN(typ) + PackN(|payload|) + payload + rest;
    HeaderRead(typ, payload, rest);
    if payload == [] {
      assert Decode(typ, 0, []) == Decode(typ, |payload|, payload);
    }
  }

  /** The eight bytes after the magic decode to the type and length, and the payload
      follows them. */
  lemma HeaderRead(typ: nat, payload: Bytes, rest: Bytes)
    requires typ < TWO32 && |payload| < TWO32
    ensures var s := PackN(typ) + PackN(|payload|) + payload + rest;
            UnpackHeader(Take(s, 8)) == Some((typ, |payload|)) && Take(s[8..], |payload|) == payload
  {
    var s := PackN(typ) + PackN(|payload|) + payload + rest;
    var header := PackN(typ) + PackN(|payload|);
    assert Take(s, 8) == header;
    assert header[..4] == PackN(typ) && header[4..8] == PackN(|payload|);
    UnpackPack(typ);
    UnpackPack(|payload|);
    assert s[8..] == payload + rest;
  }

  /** `Client::read` takes any four bytes as the magic: a request magic or junk in
      their place changes nothing. */
  lemma ClientIgnoresMagic(m1: Bytes, m2: Bytes, rest: Bytes)
    requires |m1| == 4 && |m2| == 4
    ensures ClientRead(m1 + rest) == ClientRead(m2 + rest)
  {
    assert Take(m1 + rest, 4) == m1 && (m1 + rest)[4..] == rest;
    assert Take(m2 + rest, 4) == m2 && (m2 + rest)[4..] == rest;
  }

  /** `Client::read` on a whole frame, whatever its magic, gives the decoded task and
      consumes the frame. */
  lemma ClientReadsFrame(d: Direction, typ: nat, payload: Bytes, rest: Bytes)
    requires typ < TWO32 && |payload| < TWO32
    ensures ClientRead(Frame(d, typ, payload) + rest)
            == Outcome(Decode(typ, |payload|, payload),
                       12 + if Factory(typ, CODE_RESPONSE).Ok? then |payload| else 0)
  {
    var s := Frame(d, typ, payload) + rest;
    var tail := PackN(typ) + PackN(|payload|) + payload + rest;
    assert s == Magic(d) + tail;
    assert Take(s, 4) == Magic(d) && s[4..] == tail;
    ReadWholeFrame(typ, payload, rest);
  }

  /** Fewer than twelve bytes never make a task: the header is cut short. */
  lemma ShortRead(s: Bytes)
    requires 0 < |s| < 12
    ensures ClientRead(s).result == Err(InvalidTaskType)
    ensures AdapterRead(s).result == Err(InvalidTaskType)
  {
  }

  /** Windows of junk, each four bytes long and not the response magic. */
  predicate Junk(ws: seq<Bytes>)
  {
    forall i :: 0 <= i < |ws| ==> |ws[i]| == 4 && !IsRes(ws[i])
  }

  function Flatten(ws: seq<Bytes>): (r: Bytes)
    ensures Junk(ws) ==> |r| == 4 * |ws|
  {
    if ws == [] then [] else ws[0] + Flatten(ws[1..])
  }

  /** Each junk window is read and discarded whole, and the response magic after them
      ends the loop. */
  lemma {:induction false} ResyncSkipsJunk(ws: seq<Bytes>, tail: Bytes)
    requires Junk(ws)
    ensures Resync(Flatten(ws) + Magic(Response) + tail) == Some(4 * |ws| + 4)
    decreases |ws|
  {
    MagicWindows();
    var s := Flatten(ws) + Magic(Response) + tail;
    if ws == [] {
      assert s == Magic(Response) + tail;
      assert Take(s, 4) == Magic(Response);
    } else {
      ResyncSkipsJunk(ws[1..], tail);
      assert s == ws[0] + (Flatten(ws[1..]) + Magic(Response) + tail);
      assert Take(s, 4) == ws[0];
      assert s[4..] == Flatten(ws[1..]) + Magic(Response) + tail;
    }
  }

  /** `Socket::read` after junk: the junk windows, then the frame, are consumed, and the
      result is the frame's task. A read therefore takes 4k + 12 + length bytes and
      never reads past the frame. */
  lemma SocketReadsAfterJunk(ws: seq<Bytes>, typ: nat, payload: Bytes, rest: Bytes)
    requires Junk(ws) && typ < TWO32 && |payload| < TWO32
    ensures SocketRead(Flatten(ws) + Frame(Response, typ, payload) + rest)
            == Outcome(Decode(typ, |payload|, payload),
                       4 * |ws| + 12 + if Factory(typ, CODE_RESPONSE).Ok? then |payload| else 0)
  {
    SocketSkipsFrameMagic(ws, typ, payload, rest);
    ReadWholeFrame(typ, payload, rest);
  }

  lemma SocketSkipsFrameMagic(ws: seq<Bytes>, typ: nat, payload: Bytes, rest: Bytes)
    requires Junk(ws)
    ensures SocketRead(Flatten(ws) + Frame(Response, typ, payload) + rest)
            == Outcome(ReadFrame(PackN(typ) + PackN(|payload|) + payload + rest).result,
                       4 * |ws| + 4 + ReadFrame(PackN(typ) + PackN(|payload|) + payload + rest).consumed)
  {
    FrameAfterJunk(ws, typ, payload, rest);
    SocketSkipsJunk(ws, PackN(typ) + PackN(|payload|) + payload + rest);
  }

  lemma FrameAfterJunk(ws: seq<Bytes>, typ: nat, payload: Bytes, rest: Bytes)
    ensures Flatten(ws) + Frame(Response, typ, payload) + rest
            == Flatten(ws) + Magic(Response) + (PackN(typ) + PackN(|payload|) + payload + rest)
  {
  }

  /** After the junk and the magic, the socket reads the frame from what follows. */
  lemma SocketSkipsJunk(ws: seq<Bytes>, tail: Bytes)
    requires Junk(ws)
    ensures SocketRead(Flatten(ws) + Magic(Response) + tail)
            == Outcome(ReadFrame(tail).result, 4 * |ws| + 4 + ReadFrame(tail).consumed)
  {
    var s := Flatten(ws) + Magic(Response) + tail;
    ResyncSkipsJunk(ws, tail);
    assert s[4 * |ws| + 4..] == tail;
  }

  /** A stream with no response magic in any window stalls the socket read. */
  lemma {:induction false} SocketStallsWithoutMagic(ws: seq<Bytes>)
    requires Junk(ws)
    ensures SocketRead(Flatten(ws)).result == Err(Stalled)
    ensures Resync(Flatten(ws)).None?
    decreases |ws|
  {
    if ws != [] {
      SocketStallsWithoutMagic(ws[1..]);
      var s := Flatten(ws);
      assert Take(s, 4) == ws[0];
      assert s[4..] == Flatten(ws[1..]);
    }
  }

  /** A request frame never ends the resynchronisation on its own magic. */
  lemma RequestMagicSkipped(tail: Bytes)
    ensures Resync(Magic(Request) + tail) == match Resync(tail) case None => None case Some(k) => Some(4 + k)
  {
    MagicWindows();
    var s := Magic(Request) + tail;
    assert Take(s, 4) == Magic(Request);
    assert s[4..] == tail;
  }

  // ---------------------------------------------------------------------------
  // What reading a frame gives for the classes.

  /** A frame without payload gives the bare class with length 0: no parser is called,
      so NOOP and NO_JOB frames read cleanly. */
  lemma DecodeEmpty(p: PacketType)
    requires Exists(Response, p)
    ensures Decode(Code(p), 0, []) == Ok(InstantiateResponse(p).(length := Int(0)))
  {
    DirectionCodesUpper(Response);
    FactoryFindsClass(Response, p, CODE_RESPONSE);
  }

  /** A frame with a payload, for a class the factory knows: the class with the length
      set, filled by its parser. */
  lemma DecodeFilled(p: PacketType, packet: Bytes)
    requires Exists(Response, p) && packet != []
    ensures Decode(Code(p), |packet|, packet)
            == SetFromResponse(InstantiateResponse(p).(length := Int(|packet|)), packet)
  {
    DirectionCodesUpper(Response);
    FactoryFindsClass(Response, p, CODE_RESPONSE);
  }

  /** A NOOP or NO_JOB frame with a payload throws: these classes have no parser. */
  lemma DecodeNoParser(p: PacketType, packet: Bytes)
    requires p == NOOP || p == NO_JOB
    requires packet != []
    ensures Decode(Code(p), |packet|, packet) == Err(MethodNotFound("setFromResponse"))
  {
    DecodeFilled(p, packet);
    var t := InstantiateResponse(p).(length := Int(|packet|));
    assert t.body == if p == NOOP then Noop else NoJob;
    assert !Parses(t.body);
  }

  /** A frame of a class the factory knows, with a payload, read off the socket: the
      whole frame is consumed and the class parses the payload. */
  lemma SocketReadsClass(p: PacketType, payload: Bytes, rest: Bytes)
    requires Exists(Response, p) && payload != [] && |payload| < TWO32
    ensures SocketRead(Frame(Response, Code(p), payload) + rest)
            == Outcome(SetFromResponse(InstantiateResponse(p).(length := Int(|payload|)), payload),
                       12 + |payload|)
  {
    LookupInverse(p, Code(p));
    CodeRange(Code(p));
    DirectionCodesUpper(Response);
    FactoryFindsClass(Response, p, CODE_RESPONSE);
    SocketReadsAccepted(Code(p), payload, rest);
    DecodeFilled(p, payload);
  }

  /** A frame of a class the factory knows, with no payload: twelve bytes are consumed
      and the class comes back with length 0 and nothing parsed. */
  lemma SocketReadsEmpty(p: PacketType, rest: Bytes)
    requires Exists(Response, p)
    ensures SocketRead(Frame(Response, Code(p), []) + rest)
            == Outcome(Ok(InstantiateResponse(p).(length := Int(0))), 12)
  {
    LookupInverse(p, Code(p));
    CodeRange(Code(p));
    DirectionCodesUpper(Response);
    FactoryFindsClass(Response, p, CODE_RESPONSE);
    SocketReadsAccepted(Code(p), [], rest);
    DecodeEmpty(p);
  }

  /** A frame whose type the factory accepts, read off the socket as the first thing in
      the stream: the whole frame is consumed. */
  lemma SocketReadsAccepted(typ: nat, payload: Bytes, rest: Bytes)
    requires typ < TWO32 && |payload| < TWO32 && Factory(typ, CODE_RESPONSE).Ok?
    ensures SocketRead(Frame(Response, typ, payload) + rest)
            == Outcome(Decode(typ, |payload|, payload), 12 + |payload|)
  {
    NoJunk(Frame(Response, typ, payload), rest);
    SocketReadsAfterJunk([], typ, payload, rest);
  }

  lemma NoJunk(f: Bytes, rest: Bytes)
    ensures Junk([]) && Flatten([]) + f + rest == f + rest
  {
  }

  /** A JOB_ASSIGN frame read off the socket gives its handle, function name and
      workload, the workload intact whatever bytes it holds. */
  lemma JobAssignOverSocket(handle: Bytes, name: Bytes, workload: Bytes, rest: Bytes)
    requires NulFree(handle) && NulFree(name)
    requires |handle + [NUL] + name + [NUL] + workload| < TWO32
    ensures var payload := handle + [NUL] + name + [NUL] + workload;
            SocketRead(Frame(Response, TYPE_JOB_ASSIGN, payload) + rest)
            == Outcome(Ok(Task(Response, TYPE_JOB_ASSIGN, Int(|payload|),
                               JobAssign(Text(handle), Text(name), Text(workload)))),
                       12 + |payload|)
  {
    var payload := handle + [NUL] + name + [NUL] + workload;
    SocketReadsClass(JOB_ASSIGN, payload, rest);
    JobAssignParse(handle, name, workload);
    var t := NewJobAssign().(length := Int(|payload|));
    assert SetFromResponse(t, payload).value == SetFromResponse(NewJobAssign(), payload).value.(length := Int(|payload|));
  }

  /** `Client::read` on a frame of a class the factory knows, with a payload, whatever
      its magic: the whole frame is consumed and the class parses the payload. */
  lemma ClientReadsClass(d: Direction, p: PacketType, payload: Bytes, rest: Bytes)
    requires Exists(Response, p) && payload != [] && |payload| < TWO32
    ensures ClientRead(Frame(d, Code(p), payload) + rest)
            == Outcome(SetFromResponse(InstantiateResponse(p).(length := Int(|payload|)), payload),
                       12 + |payload|)
  {
    LookupInverse(p, Code(p));
    CodeRange(Code(p));
    DirectionCodesUpper(Response);
    FactoryFindsClass(Response, p, CODE_RESPONSE);
    ClientReadsFrame(d, Code(p), payload, rest);
    DecodeFilled(p, payload);
  }

  /** Every task a read produces has a type from the table, never 0. */
  lemma ReadTypes(s: Bytes)
    ensures ClientRead(s).result.Ok? ==> 1 <= ClientRead(s).result.value.typ <= 36
    ensures SocketRead(s).result.Ok? ==> 1 <= SocketRead(s).result.value.typ <= 36
  {
    FrameTypes(s[|Take(s, 4)|..]);
    if Resync(s).Some? {
      FrameTypes(s[Resync(s).value..]);
    }
  }

  /** Every task a socket read produces is a response whose header agrees with its
      class, and the read consumed at least its twelve bytes. */
  lemma SocketReadWellTyped(s: Bytes)
    ensures SocketRead(s).result.Ok? ==>
              WellTyped(SocketRead(s).result.value) && SocketRead(s).result.value.code == Response
              && SocketRead(s).consumed >= 12
  {
    if Resync(s).Some? {
      FrameWellTyped(s[Resync(s).value..]);
    }
  }

  lemma FrameWellTyped(s: Bytes)
    ensures ReadFrame(s).result.Ok? ==>
              WellTyped(ReadFrame(s).result.value) && ReadFrame(s).result.value.code == Response
              && ReadFrame(s).consumed >= 8
  {
  }

  lemma FrameTypes(s: Bytes)
    ensures ReadFrame(s).result.Ok? ==> 1 <= ReadFrame(s).result.value.typ <= 36
  {
    if ReadFrame(s).result.Ok? {
      var t := ReadFrame(s).result.value;
      assert WellTyped(t);
      CodeRange(t.typ);
      LookupInverse(Class(t.body), t.typ);
    }
  }
}

=== FILE: tasks.dfy ===
/** The task object every packet class extends (Task.php): the values PHP keeps in
    its properties, the properties each class declares, and the getters and setters
    that `__call` makes out of them. */
module Tasks {
  import opened Base
  import opened PhpString
  import opened Phearman

  /** What a property holds: nothing yet (`null`), a string or an integer. */
  datatype Value = Null | Text(text: Bytes) | Int(n: int)

  /** PHP's conversion of a property to a string, as `join` and `.` apply it. */
  function Str(v: Value): Bytes
  {
    match v
    case Null => []
    case Text(s) => s
    case Int(n) => Decimal(n)
  }

  /** The packet classes, one variant per class, with the properties each one
      assigns. The request and response classes that share a name (WorkComplete,
      WorkStatus) are told apart by a suffix. */
  datatype Body =
    // classes/Phearman/Task/Request
    | CanDo(functionName: Value)
    | EchoReq(workload: Value)
    | GetStatus(jobHandle: Value)
    | GrabJob
    | PreSleep
    | SubmitJob(functionName: Value, uniqueId: Value, workload: Value)
    | WorkCompleteReq(jobHandle: Value, workload: Value)
    | WorkStatusReq(jobHandle: Value, percentCompleteNumerator: Value, percentCompleteDenominator: Value)
    // classes/Phearman/Task/Response
    | EchoRes(workload: Value)
    | Error(errorCode: Value, errorText: Value)
    | JobAssign(jobHandle: Value, functionName: Value, workload: Value)
    | JobCreated(jobHandle: Value)
    | NoJob
    | Noop
    | StatusRes(jobHandle: Value, knownStatus: Value, runningStatus: Value,
                percentCompleteNumerator: Value, percentCompleteDenominator: Value)
    | WorkCompleteRes(jobHandle: Value, workload: Value)
    | WorkStatusRes(jobHandle: Value, percentCompleteNumerator: Value, percentCompleteDenominator: Value)

  /** A task: the inherited `code`, `type` and `length` properties and the class's own. */
  datatype Task = Task(code: Direction, typ: int, length: Value, body: Body)

  /** The namespace a class lives in. */
  function Dir(b: Body): Direction
  {
    if b.EchoRes? || b.Error? || b.JobAssign? || b.JobCreated? || b.NoJob? || b.Noop?
       || b.StatusRes? || b.WorkCompleteRes? || b.WorkStatusRes?
    then Response else Request
  }

  /** The packet type a class stands for: the constant its name is derived from. */
  function Class(b: Body): PacketType
  {
    match b
    case CanDo(_) => CAN_DO
    case EchoReq(_) => ECHO_REQ
    case GetStatus(_) => GET_STATUS
    case GrabJob => GRAB_JOB
    case PreSleep => PRE_SLEEP
    case SubmitJob(_, _, _) => SUBMIT_JOB
    case WorkCompleteReq(_, _) => WORK_COMPLETE
    case WorkStatusReq(_, _, _) => WORK_STATUS
    case EchoRes(_) => ECHO_RES
    case Error(_, _) => ERROR
    case JobAssign(_, _, _) => JOB_ASSIGN
    case JobCreated(_) => JOB_CREATED
    case NoJob => NO_JOB
    case Noop => NOOP
    case StatusRes(_, _, _, _, _) => STATUS_RES
    case WorkCompleteRes(_, _) => WORK_COMPLETE
    case WorkStatusRes(_, _, _) => WORK_STATUS
  }

  /** A task whose header agrees with its class: the class's direction and the code of
      the class's constant (for SubmitJob, any code of the SUBMIT_JOB family). */
  predicate WellTyped(t: Task)
  {
    t.code == Dir(t.body)
    && if t.body.SubmitJob? then TypeOf(t.typ).Some? && IsSubmitJob(TypeOf(t.typ).value)
       else t.typ == Code(Class(t.body))
  }

  // ---------------------------------------------------------------------------
  // Properties and the magic getters and setters (Task.php, `__call`).

  datatype Prop =
    | CodeProp | TypeProp | LengthProp
    | JobHandle | FunctionName | UniqueId | Workload | ErrorCode | ErrorText
    | KnownStatus | RunningStatus | PercentCompleteNumerator | PercentCompleteDenominator

  /** A PHP property name: it starts with a lower-case letter. */
  type Ident = s: string | |s| > 0 && 'a' <= s[0] <= 'z' witness "a"

  function PropName(p: Prop): Ident
  {
    match p
    case CodeProp => "code"
    case TypeProp => "type"
    case LengthProp => "length"
    case JobHandle => "jobHandle"
    case FunctionName => "functionName"
    case UniqueId => "uniqueId"
    case Workload => "workload"
    case ErrorCode => "errorCode"
    case ErrorText => "errorText"
    case KnownStatus => "knownStatus"
    case RunningStatus => "runningStatus"
    case PercentCompleteNumerator => "percentCompleteNumerator"
    case PercentCompleteDenominator => "percentCompleteDenominator"
  }

  /** The properties a class declares itself. EchoReq assigns `workload` without
      declaring it, so reflection does not see it. */
  function Declared(b: Body): seq<Prop>
  {
    match b
    case CanDo(_) => [FunctionName]
    case EchoReq(_) => []
    case GetStatus(_) => [JobHandle]
    case GrabJob => []
    case PreSleep => []
    case SubmitJob(_, _, _) => [FunctionName, UniqueId, Workload]
    case WorkCompleteReq(_, _) => [JobHandle, Workload]
    case WorkStatusReq(_, _, _) => [JobHandle, PercentCompleteNumerator, PercentCompleteDenominator]
    case EchoRes(_) => [Workload]
    case Error(_, _) => [ErrorCode, ErrorText]
    case JobAssign(_, _, _) => [JobHandle, FunctionName, Workload]
    case JobCreated(_) => [JobHandle]
    case NoJob => []
    case Noop => []
    case StatusRes(_, _, _, _, _) => [JobHandle, KnownStatus, RunningStatus, PercentCompleteNumerator, PercentCompleteDenominator]
    case WorkCompleteRes(_, _) => [JobHandle, Workload]
    case WorkStatusRes(_, _, _) => [JobHandle, PercentCompleteNumerator, PercentCompleteDenominator]
  }

  /** Every property reflection finds on the class: the inherited three and its own. */
  function Properties(b: Body): seq<Prop>
  {
    [CodeProp, TypeProp, LengthProp] + Declared(b)
  }

  /** Whether reflection finds property p on the class: the inherited three always,
      the others where the class declares them. */
  predicate Has(b: Body, p: Prop)
  {
    match p
    case CodeProp => true
    case TypeProp => true
    case LengthProp => true
    case JobHandle => b.GetStatus? || b.WorkCompleteReq? || b.WorkStatusReq? || b.JobAssign?
                      || b.JobCreated? || b.StatusRes? || b.WorkCompleteRes? || b.WorkStatusRes?
    case FunctionName => b.CanDo? || b.SubmitJob? || b.JobAssign?
    case UniqueId => b.SubmitJob?
    case Workload => b.SubmitJob? || b.WorkCompleteReq? || b.EchoRes? || b.JobAssign? || b.WorkCompleteRes?
    case ErrorCode => b.Error?
    case ErrorText => b.Error?
    case KnownStatus => b.StatusRes?
    case RunningStatus => b.StatusRes?
    case PercentCompleteNumerator => b.WorkStatusReq? || b.StatusRes? || b.WorkStatusRes?
    case PercentCompleteDenominator => b.WorkStatusReq? || b.StatusRes? || b.WorkStatusRes?
  }

  /** The list and the predicate agree. */
  lemma PropertiesHas(b: Body, p: Prop)
    ensures p in Properties(b) <==> Has(b, p)
  {
  }

  /** The bytes of the `code` property: "REQ" or "RES". */
  function CodeText(d: Direction): Bytes
  {
    match d
    case Request => [82, 69, 81]
    case Response => [82, 69, 83]
  }

  /** `getX()` on a declared property. */
  function Get(t: Task, p: Prop): Value
    requires Has(t.body, p)
  {
    match p
    case CodeProp => Text(CodeText(t.code))
    case TypeProp => Int(t.typ)
    case LengthProp => t.length
    case JobHandle => t.body.jobHandle
    case FunctionName => t.body.functionName
    case UniqueId => t.body.uniqueId
    case Workload => t.body.workload
    case ErrorCode => t.body.errorCode
    case ErrorText => t.body.errorText
    case KnownStatus => t.body.knownStatus
    case RunningStatus => t.body.runningStatus
    case PercentCompleteNumerator => t.body.percentCompleteNumerator
    case PercentCompleteDenominator => t.body.percentCompleteDenominator
  }

  /** `setX(v)` on `length` or on a property the class declares; returns the task. */
  function Set(t: Task, p: Prop, v: Value): (r: Task)
    requires Has(t.body, p) && p != CodeProp && p != TypeProp
    ensures r.code == t.code && r.typ == t.typ && Class(r.body) == Class(t.body) && Dir(r.body) == Dir(t.body)
    ensures forall q :: Has(r.body, q) == Has(t.body, q)
    ensures Get(r, p) == v
    ensures forall q :: Has(t.body, q) && q != p ==> Get(r, q) == Get(t, q)
  {
    match p
    case LengthProp => t.(length := v)
    case JobHandle => t.(body := t.body.(jobHandle := v))
    case FunctionName => t.(body := t.body.(functionName := v))
    case UniqueId => t.(body := t.body.(uniqueId := v))
    case Workload => t.(body := t.body.(workload := v))
    case ErrorCode => t.(body := t.body.(errorCode := v))
    case ErrorText => t.(body := t.body.(errorText := v))
    case KnownStatus => t.(body := t.body.(knownStatus := v))
    case RunningStatus => t.(body := t.body.(runningStatus := v))
    case PercentCompleteNumerator => t.(body := t.body.(percentCompleteNumerator := v))
    case PercentCompleteDenominator => t.(body := t.body.(percentCompleteDenominator := v))
  }

  /** What a magic call resolves to. */
  datatype Accessor = Getter(prop: Prop) | Setter(prop: Prop)

  /** The first property in the list with the given name. */
  function Find(ps: seq<Prop>, name: string): (r: Option<Prop>)
    ensures r.Some? ==> r.value in ps && PropName(r.value) == name
    ensures r.None? ==> forall p :: p in ps ==> PropName(p) != name
  {
    if ps == [] then None else if PropName(ps[0]) == name then Some(ps[0]) else Find(ps[1..], name)
  }

  /** `__call($method, ...)`: the first three letters, lower-cased, must be `get` or
      `set`; the rest, with its first letter lower-cased, must name a property
      reflection finds on the class. Anything else throws. */
  function Resolve(b: Body, m: string): (r: Result<Accessor, Fault>)
    ensures r.Ok? ==> r.value.prop in Properties(b)
    ensures r.Err? ==> r.error == MethodNotFound(m)
  {
    var prefix := ToLower(if |m| < 3 then m else m[..3]);
    var name := LcFirst(if |m| < 3 then [] else m[3..]);
    if prefix != "get" && prefix != "set" then Err(MethodNotFound(m))
    else match Find(Properties(b), name)
      case None => Err(MethodNotFound(m))
      case Some(p) => Ok(if prefix == "get" then Getter(p) else Setter(p))
  }

  /** No two properties share a name. */
  lemma PropNamesDistinct(p: Prop, q: Prop)
    ensures PropName(p) == PropName(q) <==> p == q
  {
  }

  lemma PrefixesLower()
    ensures ToLower("get") == "get" && ToLower("set") == "set"
  {
    assert "t"[1..] == [] && "et"[1..] == "t";
    assert "get"[1..] == "et" && "set"[1..] == "et";
    assert ToLower("t") == "t";
    assert ToLower("et") == "et";
  }

  /** `getX` and `setX` reach property x of the class, for every property reflection
      finds on it, and nothing else. */
  lemma ResolveAccessors(b: Body, p: Prop)
    requires p in Properties(b)
    ensures Resolve(b, "get" + UcFirst(PropName(p))) == Ok(Getter(p))
    ensures Resolve(b, "set" + UcFirst(PropName(p))) == Ok(Setter(p))
  {
    PrefixesLower();
    LcFirstUcFirst(PropName(p));
    FindName(Properties(b), p);
    var g := "get" + UcFirst(PropName(p));
    var s := "set" + UcFirst(PropName(p));
    assert g[..3] == "get" && g[3..] == UcFirst(PropName(p));
    assert s[..3] == "set" && s[3..] == UcFirst(PropName(p));
  }

  lemma FindName(ps: seq<Prop>, p: Prop)
    requires p in ps
    ensures Find(ps, PropName(p)) == Some(p)
  {
    PropNamesDistinctAll();
  }

  lemma PropNamesDistinctAll()
    ensures forall p: Prop, q: Prop :: PropName(p) == PropName(q) ==> p == q
  {
    forall p: Prop, q: Prop
      ensures PropName(p) == PropName(q) ==> p == q
    {
      PropNamesDistinct(p, q);
    }
  }

  /** `getTypeName()` names no property of any class, so it always throws. */
  lemma TypeNameUnresolved(b: Body)
    ensures Resolve(b, "getTypeName") == Err(MethodNotFound("getTypeName"))
  {
    var m := "getTypeName";
    assert m[..3] == "get";
    assert m[3..] == "TypeName";
    assert LcFirst("TypeName") == "typeName";
    PrefixesLower();
    NoTypeNameProperty();
    assert Find(Properties(b), "typeName") == None;
  }

  lemma NoTypeNameProperty()
    ensures forall p: Prop :: PropName(p) != "typeName"
  {
    forall p: Prop
      ensures PropName(p) != "typeName"
    {
    }
  }

  /** The name the log line at Worker.php:154 means to print: the constant of the
      task's type, when there is one. */
  function TypeName(t: Task): (r: Option<string>)
    ensures r.Some? <==> TypeOf(t.typ).Some?
    ensures forall p :: Code(p) == t.typ ==> r == Some(ConstName(p))
  {
    LookupAll();
    match TypeOf(t.typ)
    case None => None
    case Some(p) => Some(ConstName(p))
  }

  lemma LookupAll()
    ensures forall p :: TypeOf(Code(p)) == Some(p)
  {
    forall p
      ensures TypeOf(Code(p)) == Some(p)
    {
      LookupInverse(p, Code(p));
    }
  }
}

=== FILE: worker.dfy ===
/** The worker (Worker.php): the registry of capabilities, the CAN_DO / GRAB_JOB /
    PRE_SLEEP / WORK_COMPLETE conversation with the server over a socket adapter, and
    status updates. */
module Workers {
  import opened Base
  import opened Phearman
  import opened Tasks
  import opened Requests
  import opened Responses
  import opened Frames
  import opened TaskFactory
  import opened Streams
  import opened Adapters
  import opened Codec

  // ---------------------------------------------------------------------------
  // The registry: a PHP array from job name to function name, in insertion order.

  type Registry = seq<(Bytes, Bytes)>

  function Keys(m: Registry): (ks: seq<Bytes>)
    ensures |ks| == |m| && forall i :: 0 <= i < |m| ==> ks[i] == m[i].0
  {
    if m == [] then [] else [m[0].0] + Keys(m[1..])
  }

  /** The function registered for a job name. */
  function Lookup(m: Registry, k: Bytes): (r: Option<Bytes>)
    ensures r.Some? ==> (k, r.value) in m
    ensures r.None? <==> k !in Keys(m)
  {
    if m == [] then None else if m[0].0 == k then Some(m[0].1) else Lookup(m[1..], k)
  }

  /** `$array[$k] = $v`: an existing key keeps its place and takes the new value, a new
      key goes at the end. */
  function Put(m: Registry, k: Bytes, v: Bytes): (r: Registry)
    ensures |r| == if k in Keys(m) then |m| else |m| + 1
  {
    if m == [] then [(k, v)]
    else if m[0].0 == k then [(k, v)] + m[1..]
    else [m[0]] + Put(m[1..], k, v)
  }

  /** After `$array[$k] = $v` the key gives the new value and every other key what it
      gave before. */
  lemma {:induction false} PutLookup(m: Registry, k: Bytes, v: Bytes, other: Bytes)
    ensures Lookup(Put(m, k, v), k) == Some(v)
    ensures other != k ==> Lookup(Put(m, k, v), other) == Lookup(m, other)
  {
    if m != [] && m[0].0 != k {
      PutLookup(m[1..], k, v, other);
    }
  }

  /** The keys keep their order; a new key is appended. */
  lemma {:induction false} PutKeys(m: Registry, k: Bytes, v: Bytes)
    ensures Keys(Put(m, k, v)) == if k in Keys(m) then Keys(m) else Keys(m) + [k]
  {
    if m != [] && m[0].0 != k {
      PutKeys(m[1..], k, v);
      assert Keys(m) == [m[0].0] + Keys(m[1..]);
    }
  }

  /** Registering a name twice leaves one entry for it: keys stay unique. */
  lemma PutDistinct(m: Registry, k: Bytes, v: Bytes)
    requires Distinct(Keys(m))
    ensures Distinct(Keys(Put(m, k, v)))
  {
    PutKeys(m, k, v);
  }

  // ---------------------------------------------------------------------------
  // addFunction.

  /** `$functionName == null` in PHP: true for null, the empty string and zero. */
  predicate LooseNull(v: Value)
  {
    v == Null || v == Text([]) || v == Int(0)
  }

  /** The registry after `addFunction($jobName, $functionName)`: without a function name
      the job name is used; a function that does not exist throws. `defined` holds the
      names of the defined functions, lower-cased, as `function_exists` compares them. */
  function Registration(m: Registry, jobName: Bytes, functionName: Value, defined: set<Bytes>)
    : (r: Result<Registry, Fault>)
    ensures r.Err? ==> r.error == NonExistentFunction
  {
    var name := if LooseNull(functionName) then jobName else Str(functionName);
    if LowerBytes(name) !in defined then Err(NonExistentFunction)
    else Ok(Put(m, jobName, name))
  }

  /** What a registration does: the job name now leads to the named function (the job
      name itself when none is given), every other job name is untouched, and the job
      names stay unique; a function that is not defined is refused. */
  lemma RegistrationEffect(m: Registry, jobName: Bytes, functionName: Value, defined: set<Bytes>, other: Bytes)
    requires Distinct(Keys(m))
    ensures var name := if LooseNull(functionName) then jobName else Str(functionName);
            var r := Registration(m, jobName, functionName, defined);
            (r.Ok? <==> LowerBytes(name) in defined)
            && (r.Ok? ==> Lookup(r.value, jobName) == Some(name)
                          && (other != jobName ==> Lookup(r.value, other) == Lookup(m, other))
                          && Distinct(Keys(r.value)))
  {
    var name := if LooseNull(functionName) then jobName else Str(functionName);
    PutLookup(m, jobName, name, other);
    PutDistinct(m, jobName, name);
  }

  // ---------------------------------------------------------------------------
  // The frames the worker writes.

  /** The frames of a list of tasks, as `write` puts them on the wire. */
  function Wire(ts: seq<Task>): (r: seq<Bytes>)
    ensures |r| == |ts| && forall i :: 0 <= i < |ts| ==> r[i] == ToString(ts[i]).0
  {
    if ts == [] then [] else [ToString(ts[0]).0] + Wire(ts[1..])
  }

  lemma WireAppend(a: seq<Task>, b: seq<Task>)
    ensures Wire(a + b) == Wire(a) + Wire(b)
  {
    assert forall i :: 0 <= i < |a + b| ==> Wire(a + b)[i] == (Wire(a) + Wire(b))[i];
  }

  /** Writing more tasks after some frames extends the frames by theirs. */
  lemma WireExtend(w: seq<Bytes>, done: seq<Task>, more: seq<Task>)
    ensures w + Wire(done) + Wire(more) == w + Wire(done + more)
  {
    WireAppend(done, more);
  }

  /** One CAN_DO per registered job name, in registry order. */
  function CanDos(m: Registry): (r: seq<Task>)
    ensures |r| == |m| && forall i :: 0 <= i < |m| ==> r[i] == NewCanDo(Text(m[i].0))
  {
    if m == [] then [] else [NewCanDo(Text(m[0].0))] + CanDos(m[1..])
  }

  lemma CanDosExtend(m: Registry, i: nat)
    requires i < |m|
    ensures CanDos(m[..i + 1]) == CanDos(m[..i]) + [NewCanDo(Text(m[i].0))]
  {
    var a, b := CanDos(m[..i + 1]), CanDos(m[..i]) + [NewCanDo(Text(m[i].0))];
    assert |a| == |b|;
    forall k | 0 <= k < |a|
      ensures a[k] == b[k]
    {
      assert m[..i + 1][k] == m[k];
    }
  }

  // ---------------------------------------------------------------------------
  // checkForJob and the work loop.

  /** The job function the registry names for an assigned job, called with the job:
      `run(f, job)` is the value the function `f` returns. A job name the registry does
      not hold gives a null callback, and `call_user_func` on it returns null. */
  function Dispatch(m: Registry, run: (Bytes, Task) -> Value, job: Task): (r: Value)
    requires job.body.JobAssign?
    ensures Str(Get(job, FunctionName)) !in Keys(m) ==> r == Null
    ensures forall f :: Lookup(m, Str(Get(job, FunctionName))) == Some(f) ==> r == run(f, job)
  {
    match Lookup(m, Str(Get(job, FunctionName)))
    case None => Null
    case Some(f) => run(f, job)
  }

  /** Dispatch as written: the job's own function name is called, whatever the
      registry maps it to; calling a function that does not exist gives null. */
  function DispatchAsWritten(defined: set<Bytes>, run: (Bytes, Task) -> Value, job: Task): (r: Value)
    requires job.body.JobAssign?
    ensures LowerBytes(Str(Get(job, FunctionName))) !in defined ==> r == Null
  {
    var f := Str(Get(job, FunctionName));
    if LowerBytes(f) in defined then run(f, job) else Null
  }

  /** A JOB_ASSIGN read off the socket is a JobAssign. */
  lemma AssignedJob(job: Task)
    requires WellTyped(job) && job.typ == TYPE_JOB_ASSIGN
    ensures job.body.JobAssign?
  {
    CodesDistinct(Class(job.body), JOB_ASSIGN);
  }

  /** What `checkForJob` writes for the task it read: PRE_SLEEP after NO_JOB, the
      WORK_COMPLETE with the handle and the function's output after JOB_ASSIGN, and
      nothing after anything else. */
  function React(m: Registry, run: (Bytes, Task) -> Value, job: Task): (r: seq<Task>)
    requires WellTyped(job)
    ensures |r| == if job.typ == TYPE_NO_JOB || job.typ == TYPE_JOB_ASSIGN then 1 else 0
  {
    if job.typ == TYPE_NO_JOB then [NewPreSleep()]
    else if job.typ == TYPE_JOB_ASSIGN then
      AssignedJob(job);
      [SetWorkload(NewWorkComplete(Get(job, JobHandle)), Dispatch(m, run, job))]
    else []
  }

  /** The types after which the inner loop gives way to a new GRAB_JOB. */
  predicate Wakes(typ: int)
  {
    typ == TYPE_NOOP || typ == TYPE_JOB_ASSIGN
  }

  function Again(job: Task): (r: seq<Task>)
  {
    if Wakes(job.typ) then [NewGrabJob()] else []
  }

  /** One `checkForJob`: the task read (or why there is none), what was written for it,
      and what is left of the stream. */
  datatype Step = Step(job: Result<Task, Fault>, writes: seq<Task>, rest: Bytes)

  function Check(m: Registry, run: (Bytes, Task) -> Value, s: Bytes): (r: Step)
    ensures r.job.Ok? ==> WellTyped(r.job.value) && |r.rest| < |s| && React(m, run, r.job.value) == r.writes
    ensures r.job.Err? ==> r.writes == []
  {
    var o := SocketRead(s);
    SocketReadWellTyped(s);
    var rest := s[o.consumed..];
    if o.result.Err? then Step(o.result, [], rest)
    else Step(o.result, React(m, run, o.result.value), rest)
  }

  /** `checkForJob` as written: the log line asks the task for `getTypeName()`, which
      no task class has, so the magic call throws before the switch. */
  function CheckAsWritten(m: Registry, run: (Bytes, Task) -> Value, s: Bytes): (r: Step)
    ensures r.job.Ok? ==> |r.rest| < |s|
  {
    var o := SocketRead(s);
    SocketReadWellTyped(s);
    var rest := s[o.consumed..];
    if o.result.Err? then Step(o.result, [], rest)
    else match Resolve(o.result.value.body, "getTypeName")
      case Err(e) => Step(Err(e), [], rest)
      case Ok(_) => Check(m, run, s)
  }

  /** How a run of the work loop ends: the tasks handled, the tasks written, what is
      left of the stream, and the exception that ended it. */
  datatype Served = Served(jobs: seq<Task>, writes: seq<Task>, rest: Bytes, stop: Fault)

  /** The inner and outer loops of `work` once a GRAB_JOB has been written: check for a
      job, and after NOOP or JOB_ASSIGN write GRAB_JOB again. The loops end when a read
      throws; a stream that runs dry ends them with `Stalled`. */
  function Loop(m: Registry, run: (Bytes, Task) -> Value, s: Bytes): (r: Served)
    ensures forall j :: j in r.jobs ==> WellTyped(j)
    decreases |s|
  {
    var step := Check(m, run, s);
    if step.job.Err? then Served([], [], step.rest, step.job.error)
    else
      var next := Loop(m, run, step.rest);
      Served([step.job.value] + next.jobs, step.writes + Again(step.job.value) + next.writes, next.rest, next.stop)
  }

  /** `work()`: a CAN_DO per registered job, a GRAB_JOB, then the loop. */
  function Session(m: Registry, run: (Bytes, Task) -> Value, s: Bytes): (r: Served)
    ensures r.jobs == Loop(m, run, s).jobs && r.rest == Loop(m, run, s).rest && r.stop == Loop(m, run, s).stop
  {
    var l := Loop(m, run, s);
    l.(writes := CanDos(m) + [NewGrabJob()] + l.writes)
  }

  /** The loops of `work()` as written, over the as-written `checkForJob`. */
  function LoopAsWritten(m: Registry, run: (Bytes, Task) -> Value, s: Bytes): (r: Served)
    decreases |s|
  {
    var step := CheckAsWritten(m, run, s);
    if step.job.Err? then Served([], [], step.rest, step.job.error)
    else
      var next := LoopAsWritten(m, run, step.rest);
      Served([step.job.value] + next.jobs, step.writes + Again(step.job.value) + next.writes, next.rest, next.stop)
  }

  /** `work()` as written: the CAN_DOs, a GRAB_JOB, then the as-written loops. */
  function SessionAsWritten(m: Registry, run: (Bytes, Task) -> Value, s: Bytes): (r: Served)
  {
    var l := LoopAsWritten(m, run, s);
    l.(writes := CanDos(m) + [NewGrabJob()] + l.writes)
  }

  /** The frames of a list of tasks as `__toString` writes them as written. */
  function WireAsWritten(ts: seq<Task>): (r: seq<Bytes>)
    ensures |r| == |ts| && forall i :: 0 <= i < |ts| ==> r[i] == ToStringAsWritten(ts[i]).0
  {
    if ts == [] then [] else [ToStringAsWritten(ts[0]).0] + WireAsWritten(ts[1..])
  }

  /** The packets written in answer to each handled job, in order. */
  function Replies(m: Registry, run: (Bytes, Task) -> Value, jobs: seq<Task>): (r: seq<Task>)
    requires forall j :: j in jobs ==> WellTyped(j)
  {
    if jobs == [] then [] else React(m, run, jobs[0]) + Again(jobs[0]) + Replies(m, run, jobs[1..])
  }

  /** The number of tasks of a type. */
  function Count(ts: seq<Task>, typ: int): (n: nat)
    ensures n <= |ts|
  {
    if ts == [] then 0 else (if ts[0].typ == typ then 1 else 0) + Count(ts[1..], typ)
  }

  lemma {:induction false} CountAppend(a: seq<Task>, b: seq<Task>, typ: int)
    ensures Count(a + b, typ) == Count(a, typ) + Count(b, typ)
  {
    if a == [] {
      assert a + b == b;
    } else {
      assert (a + b)[1..] == a[1..] + b;
      CountAppend(a[1..], b, typ);
    }
  }

  // ---------------------------------------------------------------------------
  // The worker.

  class Worker {
    var functions: Registry
    const adapter: Socket

    /** The registry has one entry per job name. `AddFunction` keeps it; it documents the
        registry's shape (as `Workers.PutDistinct` does), and no other contract of the
        worker depends on it. */
    predicate Valid()
      reads this
    {
      Distinct(Keys(functions))
    }

    /** A worker on its adapter, with nothing registered. */
    constructor (adapter: Socket)
      ensures this.adapter == adapter && functions == [] && Valid()
    {
      this.adapter := adapter;
      functions := [];
    }

    /** `addFunction($jobName, $functionName)`. */
    method AddFunction(jobName: Bytes, functionName: Value, defined: set<Bytes>) returns (failure: Option<Fault>)
      requires Valid()
      modifies this`functions
      ensures Valid()
      ensures match Registration(old(functions), jobName, functionName, defined)
              case Err(e) => failure == Some(e) && functions == old(functions)
              case Ok(m) => failure == None && functions == m
    {
      var name := jobName;
      if !LooseNull(functionName) {
        name := Str(functionName);
      }
      if LowerBytes(name) !in defined {
        return Some(NonExistentFunction);
      }
      PutDistinct(functions, jobName, name);
      functions := Put(functions, jobName, name);
      return None;
    }

    /** `updateStatus($jobHandle, $percentNum, $percentDen)`: one WORK_STATUS. */
    method UpdateStatus(jobHandle: Value, percentNum: Value, percentDen: Value)
      modifies adapter`written
      ensures adapter.written == old(adapter.written) + Wire([NewWorkStatus(jobHandle, percentNum, percentDen)])
    {
      var _ := adapter.Write(NewWorkStatus(jobHandle, percentNum, percentDen));
    }

    /** `checkForJob()`: read a task and answer it. */
    method CheckForJob(run: (Bytes, Task) -> Value) returns (r: Result<Task, Fault>)
      modifies adapter`written, adapter`inbound
      ensures var step := Check(functions, run, old(adapter.inbound));
              r == step.job && adapter.inbound == step.rest
              && adapter.written == old(adapter.written) + Wire(step.writes)
    {
      ghost var s := adapter.inbound;
      SocketReadWellTyped(s);
      var job := adapter.Read();
      if job.Err? {
        return job;
      }
      r := job;
      if job.value.typ == TYPE_NO_JOB {
        var _ := adapter.Write(NewPreSleep());
      } else if job.value.typ == TYPE_JOB_ASSIGN {
        AssignedJob(job.value);
        var output := Dispatch(functions, run, job.value);
        var task := NewWorkComplete(Get(job.value, JobHandle));
        task := SetWorkload(task, output);
        var _ := adapter.Write(task);
      }
    }

    /** The `foreach` at the start of `work()`: one CAN_DO per registered job name. */
    method RegisterCapabilities()
      modifies adapter`written
      ensures adapter.written == old(adapter.written) + Wire(CanDos(functions))
    {
      for i := 0 to |functions|
        invariant adapter.written == old(adapter.written) + Wire(CanDos(functions[..i]))
      {
        var _ := adapter.Write(NewCanDo(Text(functions[i].0)));
        CanDosExtend(functions, i);
        WireExtend(old(adapter.written), CanDos(functions[..i]), [NewCanDo(Text(functions[i].0))]);
      }
      assert functions[..|functions|] == functions;
    }

    /** `work()`: register every capability, then grab jobs for as long as the
        connection lasts. */
    method Work(run: (Bytes, Task) -> Value) returns (stop: Fault)
      modifies adapter`written, adapter`inbound
      ensures var session := Session(functions, run, old(adapter.inbound));
              stop == session.stop && adapter.inbound == session.rest
              && adapter.written == old(adapter.written) + Wire(session.writes)
    {
      ghost var s := adapter.inbound;
      ghost var w := adapter.written;
      RegisterCapabilities();
      ghost var goal := Session(functions, run, s);
      ghost var jobs: seq<Task> := [];
      ghost var done := CanDos(functions);
      SessionStart(functions, run, s);
      while true
        invariant adapter.written == w + Wire(done)
        invariant goal == After(jobs, done + [NewGrabJob()], Loop(functions, run, adapter.inbound))
        decreases |adapter.inbound|
      {
        var _ := adapter.Write(NewGrabJob());
        WireExtend(w, done, [NewGrabJob()]);
        done := done + [NewGrabJob()];
        var woke;
        woke, jobs, done := Await(run, goal, jobs, done, w);
        if woke.Err? {
          return woke.error;
        }
      }
    }

    /** The inner `while (true)` of `work()`: check for jobs until one is NOOP or
        JOB_ASSIGN (the `continue 2`), or until checking throws. */
    method Await(run: (Bytes, Task) -> Value, ghost goal: Served, ghost jobs: seq<Task>, ghost done: seq<Task>,
                 ghost w: seq<Bytes>)
      returns (woke: Result<Task, Fault>, ghost jobs': seq<Task>, ghost done': seq<Task>)
      requires adapter.written == w + Wire(done)
      requires goal == After(jobs, done, Loop(functions, run, adapter.inbound))
      modifies adapter`written, adapter`inbound
      ensures adapter.written == w + Wire(done')
      ensures woke.Err? ==> goal.stop == woke.error && goal.rest == adapter.inbound && goal.writes == done'
      ensures woke.Ok? ==> goal == After(jobs', done' + [NewGrabJob()], Loop(functions, run, adapter.inbound))
                           && |adapter.inbound| < old(|adapter.inbound|)
    {
      jobs', done' := jobs, done;
      ghost var top := |adapter.inbound|;
      while true
        invariant adapter.written == w + Wire(done')
        invariant goal == After(jobs', done', Loop(functions, run, adapter.inbound))
        invariant |adapter.inbound| <= top
        decreases |adapter.inbound|
      {
        ghost var before := adapter.inbound;
        woke := CheckForJob(run);
        ghost var step := Check(functions, run, before);
        if woke.Err? {
          return;
        }
        WireExtend(w, done', step.writes);
        AfterStep(jobs', done', functions, run, before);
        jobs' := jobs' + [woke.value];
        done' := done' + step.writes;
        if Wakes(woke.value.typ) {
          return;
        }
        assert done' + Again(woke.value) == done';
      }
    }
  }

  /** A session is the CAN_DOs and a GRAB_JOB, then the loop. */
  lemma SessionStart(m: Registry, run: (Bytes, Task) -> Value, s: Bytes)
    ensures Session(m, run, s) == After([], CanDos(m) + [NewGrabJob()], Loop(m, run, s))
  {
    assert [] + Loop(m, run, s).jobs == Loop(m, run, s).jobs;
  }

  /** The rest of a session after the handled jobs and written tasks so far. */
  function After(jobs: seq<Task>, writes: seq<Task>, rest: Served): (r: Served)
    ensures r.rest == rest.rest && r.stop == rest.stop
  {
    Served(jobs + rest.jobs, writes + rest.writes, rest.rest, rest.stop)
  }

  /** One handled job moves from the loop to the part already done. */
  lemma AfterStep(jobs: seq<Task>, writes: seq<Task>, m: Registry, run: (Bytes, Task) -> Value, s: Bytes)
    requires Check(m, run, s).job.Ok?
    ensures var step := Check(m, run, s);
            After(jobs, writes, Loop(m, run, s))
            == After(jobs + [step.job.value], writes + step.writes + Again(step.job.value), Loop(m, run, step.rest))
  {
    var step := Check(m, run, s);
    LoopOn(m, run, s);
    AfterPush(jobs, writes, step.job.value, step.writes + Again(step.job.value), Loop(m, run, step.rest));
  }

  lemma AfterPush(jobs: seq<Task>, writes: seq<Task>, job: Task, out: seq<Task>, next: Served)
    ensures After(jobs, writes, Served([job] + next.jobs, out + next.writes, next.rest, next.stop))
            == After(jobs + [job], writes + out, next)
  {
    assert jobs + ([job] + next.jobs) == jobs + [job] + next.jobs;
    assert writes + (out + next.writes) == writes + out + next.writes;
  }

  // ---------------------------------------------------------------------------
  // What the loop writes.

  /** The tasks written for one handled job, with the GRAB_JOB that may follow it:
      PRE_SLEEP and no GRAB_JOB after NO_JOB, GRAB_JOB after NOOP, the WORK_COMPLETE
      for the handle, carrying what the registered function returns, then GRAB_JOB
      after JOB_ASSIGN, and nothing after any other type. */
  lemma ReplyOrder(m: Registry, run: (Bytes, Task) -> Value, job: Task)
    requires WellTyped(job)
    ensures var out := React(m, run, job) + Again(job);
            (job.typ == TYPE_NO_JOB ==> out == [NewPreSleep()])
            && (job.typ == TYPE_NOOP ==> out == [NewGrabJob()])
            && (job.typ == TYPE_JOB_ASSIGN ==>
                  |out| == 2 && out[0].typ == TYPE_WORK_COMPLETE && out[1] == NewGrabJob()
                  && Get(out[0], JobHandle) == Get(job, JobHandle)
                  && Get(out[0], Workload) == Dispatch(m, run, job))
            && (job.typ != TYPE_NO_JOB && job.typ != TYPE_NOOP && job.typ != TYPE_JOB_ASSIGN ==> out == [])
  {
    if job.typ == TYPE_JOB_ASSIGN {
      AssignedJob(job);
    }
  }

  /** The number of tasks of each type the worker writes for one job. */
  lemma ReplyCount(m: Registry, run: (Bytes, Task) -> Value, job: Task)
    requires WellTyped(job)
    ensures var out := React(m, run, job) + Again(job);
            Count(out, TYPE_PRE_SLEEP) == (if job.typ == TYPE_NO_JOB then 1 else 0)
            && Count(out, TYPE_WORK_COMPLETE) == (if job.typ == TYPE_JOB_ASSIGN then 1 else 0)
            && Count(out, TYPE_GRAB_JOB) == (if Wakes(job.typ) then 1 else 0)
            && Count(out, TYPE_CAN_DO) == 0
  {
    ReplyOrder(m, run, job);
    var out := React(m, run, job) + Again(job);
    if |out| == 2 {
      assert out[1..][1..] == [];
    } else if |out| == 1 {
      assert out[1..] == [];
    }
  }

  /** The replies to a list of handled jobs: one PRE_SLEEP per NO_JOB, one
      WORK_COMPLETE per JOB_ASSIGN, one GRAB_JOB per NOOP or JOB_ASSIGN, no CAN_DO. */
  lemma {:induction false} RepliesCount(m: Registry, run: (Bytes, Task) -> Value, jobs: seq<Task>)
    requires forall j :: j in jobs ==> WellTyped(j)
    ensures Count(Replies(m, run, jobs), TYPE_PRE_SLEEP) == Count(jobs, TYPE_NO_JOB)
    ensures Count(Replies(m, run, jobs), TYPE_WORK_COMPLETE) == Count(jobs, TYPE_JOB_ASSIGN)
    ensures Count(Replies(m, run, jobs), TYPE_GRAB_JOB) == Count(jobs, TYPE_NOOP) + Count(jobs, TYPE_JOB_ASSIGN)
    ensures Count(Replies(m, run, jobs), TYPE_CAN_DO) == 0
  {
    if jobs != [] {
      var j := jobs[0];
      var out := React(m, run, j) + Again(j);
      var more := Replies(m, run, jobs[1..]);
      RepliesCount(m, run, jobs[1..]);
      ReplyCount(m, run, j);
      assert Replies(m, run, jobs) == out + more;
      CountAppend(out, more, TYPE_PRE_SLEEP);
      CountAppend(out, more, TYPE_WORK_COMPLETE);
      CountAppend(out, more, TYPE_GRAB_JOB);
      CountAppend(out, more, TYPE_CAN_DO);
    }
  }

  /** Everything the loop writes is a reply to a job it handled, in the order the
      jobs came. */
  lemma {:induction false} LoopReplies(m: Registry, run: (Bytes, Task) -> Value, s: Bytes)
    ensures Loop(m, run, s).writes == Replies(m, run, Loop(m, run, s).jobs)
    decreases |s|
  {
    var step := Check(m, run, s);
    if step.job.Ok? {
      var next := Loop(m, run, step.rest);
      LoopReplies(m, run, step.rest);
      assert Loop(m, run, s).jobs == [step.job.value] + next.jobs;
      assert ([step.job.value] + next.jobs)[1..] == next.jobs;
    }
  }

  /** The CAN_DOs are CAN_DO tasks, one per registered job name. */
  lemma {:induction false} CanDosCount(m: Registry)
    ensures Count(CanDos(m), TYPE_CAN_DO) == |m|
    ensures Count(CanDos(m), TYPE_GRAB_JOB) == 0
    ensures Count(CanDos(m), TYPE_PRE_SLEEP) == 0
    ensures Count(CanDos(m), TYPE_WORK_COMPLETE) == 0
  {
    if m != [] {
      CanDosCount(m[1..]);
      assert CanDos(m)[1..] == CanDos(m[1..]);
    }
  }

  /** A session opens with one CAN_DO per registered job name, in registry order, and
      a GRAB_JOB before anything is read. */
  lemma SessionOpens(m: Registry, run: (Bytes, Task) -> Value, s: Bytes)
    ensures var w := Session(m, run, s).writes;
            |w| > |m| && w[|m|] == NewGrabJob()
            && forall i :: 0 <= i < |m| ==> w[i] == NewCanDo(Text(m[i].0))
  {
  }

  /** Over a whole session: one CAN_DO per registered job name, one GRAB_JOB more than
      the NOOPs and JOB_ASSIGNs read, one PRE_SLEEP per NO_JOB and one WORK_COMPLETE
      per JOB_ASSIGN. */
  lemma SessionCounts(m: Registry, run: (Bytes, Task) -> Value, s: Bytes)
    ensures var r := Session(m, run, s);
            Count(r.writes, TYPE_CAN_DO) == |m|
            && Count(r.writes, TYPE_GRAB_JOB) == 1 + Count(r.jobs, TYPE_NOOP) + Count(r.jobs, TYPE_JOB_ASSIGN)
            && Count(r.writes, TYPE_PRE_SLEEP) == Count(r.jobs, TYPE_NO_JOB)
            && Count(r.writes, TYPE_WORK_COMPLETE) == Count(r.jobs, TYPE_JOB_ASSIGN)
  {
    var l := Loop(m, run, s);
    var head := CanDos(m) + [NewGrabJob()];
    LoopReplies(m, run, s);
    RepliesCount(m, run, l.jobs);
    CanDosCount(m);
    assert [NewGrabJob()][1..] == [];
    CountAppend(CanDos(m), [NewGrabJob()], TYPE_CAN_DO);
    CountAppend(CanDos(m), [NewGrabJob()], TYPE_GRAB_JOB);
    CountAppend(CanDos(m), [NewGrabJob()], TYPE_PRE_SLEEP);
    CountAppend(CanDos(m), [NewGrabJob()], TYPE_WORK_COMPLETE);
    CountAppend(head, l.writes, TYPE_CAN_DO);
    CountAppend(head, l.writes, TYPE_GRAB_JOB);
    CountAppend(head, l.writes, TYPE_PRE_SLEEP);
    CountAppend(head, l.writes, TYPE_WORK_COMPLETE);
  }

  // ---------------------------------------------------------------------------
  // Dispatch and the log line, as written.

  /** Job "rev" registered to the function "my", and only "my" defined: as written the
      job calls "rev", which does not exist, and completes with null; through the
      registry it completes with what "my" returns. */
  lemma DispatchIgnoresRegistry(run: (Bytes, Task) -> Value, handle: Bytes, workload: Bytes)
    ensures var rev: Bytes := [114, 101, 118];
            var my: Bytes := [109, 121];
            var job := Task(Response, TYPE_JOB_ASSIGN, Null, JobAssign(Text(handle), Text(rev), Text(workload)));
            DispatchAsWritten({my}, run, job) == Null
            && Dispatch([(rev, my)], run, job) == run(my, job)
  {
    var rev: Bytes := [114, 101, 118];
    assert LowerBytes(rev) == rev;
  }

  /** When a job name is registered to itself, the default of `addFunction`, the code
      as written and the registry agree. */
  lemma DispatchAgrees(m: Registry, defined: set<Bytes>, run: (Bytes, Task) -> Value, job: Task)
    requires job.body.JobAssign?
    requires var f := Str(Get(job, FunctionName)); Lookup(m, f) == Some(f) && LowerBytes(f) in defined
    ensures Dispatch(m, run, job) == DispatchAsWritten(defined, run, job)
  {
  }

  /** As written, every task read throws at the log line, so no job is answered and
      nothing is written. */
  lemma CheckAsWrittenThrows(m: Registry, run: (Bytes, Task) -> Value, s: Bytes)
    requires SocketRead(s).result.Ok?
    ensures CheckAsWritten(m, run, s)
            == Step(Err(MethodNotFound("getTypeName")), [], s[SocketRead(s).consumed..])
  {
    TypeNameUnresolved(SocketRead(s).result.value.body);
  }

  /** As written, `work()` writes a CAN_DO per job name and one GRAB_JOB, and its first
      read ends it: a task read throws at the log line, a failed read with its own
      fault. No job is handled, and every CAN_DO goes out with an empty payload. */
  lemma SessionAsWrittenStops(m: Registry, run: (Bytes, Task) -> Value, s: Bytes)
    ensures var r := SessionAsWritten(m, run, s);
            var o := SocketRead(s);
            r.jobs == [] && r.writes == CanDos(m) + [NewGrabJob()] && r.rest == s[o.consumed..]
            && r.stop == (if o.result.Ok? then MethodNotFound("getTypeName") else o.result.error)
    ensures var w := WireAsWritten(SessionAsWritten(m, run, s).writes);
            |w| == |m| + 1 && w[|m|] == Frame(Request, TYPE_GRAB_JOB, [])
            && forall i :: 0 <= i < |m| ==> w[i] == Frame(Request, TYPE_CAN_DO, [])
  {
    var o := SocketRead(s);
    if o.result.Ok? {
      CheckAsWrittenThrows(m, run, s);
    }
    assert CanDos(m) + [NewGrabJob()] + [] == CanDos(m) + [NewGrabJob()];
    var w := WireAsWritten(CanDos(m) + [NewGrabJob()]);
    forall i | 0 <= i < |m|
      ensures w[i] == Frame(Request, TYPE_CAN_DO, [])
    {
      CanDoPayload(m[i].0);
    }
  }

  /** Every task the socket reads has a type name for the log line. */
  lemma ReadTaskNamed(s: Bytes)
    requires SocketRead(s).result.Ok?
    ensures TypeName(SocketRead(s).result.value).Some?
  {
    SocketReadWellTyped(s);
    var t := SocketRead(s).result.value;
    if !t.body.SubmitJob? {
      LookupInverse(Class(t.body), t.typ);
    }
  }

  // ---------------------------------------------------------------------------
  // Steps of the loop on given frames.

  /** A NO_JOB frame: the worker writes PRE_SLEEP and reads on after the frame. */
  lemma NoJobStep(m: Registry, run: (Bytes, Task) -> Value, rest: Bytes)
    ensures Check(m, run, Frame(Response, TYPE_NO_JOB, []) + rest)
            == Step(Ok(Task(Response, TYPE_NO_JOB, Int(0), NoJob)), [NewPreSleep()], rest)
  {
    SocketReadsEmpty(NO_JOB, rest);
    var s := Frame(Response, TYPE_NO_JOB, []) + rest;
    assert s[12..] == rest;
  }

  /** A task read and answered: the loop handles it and goes on after it. */
  lemma CheckAnswers(m: Registry, run: (Bytes, Task) -> Value, s: Bytes, job: Task, writes: seq<Task>, k: nat)
    requires SocketRead(s) == Outcome(Ok(job), k)
    requires WellTyped(job) && React(m, run, job) == writes
    ensures Check(m, run, s) == Step(Ok(job), writes, s[k..])
  {
  }

  /** The answer to a JOB_ASSIGN for a registered job name. */
  lemma AnswerAssign(m: Registry, run: (Bytes, Task) -> Value, job: Task)
    requires job.typ == TYPE_JOB_ASSIGN && WellTyped(job) && job.body.JobAssign?
    requires Lookup(m, Str(Get(job, FunctionName))).Some?
    ensures React(m, run, job)
            == [SetWorkload(NewWorkComplete(Get(job, JobHandle)), run(Lookup(m, Str(Get(job, FunctionName))).value, job))]
  {
    DispatchFound(m, run, job);
  }

  lemma DispatchFound(m: Registry, run: (Bytes, Task) -> Value, job: Task)
    requires job.body.JobAssign? && Lookup(m, Str(Get(job, FunctionName))).Some?
    ensures Dispatch(m, run, job) == run(Lookup(m, Str(Get(job, FunctionName))).value, job)
  {
  }

  /** The properties of an assigned job are its fields. */
  lemma AssignGets(handle: Bytes, name: Bytes, workload: Bytes, length: Value)
    ensures var job := Task(Response, TYPE_JOB_ASSIGN, length, JobAssign(Text(handle), Text(name), Text(workload)));
            Get(job, JobHandle) == Text(handle) && Str(Get(job, FunctionName)) == name
  {
  }

  /** A JOB_ASSIGN frame for a registered job name: the worker writes one WORK_COMPLETE
      with the handle and what the registered function returns for the job. */
  lemma JobStep(m: Registry, run: (Bytes, Task) -> Value, handle: Bytes, name: Bytes, workload: Bytes, rest: Bytes)
    requires NulFree(handle) && NulFree(name)
    requires |handle + [NUL] + name + [NUL] + workload| < TWO32
    requires Lookup(m, name).Some?
    ensures var payload := handle + [NUL] + name + [NUL] + workload;
            var job := Task(Response, TYPE_JOB_ASSIGN, Int(|payload|), JobAssign(Text(handle), Text(name), Text(workload)));
            var step := Check(m, run, Frame(Response, TYPE_JOB_ASSIGN, payload) + rest);
            step.job == Ok(job) && step.rest == rest
            && step.writes == [SetWorkload(NewWorkComplete(Text(handle)), run(Lookup(m, name).value, job))]
  {
    var payload := handle + [NUL] + name + [NUL] + workload;
    var job := Task(Response, TYPE_JOB_ASSIGN, Int(|payload|), JobAssign(Text(handle), Text(name), Text(workload)));
    var s := Frame(Response, TYPE_JOB_ASSIGN, payload) + rest;
    JobAssignOverSocket(handle, name, workload, rest);
    SocketReadWellTyped(s);
    AssignGets(handle, name, workload, Int(|payload|));
    AnswerAssign(m, run, job);
    CheckAnswers(m, run, s, job, React(m, run, job), 12 + |payload|);
    assert s[12 + |payload|..] == rest;
  }

  /** A handled job moves from the loop to its result. */
  lemma LoopOn(m: Registry, run: (Bytes, Task) -> Value, s: Bytes)
    requires Check(m, run, s).job.Ok?
    ensures var step := Check(m, run, s);
            var next := Loop(m, run, step.rest);
            Loop(m, run, s)
            == Served([step.job.value] + next.jobs, step.writes + Again(step.job.value) + next.writes, next.rest, next.stop)
  {
  }

  /** On a dry stream the worker waits: nothing is handled or written. */
  lemma DryLoop(m: Registry, run: (Bytes, Task) -> Value)
    ensures Loop(m, run, []) == Served([], [], [], Stalled)
  {
    assert Resync([]).None?;
  }

  /** After NO_JOB the loop writes PRE_SLEEP and reads on, with no GRAB_JOB. */
  lemma NoJobLoop(m: Registry, run: (Bytes, Task) -> Value, rest: Bytes)
    ensures var next := Loop(m, run, rest);
            Loop(m, run, Frame(Response, TYPE_NO_JOB, []) + rest)
            == Served([Task(Response, TYPE_NO_JOB, Int(0), NoJob)] + next.jobs, [NewPreSleep()] + next.writes,
                      next.rest, next.stop)
  {
    var s := Frame(Response, TYPE_NO_JOB, []) + rest;
    NoJobStep(m, run, rest);
    LoopOn(m, run, s);
    assert [NewPreSleep()] + Again(Task(Response, TYPE_NO_JOB, Int(0), NoJob)) == [NewPreSleep()];
  }

  /** A JOB_ASSIGN frame for a registered job name and nothing after it: the job is
      handled, WORK_COMPLETE and GRAB_JOB are written, and the worker waits. */
  lemma JobThenDry(m: Registry, run: (Bytes, Task) -> Value, handle: Bytes, name: Bytes, workload: Bytes)
    requires NulFree(handle) && NulFree(name)
    requires |handle + [NUL] + name + [NUL] + workload| < TWO32
    requires Lookup(m, name).Some?
    ensures var payload := handle + [NUL] + name + [NUL] + workload;
            var job := Task(Response, TYPE_JOB_ASSIGN, Int(|payload|), JobAssign(Text(handle), Text(name), Text(workload)));
            Loop(m, run, Frame(Response, TYPE_JOB_ASSIGN, payload))
            == Served([job], [SetWorkload(NewWorkComplete(Text(handle)), run(Lookup(m, name).value, job)), NewGrabJob()],
                      [], Stalled)
  {
    var payload := handle + [NUL] + name + [NUL] + workload;
    var s := Frame(Response, TYPE_JOB_ASSIGN, payload);
    assert s + [] == s;
    var job := Task(Response, TYPE_JOB_ASSIGN, Int(|payload|), JobAssign(Text(handle), Text(name), Text(workload)));
    var done := SetWorkload(NewWorkComplete(Text(handle)), run(Lookup(m, name).value, job));
    JobStep(m, run, handle, name, workload, []);
    DryLoop(m, run);
    LoopOn(m, run, s);
    assert Again(job) == [NewGrabJob()];
    assert [job] + [] == [job];
    assert [done] + [NewGrabJob()] + [] == [done, NewGrabJob()];
  }
}
